=== FILE: README.md ===
# html-duration-picker, modelled in Dafny

html-duration-picker turns an `<input>` into a duration editor. The field
holds the text `D.. | HH:MM:SS.mmm`: days, hours, minutes, seconds and
milliseconds. The editor moves the selection between those five fields,
steps the selected field with the arrow keys, repairs what the user types,
and clamps the value between the `data-duration-min` and
`data-duration-max` attributes.

This project models `src/html-duration-picker.js` without its DOM
bootstrap. The modules are:

- `Wrappers`: `Option`, and `Result`. A `Result` is `Ok(v)` or
  `TypeError`, which stands for the JavaScript exception the code throws
  when it reads a property of `undefined`.
- `JsString`: the JavaScript string operations the code calls: `indexOf`,
  `lastIndexOf`, `slice`, `split`, `padStart`, `trim` and the decimal text
  of a number.
- `JsNumbers`: the JavaScript `Number` values the code computes with.
  - A value is `NaN`, `±Infinity` or an exact `real`.
  - `ToNumber` is the ECMAScript conversion from text to number.
  - The module also has the comparisons, which are false on `NaN`, and
    the `+`, `*`, `Math.max` and `Math.min` the code uses.
- `Codec`: the conversion between milliseconds and text:
  - `milliSecondsToDuration` (`Encode`),
  - `durationToMilliSeconds`,
  - `getSectioned`.
- `Locator`: how `getCursorSelection` classifies a caret offset, and the
  ranges that `handleClickFocus` and `highlightTimeUnitArea` select.
- `Bounds`:
  - `applyMinMaxConstraints`,
  - `isValidDurationFormat`, as a hand-written recogniser of its regular
    expression,
  - `getDurationAttributeValue`, `getMinMaxConstraints` and
    `getInitialDuration`,
  - the `charsForHours` width.
- `Validate`: `validateValue`. It has a method that overwrites the
  entries one by one, as the JavaScript does. The method is proved against a
  function that states the repair.
- `Editor`: the decisions of the handlers as functions:
  - the value the arrow keys store,
  - the value a blur leaves,
  - the keys `handleKeydown` refuses,
  - the tab-in decision of `handleInputFocus`.
- `Handlers`: the effect of each handler on the field, that is its value,
  its selection and its stored adjustment factor.
  - Each handler is modelled as a function of the field and the
    attributes.
  - The selection follows the DOM rules. `setSelectionRange` clamps both
    ends to the length and lowers the start to the end. Setting
    `selectionStart` raises the end to it. Setting `selectionEnd` lowers
    the start to it. Offsets are converted as WebIDL `unsigned long`.
- `Picker`: the class `DurationPicker`.
  - Its fields are `value`, `selectionStart`, `selectionEnd`,
    `adjustmentFactor` (the `data-adjustment-factor` attribute) and the
    three attribute strings.
  - Its methods are the handlers of the JavaScript, written step by step. Each one
    is proved to leave the field in the state the matching `Handlers`
    function describes.
  - Methods return whether the default action was prevented and whether
    the handler ran to the end. A handler that throws stops without
    finishing.

The modelled attributes follow one convention. An absent attribute is the
empty text. The JavaScript truthiness test `value && …` then fails on it,
as the code expects.

Where the behaviour of the code differs from its comments or from its
documentation, the model follows the code:

- The default maximum at `src/html-duration-picker.js:627` is
  8,643,540,999 ms. That is 100 days 00:59:00.999, not the
  "99|23:59:59.999 … 8553599999" its comment states. Clamped values can
  therefore have three day digits (`Bounds.DefaultMaxFields`).
- `durationToMilliSeconds` caps the minutes and seconds at 59 but not the
  hours. So `"00 | 12:75:10.000"` decodes to 46,750,000
  (`Codec.DecodeMinutesCapped`).
- `validateValue` checks the entries at indices 1 and 2, the hours and
  the minutes, although its comments name minutes and seconds. It joins
  its repaired entries with `":"`. No entry holds `" | "`, and a `":"`
  cannot form part of one, so the repaired text has no `" | "`; it may
  still hold a `"|"`, as in `"00 | 12:75:1|0.000"`, repaired to
  `"00:12:59:1|0:000"`. `durationToMilliSeconds` throws on such a text,
  either because it has no `"|"` or inside `getSectioned`. So
  `handleInputBlur` and `handleUserInput` throw whenever a repair of five
  entries fires (`Validate.RepairUndecodable`, `Editor.BlurRepairThrows`,
  `Handlers.UserInputRepairThrows`). A value with other than five entries
  is replaced by `"00 | 00:00:00.000"`, which decodes to 0
  (`Validate.ValidatedFallback`).
- `validateValue` never looks at the seconds. A blur of
  `"00 | 12:30:xx.000"` therefore decodes the seconds as NaN, and the whole
  sum is NaN; the clamp keeps NaN, and the box receives
  `"NaN | NaN:NaN:NaN.NaN"`. A second blur repairs the days of that text
  and so throws. `Editor.BlurIdempotent` holds only for shaped texts, whose
  fields are all digits.
- The decisions of `handleUserInput` each read the entry left of their
  zone. The hours are done when the days entry is as long as
  `charsForHours`, 7 under the default maximum, so with fewer day digits
  typing in the hours never moves on (`Handlers.UserInputHoursWait`). The
  minutes are done on the length of the hours entry, and the seconds are
  highlighted on the length of the minutes entry
  (`Handlers.UserInputSecondsReadsMinutes`).
- Shift-Tab is intercepted only while the factor is below 3600, that is in
  the seconds and milliseconds. From the minutes or the hours it is neither
  prevented nor acted on, so focus leaves the box
  (`Handlers.KeydownTabFromMinutes`).
- Every text `isValidDurationFormat` accepts lacks `"|"`. Setting such a
  text as an attribute makes `getDurationAttributeValue` throw
  (`Bounds.ValidFormatUndecodable`, `Bounds.AttributeValueOutcome`).
- ArrowLeft multiplies the step by 1000 unless the selection starts at
  offset 5. From the days it gives 864000, which highlights the minutes
  and is stored as it is, so a following ArrowRight divides it by 60 and
  stores 14400 with the seconds highlighted (`Locator.ShiftBackFromDays`).
  From the minutes it gives 60,000,000, which highlights the hours and is
  stored, so the next arrow steps by 16 h 40 min. From the hours of a text
  with more than two day digits it gives 3,600,000,000, which highlights
  the days but is not stored (`Locator.ShiftLeftSteps`).
- `charsForHours` divides a millisecond maximum by 3600. Under the default
  maximum it is 7 (`Bounds.DefaultCharsForHours`).

## Model

Lemmas that pass "" for `data-duration-min` and `data-duration-max` are stated for absent bound attributes. A bound attribute in the duration format makes every handler that reads the constraints throw (`Bounds.ConstraintsOutcome`), and one in any other format reads as absent.

| member | source | states |
|---|---|---|
| JsNumbers.ToNumber | src/html-duration-picker.js:374-378 | Converting a string that is empty or only white space gives 0. |
| JsNumbers.ToNumberOfDigits | src/html-duration-picker.js:374-378 | A non-empty run of decimal digits converts to the number it spells. |
| JsNumbers.ToNumberOfPaddedDigits | src/html-duration-picker.js:374-378 | Trailing white space after a run of digits, as in the days text before " \| ", does not change the number. |
| JsNumbers.NaNWhenLetterLed | src/html-duration-picker.js:566-571 | A text that starts with a character no numeric literal can start with, does not end in white space and is not "Infinity" converts to NaN, so isNaN holds for it. |
| Codec.Decompose | src/html-duration-picker.js:339-348 | The fields of a non-negative number of milliseconds: hours below 24, minutes and seconds below 60, and their weighted sum equal to the input rounded half up. |
| Codec.EncodeCanonical | src/html-duration-picker.js:339-357 | milliSecondsToDuration of every natural number is a text with at least two day digits, then " \| ", two-digit hours below 24, two-digit minutes and seconds below 60, and three milliseconds digits. Read back, those fields give the number. |
| Codec.EncodeLength | src/html-duration-picker.js:351-356 | Below 100 days, the encoding is exactly 17 characters long. |
| Codec.EncodeShort | src/html-duration-picker.js:351-356 | Below 1000 days, the encoding is 17 or 18 characters long. |
| Codec.MilliSecondsToDuration | src/html-duration-picker.js:339-357 | No contract of its own: the definition of milliSecondsToDuration, the template filled with the padded fields of Decompose, or "NaN" in every field. Codec.EncodeCanonical, Codec.EncodeWhole and Codec.RoundTrip state what it produces. |
| Codec.Encode | src/html-duration-picker.js:339-357 | No contract of its own: milliSecondsToDuration of a whole number of milliseconds. Its properties are Codec.EncodeWhole, Codec.EncodeCanonical and Codec.RoundTrip. |
| Codec.EncodeWhole | src/html-duration-picker.js:339-357 | The encoding of a whole number n is its days n div 86400000 padded to two digits, then " \| ", then its hours, minutes and seconds padded to two digits and its milliseconds padded to three. |
| Codec.EncodeZero | src/html-duration-picker.js:339-357 | 0 encodes as "00 \| 00:00:00.000". |
| Codec.EncodeOnes | src/html-duration-picker.js:339-357 | 90,061,001 encodes as "01 \| 01:01:01.001". |
| Codec.RoundTrip | src/html-duration-picker.js:339-381 | durationToMilliSeconds(milliSecondsToDuration(n)) is n for every natural n. |
| Codec.GetSectioned | src/html-duration-picker.js:53-60 | Succeeds exactly when the text contains " \| ", and otherwise throws. On success it yields at least three entries, every one present except possibly the last. |
| Codec.ShapedSectioned | src/html-duration-picker.js:53-60 | On a shaped text, the entries are the days, hours, minutes, seconds and milliseconds fields. |
| Codec.DurationToMilliSeconds | src/html-duration-picker.js:363-381 | No contract of its own: the definition of durationToMilliSeconds. Codec.DecodeOutcome, Codec.DecodeShaped and Codec.RoundTrip state what it returns. |
| Codec.DecodeOutcome | src/html-duration-picker.js:363-370 | Decoding throws exactly when the text has a ":" but no " \| ". A text without ":" decodes to 0. |
| Codec.DecodeShaped | src/html-duration-picker.js:363-381 | A shaped text decodes to days·86400000 + hours·3600000 + the minutes capped at 59 ·60000 + the seconds capped at 59 ·1000 + the milliseconds capped at 999. |
| Codec.DecodeCanonical | src/html-duration-picker.js:363-381 | A canonical text decodes to the duration its fields denote. |
| Codec.DecodeEndOfDay | src/html-duration-picker.js:373-379 | "00 \| 23:59:59.999" decodes to 86,399,999. |
| Codec.DecodeMinutesCapped | src/html-duration-picker.js:373-379 | "00 \| 12:75:10.000" decodes to 46,750,000, because the minutes count as 59. |
| Codec.DecodeBareClock | src/html-duration-picker.js:367-368 | "12:00:00" has a ":" but no "\|", so decoding it throws. |
| Locator.GetCursorSelection | src/html-duration-picker.js:13-51 | No contract of its own: the zone of the selection start, the four markers and the selected text. Locator.ShapedZones and Locator.ClickSelectsField state what it finds. |
| Locator.ZoneAt | src/html-duration-picker.js:27-41 | No contract of its own: the first marker the offset does not pass names the zone. Locator.ZoneMonotone and Locator.ShapedZones state its properties. |
| Locator.ClickRange | src/html-duration-picker.js:117-141 | No contract of its own: the range handleClickFocus selects for each zone, from the markers. Locator.ClickSelectsField and Locator.ClickAgreesWithHighlight state what it selects on a shaped text. |
| Locator.HighlightStart | src/html-duration-picker.js:202-219 | No contract of its own: the selectionStart highlightTimeUnitArea assigns for each zone. Locator.HighlightSelectsField states the range it starts. |
| Locator.HighlightEnd | src/html-duration-picker.js:202-219 | No contract of its own: the start plus the length of the zone's getSectioned entry, throwing on an undefined entry. Locator.HighlightSelectsField states that on a shaped text it ends the zone's field. |
| Locator.StoredFactor | src/html-duration-picker.js:220-225 | No contract of its own: the factor written back, 1 for the milliseconds, and only when it lies between 1 and a day. Locator.StoredFactorZone states its range and that it re-selects the same zone. |
| Locator.ZoneMonotone | src/html-duration-picker.js:21-41 | The zone never moves back as the offset grows. That an offset has exactly one zone holds because ZoneAt is a function. |
| Locator.ShapedMarkers | src/html-duration-picker.js:21-24 | On a shaped text with k day digits, the markers are at k, k+5, k+8 and k+11. |
| Locator.ShapedZones | src/html-duration-picker.js:21-41 | On a shaped text with k day digits, the offsets up to k are days, up to k+5 hours, up to k+8 minutes, up to k+11 seconds, and the rest milliseconds. |
| Locator.EncodedZones | src/html-duration-picker.js:21-41 | On the encoding of a value below 100 days, offsets 0–2 are days, 3–7 hours, 8–10 minutes, 11–13 seconds, and 14 and above milliseconds. |
| Locator.ClickSelectsField | src/html-duration-picker.js:113-142 | A click anywhere in a shaped text selects exactly the text of the field it lands in. |
| Locator.StoredFactorZone | src/html-duration-picker.js:202-225 | A stored factor lies between 1 and 86400000 and highlights the same zone again. A step from 1000 to 86400000 is stored as given, one below 1000 is stored as 1, and one above a day is not stored. |
| Locator.HighlightSelectsField | src/html-duration-picker.js:195-226 | On a shaped text, highlightTimeUnitArea selects exactly the field of the zone that the step chooses, which is also that zone's getSectioned entry. |
| Locator.ClickAgreesWithHighlight | src/html-duration-picker.js:113-142 | The factor a click stores highlights the same range the click selected. |
| Locator.ShiftRightChain | src/html-duration-picker.js:279-300 | Repeated ArrowRight from the days walks the factor 86400000 → 3600000 → 60000 → 1000 → 1, and then stays at 1. |
| Locator.ShiftTarget | src/html-duration-picker.js:279-300 | No contract of its own: the step shiftTimeUnitAreaFocus hands on. Locator.ShiftRightChain and Locator.ShiftLeftSteps state where it leads. |
| Locator.ShiftBackFromDays | src/html-duration-picker.js:279-300 | On a shaped text, ArrowLeft from the days gives 864000, which highlights the minutes and is stored; ArrowRight from the minutes then gives 14400, which highlights the seconds and is stored. |
| Locator.ShiftLeftSteps | src/html-duration-picker.js:279-300 | Below a day, ArrowLeft multiplies any positive step by 1000 when the selection does not start at offset 5. A day or more gives 864000 (minutes), 1000 gives 1000000 (minutes), 1 gives 1000 (seconds), 60000 gives 60000000 (hours, stored), and 3600000 gives a day at offset 5 and 3600000000 (days, not stored) elsewhere. |
| Bounds.DefaultMaxFields | src/html-duration-picker.js:622-633 | The default maximum is 8,643,540,999, which is 100 days 00:59:00.999. |
| Bounds.ApplyMinMaxConstraints | src/html-duration-picker.js:326-332 | No contract of its own: Math.min(Math.max(value, min), max). Bounds.ClampInRange, Bounds.ClampIdentity and Bounds.ClampIdempotent state its properties. |
| Bounds.ClampInRange | src/html-duration-picker.js:326-332 | With lo ≤ hi, the clamp of a number lies in [lo, hi], and only NaN stays NaN. |
| Bounds.ClampIdentity | src/html-duration-picker.js:326-332 | A value already within the bounds is unchanged by the clamp. |
| Bounds.ClampIdempotent | src/html-duration-picker.js:326-332 | Clamping a value a second time with the same bounds gives the same value as clamping it once. |
| Bounds.IsValidDurationFormat | src/html-duration-picker.js:308-317 | No contract of its own: the recogniser of the two patterns. Bounds.FormatOfParts, Bounds.ValidFormatParts and Bounds.StrictIsLenient state what it accepts. |
| Bounds.FormatOfParts | src/html-duration-picker.js:308-317 | A text of three ":"-free parts is accepted exactly when the first part is 1 to 9 digits and the other two are clock groups. In strict mode a clock group is two digits with the first 0–5; in lenient mode it may also be a single digit 0–5. |
| Bounds.ValidFormatParts | src/html-duration-picker.js:308-317 | An accepted text is its three ":"-separated parts, and contains a ":" but no space. |
| Bounds.ValidFormatUndecodable | src/html-duration-picker.js:308-368 | durationToMilliSeconds throws on every accepted text. |
| Bounds.StrictIsLenient | src/html-duration-picker.js:308-317 | Every text the strict pattern accepts, the lenient one accepts too. |
| Bounds.StrictExample | src/html-duration-picker.js:308-317 | "12:30:45" is accepted in strict mode. |
| Bounds.LenientExample | src/html-duration-picker.js:308-317 | "3:3:59" is refused in strict mode and accepted in lenient mode. |
| Bounds.GetDurationAttributeValue | src/html-duration-picker.js:606-613 | No contract of its own: the decoded attribute when it is present and in the format, the default otherwise. Bounds.AttributeValueOutcome states the result. |
| Bounds.GetMinMaxConstraints | src/html-duration-picker.js:622-633 | No contract of its own: both attributes read with the defaults 0 and 8,643,540,999. Bounds.ConstraintsOutcome states the result. |
| Bounds.GetInitialDuration | src/html-duration-picker.js:635-639 | No contract of its own: the data-duration attribute with default 0, clamped. Bounds.InitialDurationZero states the result. |
| Bounds.CharsForHours | src/html-duration-picker.js:77-78 | No contract of its own: the number of characters of the maximum divided by 3600 and floored, or 0 below 1. Bounds.DefaultCharsForHours evaluates it. |
| Bounds.AttributeValueOutcome | src/html-duration-picker.js:606-613 | Reading an attribute throws exactly when it is a non-empty text in the duration format. Otherwise the result is the default. |
| Bounds.ConstraintsOutcome | src/html-duration-picker.js:622-633 | The constraints throw exactly when either attribute is formatted. Otherwise they are 0 and the default maximum. |
| Bounds.ConstrainedEncodable | src/html-duration-picker.js:622-633 | Under the constraints the clamp yields NaN or a value from 0 to the default maximum, which milliSecondsToDuration accepts. |
| Bounds.InitialDurationZero | src/html-duration-picker.js:635-639 | getInitialDuration throws exactly when one of the three attributes is formatted. Otherwise it is 0. |
| Bounds.DefaultCharsForHours | src/html-duration-picker.js:77-78 | Under the default maximum, charsForHours is 7. |
| Validate.RepairedEntries | src/html-duration-picker.js:400-423 | No contract of its own: the days, hours and minutes entries repaired, the rest kept. Validate.RepairSectioned, Validate.RepairedInRange and the FiresIffChanges lemmas state its properties. |
| Validate.RepairSectioned | src/html-duration-picker.js:400-423 | Overwriting the entries in turn yields the repaired entries. The update flag is set exactly when a repair changed an entry. |
| Validate.Validated | src/html-duration-picker.js:389-428 | No contract of its own: what validateValue decides, as a function. Validate.ValidateValue is proved equal to it; Validate.ValidateShaped, Validate.RepairUndecodable and Validate.ValidatedFallback state its outcomes. |
| Validate.ValidateValue | src/html-duration-picker.js:389-428 | Throws without " \| ". Falls back to "00 \| 00:00:00.000" unless there are five entries. Otherwise returns the repaired entries joined with ":" when a repair fired, and `false` when none did. |
| Validate.RepairDaysFiresIffChanges | src/html-duration-picker.js:400-403 | The days repair fires exactly when it changes the entry, because "00" is a number. |
| Validate.RepairClockFiresIffChanges | src/html-duration-picker.js:405-423 | A clock repair fires exactly when it changes the entry. The replacements "00" and "59" are never themselves repaired. |
| Validate.RepairDaysEntry | src/html-duration-picker.js:400-403 | Overwrites the days entry with its repair, and reports a change exactly when the repair changed it. |
| Validate.RepairClockEntry | src/html-duration-picker.js:405-423 | Overwrites one clock entry with its repair ("00" for an invalid entry, then "59" for an oversized one), and reports a change exactly when the repair changed it. |
| Validate.RepairedInRange | src/html-duration-picker.js:400-423 | After repair, the days are a number, and the hours and minutes are numbers from 0 to 59 of at most two characters. |
| Validate.ValidateShaped | src/html-duration-picker.js:389-428 | A shaped text needs no repair exactly when its hours and minutes are at most 59. The seconds are never checked. |
| Validate.SectionedFree | src/html-duration-picker.js:53-60 | No getSectioned entry contains " \| ". |
| Validate.RepairUndecodable | src/html-duration-picker.js:389-428 | When five entries are repaired, the text joined with ":" contains no " \| ", so durationToMilliSeconds throws on it. |
| Validate.ValidatedFallback | src/html-duration-picker.js:389-398 | A value getSectioned splits into other than five entries is replaced by the encoding of 0, which decodes to 0. |
| Validate.ValidateEncoded | src/html-duration-picker.js:389-428 | validateValue returns `false` on every output of milliSecondsToDuration. |
| Editor.ArrowValue | src/html-duration-picker.js:255-272 | No contract of its own: decode, step, clamp and encode. Editor.ArrowOnDecoded and Editor.ArrowWholeStep state the result. |
| Editor.Stepped | src/html-duration-picker.js:259-269 | No contract of its own: the decode plus the factor, or minus it floored at 0. Editor.SteppedClamped and Editor.ArrowOnDecoded state the value it leads to. |
| Editor.EncodeConstrained | src/html-duration-picker.js:270-271 | No contract of its own: the clamp to the constraints and the encoding, throwing when reading the constraints does. Editor.EncodeConstrainedFinite states its outcome. |
| Editor.SteppedClamped | src/html-duration-picker.js:259-271 | A step followed by the default clamp is the arithmetic step clamped to [0, maximum]. Flooring a step down at 0 and then clamping agrees with clamping alone. |
| Editor.ArrowOnDecoded | src/html-duration-picker.js:255-272 | On a text that decodes to x, the arrows throw exactly when a bound attribute is formatted. Otherwise they store the encoding of x ± factor clamped to [0, maximum]. |
| Editor.ArrowWholeStep | src/html-duration-picker.js:255-272 | With no bound attributes, on the encoding of n, a whole step factor > 0 stores the encoding of n + factor, or of n − factor floored at 0, capped at the default maximum. |
| Editor.ClampDefault | src/html-duration-picker.js:326-332 | Clamping a finite value under the default constraints gives the value clamped to [0, maximum]. |
| Editor.EncodeConstrainedFinite | src/html-duration-picker.js:270-271 | Encoding a non-negative number under the constraints throws exactly when a bound attribute is formatted. Otherwise it is the encoding of the number clamped to [0, maximum]. |
| Editor.BlurredValue | src/html-duration-picker.js:434-451 | No contract of its own: the value handleInputBlur leaves. Editor.BlurOnDecoded, Editor.BlurRepairThrows, Editor.BlurFallback and Editor.BlurKeepsEncoded state it. |
| Editor.BlurRepairThrows | src/html-duration-picker.js:434-442 | A blur throws when validateValue repairs five entries. |
| Editor.BlurFallback | src/html-duration-picker.js:434-442 | A blur of a value with other than five entries throws exactly when a bound attribute is formatted, and otherwise leaves the encoding of 0. |
| Editor.BlurOnDecoded | src/html-duration-picker.js:434-451 | On a text that needs no repair and decodes to x, a blur throws exactly when a bound attribute is formatted. Otherwise it leaves the encoding of x clamped to [0, maximum]. |
| Editor.BlurKeepsEncoded | src/html-duration-picker.js:434-451 | A blur leaves the encoding of any value within the default maximum unchanged. |
| Editor.BlurIdempotent | src/html-duration-picker.js:434-451 | Blurring a shaped text (all fields digits) whose hours and minutes are at most 59 gives a text that a second blur leaves unchanged. |
| Editor.KeyRefused | src/html-duration-picker.js:580-603 | No contract of its own: the if/else-if chain of the additional validations. Editor.KeyRefusedShaped states its outcome on shaped values. |
| Editor.KeyRefusedShaped | src/html-duration-picker.js:580-603 | On a shaped value with at least two day digits and the default maximum, a key is refused unless the selection is seven hours characters, or two minutes or seconds characters and the key is not 6–9. |
| Editor.IsFilteredOut | src/html-duration-picker.js:566-572 | No contract of its own: isNaN of the key and not an accepted key. Editor.KeyFilterExamples, Editor.ChangeKeysFiltered and Editor.LetterFiltered state which keys it filters. |
| Editor.KeyFilterExamples | src/html-duration-picker.js:568-572 | Digit keys and " " pass the non-numeric filter, because `isNaN(' ')` is false. |
| Editor.ChangeKeysFiltered | src/html-duration-picker.js:568-572 | ArrowLeft, ArrowRight and Enter fall to the non-numeric filter. |
| Editor.LetterFiltered | src/html-duration-picker.js:568-572 | Every single-letter key is filtered out. |
| Editor.FocusSelectsDays | src/html-duration-picker.js:82-86 | No contract of its own: an empty selection at 0, more than charsForHours characters selected, or charsForHours of 0. Editor.FocusDecision states its outcome on shaped values. |
| Editor.FocusDecision | src/html-duration-picker.js:82-86 | Tabbing into a shaped field, with the caret at 0 or the whole text selected, highlights the days. On a shaped value with at most 7 day digits, a field a click selected does not. |
| Handlers.SelectRange | src/html-duration-picker.js:117-142 | setSelectionRange keeps start ≤ end ≤ length, and sets an in-range selection exactly as given. |
| Handlers.WithStart | src/html-duration-picker.js:202-221 | Setting selectionStart keeps the value and the factor and leaves a valid selection that starts at an in-range offset. |
| Handlers.WithEnd | src/html-duration-picker.js:202-221 | Setting selectionEnd keeps the start when the end is at or after it and within the text. |
| Handlers.WithValue | src/html-duration-picker.js:170-187 | Writing the value keeps the factor and a valid selection, and writing the same value changes nothing. |
| Handlers.GetAdjustmentFactor | src/html-duration-picker.js:228-235 | The factor is positive, and a positive attribute is used as it is. |
| Handlers.Highlight | src/html-duration-picker.js:195-226 | highlightTimeUnitArea never changes the value, and keeps the selection valid. |
| Handlers.HighlightShaped | src/html-duration-picker.js:195-226 | On a shaped value, highlighting completes, selects the field of the step's zone, and stores the step as StoredFactor says. |
| Handlers.Click | src/html-duration-picker.js:100-143 | A click keeps the value and a valid selection. |
| Handlers.ClickShaped | src/html-duration-picker.js:100-143 | On a shaped value, a click selects the field under the caret and stores that zone's factor. Highlighting with that factor changes nothing. |
| Handlers.Shift | src/html-duration-picker.js:279-300 | Shifting never changes the value, and keeps the selection valid. |
| Handlers.ShiftMinutesRight | src/html-duration-picker.js:279-300 | From the minutes of a shaped value, with the minutes' step 60000 stored, ArrowRight selects the seconds field and stores 1000. |
| Handlers.ArrowChange | src/html-duration-picker.js:255-272 | The arrows keep the factor and leave a valid selection. |
| Handlers.ArrowChangeEncoded | src/html-duration-picker.js:255-272 | With no bound attributes, on the encoding of n with a whole stored factor k > 0, the arrows store the encoding of the clamped n ± k. A stored factor of 0 steps by 1 (Handlers.ArrowChangeUnsetFactor). |
| Handlers.ArrowChangeUnsetFactor | src/html-duration-picker.js:228-235 | With no bound attributes and no positive factor stored, as when data-adjustment-factor is absent, the arrows on the encoding of n store the encoding of n ± 1, floored at 0 and capped at the default maximum. |
| Handlers.Blur | src/html-duration-picker.js:434-451 | A blur keeps the factor and leaves a valid selection. |
| Handlers.BlurKeepsField | src/html-duration-picker.js:434-451 | Blurring the encoding of a value within the default maximum leaves the field as it is. |
| Handlers.ApplyValidations | src/html-duration-picker.js:507-512 | insertAndApplyValidations keeps the factor and leaves a valid selection. |
| Handlers.ApplyValidationsDuration | src/html-duration-picker.js:507-512 | With an empty value and no bound attributes, when the data-duration decodes to a whole number n ≥ 0, Enter writes the encoding of n capped at the default maximum. |
| Handlers.ApplyValidationsEmpty | src/html-duration-picker.js:507-512 | With an empty value, no bound attributes and a data-duration without ":", Enter writes the encoding of 0, which is "00 \| 00:00:00.000" by Codec.EncodeZero. |
| Handlers.ApplyValidationsDecoded | src/html-duration-picker.js:507-512 | When the value, or the data-duration of an empty value, decodes to x ≥ 0, Enter throws exactly when a bound attribute is formatted, and otherwise writes the encoding of x clamped to [0, maximum]. |
| Handlers.ApplyValidationsEncoded | src/html-duration-picker.js:507-512 | On the encoding of a value within the default maximum, insertAndApplyValidations throws exactly when a bound attribute is formatted, and otherwise leaves the field as it is. |
| Handlers.KeydownEnterEncoded | src/html-duration-picker.js:520-572 | Enter on the encoding of a value within the default maximum, with no bound attributes, is prevented, runs to its end and leaves the field as it is. |
| Handlers.Repair | src/html-duration-picker.js:477-485 | The repair step of handleUserInput keeps the factor and leaves a valid selection. |
| Handlers.RepairThrows | src/html-duration-picker.js:477-485 | The repair step throws when validateValue repairs five entries. |
| Handlers.RepairFallback | src/html-duration-picker.js:477-485 | On a value with other than five entries, the repair step throws exactly when a bound attribute is formatted, and otherwise writes the encoding of 0. |
| Handlers.RepairReplaced | src/html-duration-picker.js:477-485 | When the repaired text decodes to x ≥ 0, the repair step writes the encoding of x clamped to [0, maximum], unless a bound attribute is formatted, when it throws. |
| Handlers.UserInput | src/html-duration-picker.js:459-505 | handleUserInput leaves a valid selection. |
| Handlers.UserInputRepairThrows | src/html-duration-picker.js:477-485 | Typing that leaves five entries which validateValue repairs throws in the repair step, so the field keeps its value. |
| Handlers.UserInputHoursWait | src/html-duration-picker.js:487-495 | With the caret in the hours of a shaped value with fewer than 7 day digits, and hours and minutes at most 59, handleUserInput runs to its end and leaves the field as it is. |
| Handlers.UserInputHoursDone | src/html-duration-picker.js:487-495 | With the caret in the hours of a shaped value with 7 or more day digits, and hours and minutes at most 59, handleUserInput shifts the selection right. |
| Handlers.UserInputInHours | src/html-duration-picker.js:487-495 | When no repair is needed and the caret is in the hours, typing shifts right exactly when the days entry has at least 7 characters, and otherwise leaves the field. |
| Handlers.UserInputSecondsReadsMinutes | src/html-duration-picker.js:502-504 | With the caret in the seconds and no repair needed, a minutes entry of two characters makes handleUserInput highlight the seconds, whatever the seconds entry. |
| Handlers.UserInputSecondsDone | src/html-duration-picker.js:502-504 | Typing in the seconds of a shaped value whose hours and minutes are at most 59 runs to its end, selects the seconds and stores 1000. |
| Handlers.UserInputMinutesDone | src/html-duration-picker.js:497-500 | Typing in the minutes of a shaped value whose hours and minutes are at most 59, with the minutes' step 60000 stored, moves the selection to the seconds and stores 1000. |
| Handlers.UserInputInMinutes | src/html-duration-picker.js:486-504 | With the caret in the minutes, no repair needed and an hours entry of at least two characters, handleUserInput ends as a shift to the right, whenever that shift completes. |
| Handlers.Validations | src/html-duration-picker.js:573-603 | The additional validations never change the field, and never undo an earlier preventDefault. |
| Handlers.ValidationsShaped | src/html-duration-picker.js:573-603 | On a shaped value with the default constraints, the validations run to the end. |
| Handlers.ChangeKeyStep | src/html-duration-picker.js:521-549 | The change-key stage leaves a valid selection. |
| Handlers.TabStep | src/html-duration-picker.js:551-565 | The Tab stage leaves a valid selection. |
| Handlers.KeydownTabFromMinutes | src/html-duration-picker.js:551-565 | With the minutes of a shaped value selected and their step stored, Shift-Tab is not prevented and leaves the field as it is, while Tab is prevented and selects the seconds with step 1000. |
| Handlers.KeyRefusedTab | src/html-duration-picker.js:580-603 | On a shaped value with at least two day digits, Tab with two characters of the minutes selected passes the additional validations without being refused. |
| Handlers.Keydown | src/html-duration-picker.js:520-604 | handleKeydown leaves a valid selection. |
| Handlers.KeydownFiltered | src/html-duration-picker.js:566-572 | A non-numeric key outside the accepted list, other than ArrowLeft, ArrowRight and Enter, is refused, and the field is left unchanged. |
| Handlers.KeydownPrevents | src/html-duration-picker.js:520-604 | ArrowLeft, ArrowRight and Enter are always refused when the handler completes. Keys other than the arrows, Tab and Enter never change the field. |
| Handlers.KeydownDigitShaped | src/html-duration-picker.js:566-603 | On a shaped value with at least two day digits, under the default constraints, a digit key leaves the field unchanged. It is refused unless seven hours characters are selected, or two minutes or seconds characters and the digit is not 6–9. |
| Handlers.KeydownArrowSteps | src/html-duration-picker.js:524-534 | ArrowUp and ArrowDown step the value, highlight with the factor read beforehand, prevent the default, and then run the validations. |
| Handlers.KeydownArrowCanonical | src/html-duration-picker.js:524-534 | When the stored value is canonical, the arrow keys leave it with the field of the factor's zone selected, and are refused. |
| Handlers.KeydownArrowEncoded | src/html-duration-picker.js:524-534 | With no bound attributes, on the encoding of n with a whole stored factor k > 0, ArrowUp and ArrowDown store the encoding of the clamped n ± k, select the field of k's zone, and are refused. |
| Handlers.FocusHighlightsDays | src/html-duration-picker.js:76-86 | No contract of its own: the constraints read, then the FocusSelectsDays test with their charsForHours. Handlers.FocusDefault states its outcome under the default constraints. |
| Handlers.FocusDefault | src/html-duration-picker.js:71-93 | Under the default constraints, tabbing in, with the caret at 0 or everything selected, highlights the days. After a click on a shaped value with at most 7 day digits it does not. |
| Picker.DurationPicker.SetSelectionRange | src/html-duration-picker.js:117-142 | setSelectionRange sets the clamped selection and nothing else. |
| Picker.DurationPicker.SetSelectionStart | src/html-duration-picker.js:202-221 | Assigning selectionStart changes the field as WithStart says. |
| Picker.DurationPicker.SetSelectionEnd | src/html-duration-picker.js:202-221 | Assigning selectionEnd changes the field as WithEnd says. |
| Picker.DurationPicker.SetValue | src/html-duration-picker.js:170-187 | Assigning the value changes the field as WithValue says. |
| Picker.DurationPicker.InsertFormatted | src/html-duration-picker.js:170-187 | Writes the encoding of the number, and reports a change exactly when the text differs from the old one. |
| Picker.DurationPicker.SelectEntry | src/html-duration-picker.js:202-221 | Sets the start, then ends the selection after the entry. It stops with the start set when the entry is undefined. |
| Picker.DurationPicker.SelectTimeUnit | src/html-duration-picker.js:202-221 | Selects the range of the step's zone, and returns the factor to store: the step, or 1 for milliseconds. |
| Picker.DurationPicker.HighlightTimeUnitArea | src/html-duration-picker.js:195-226 | Leaves the field as Handlers.Highlight says, and completes exactly when it does. |
| Picker.DurationPicker.ShiftTimeUnitAreaFocus | src/html-duration-picker.js:279-300 | Leaves the field as Handlers.Shift says. |
| Picker.DurationPicker.StepValue | src/html-duration-picker.js:259-269 | The stepped value is decode ± factor, with the decrease floored at 0. |
| Picker.DurationPicker.ChangeValueByArrowKeys | src/html-duration-picker.js:255-272 | Completes exactly when Handlers.ArrowChange succeeds, and leaves its field. On a throw nothing changes. |
| Picker.DurationPicker.HandleClickFocus | src/html-duration-picker.js:100-143 | Leaves the field as Handlers.Click says. |
| Picker.DurationPicker.HandleInputFocus | src/html-duration-picker.js:71-86 | Returns the tab-in decision, and throws exactly when the constraints do. |
| Picker.DurationPicker.InsertAndApplyValidations | src/html-duration-picker.js:507-512 | Leaves the field as Handlers.ApplyValidations says. On a throw nothing changes. So a decodable value x ≥ 0 is replaced by the encoding of x clamped to [0, maximum] (Handlers.ApplyValidationsDecoded), an encoding within the maximum is kept (Handlers.ApplyValidationsEncoded), and an empty value becomes "00 \| 00:00:00.000" (Handlers.ApplyValidationsEmpty). |
| Picker.DurationPicker.HandleInputBlur | src/html-duration-picker.js:434-451 | Leaves the field as Handlers.Blur says. On a throw nothing changes. So a decodable value is replaced by the encoding of its clamped decode (Editor.BlurOnDecoded), a value with five entries to repair throws (Editor.BlurRepairThrows), and one with other than five entries becomes the encoding of 0 (Editor.BlurFallback). |
| Picker.DurationPicker.RepairValue | src/html-duration-picker.js:477-485 | Runs validateValue and writes the clamped decode of a repair, as Handlers.Repair says. A repair of five entries throws (Handlers.RepairThrows), and other than five entries writes the encoding of 0 (Handlers.RepairFallback). |
| Picker.DurationPicker.HandleUserInput | src/html-duration-picker.js:459-505 | Leaves the field as Handlers.UserInput says, and completes exactly when it does. So it throws on a five-entry repair (Handlers.UserInputRepairThrows), waits in the hours until the days have 7 characters (Handlers.UserInputInHours), moves on from the minutes and the seconds (Handlers.UserInputMinutesDone, Handlers.UserInputSecondsDone). |
| Picker.DurationPicker.HandleChangeKey | src/html-duration-picker.js:521-549 | The change-key stage, as Handlers.ChangeKeyStep says. |
| Picker.DurationPicker.HandleTab | src/html-duration-picker.js:551-565 | The Tab stage, as Handlers.TabStep says. Through Handlers.Keydown, Tab from the minutes selects the seconds and Shift-Tab from them is not intercepted (Handlers.KeydownTabFromMinutes). |
| Picker.DurationPicker.KeyValidations | src/html-duration-picker.js:566-603 | Decides refusal, without changing the field, as Handlers.Validations says. |
| Picker.DurationPicker.HandleKeydown | src/html-duration-picker.js:520-604 | Leaves the field, the refusal and completion as Handlers.Keydown says. |

## Left out

- `_init` (lines 645-720) is not modelled. It is DOM queries, the wrapper element, CSS injection and a width computed from computed styles with `parseFloat`.
- `createEvent` and the `input`/`change` events that `insertFormatted` dispatches (lines 151-162, 178-186) are not modelled. Only the value write and whether the value changed are.
- Handlers that would re-run because of those synthetic events are not modelled.
- In `handleInputFocus`, `setTimeout`, `focus()` and `select()` (lines 87-91) are asynchronous browser effects. Only the decision at lines 82-86 is modelled.
- `event.target.blur()` after Enter (line 544) is left out.
- `console.log` (lines 233, 349) is left out.
- The unused `setValue` (lines 243-248) is not modelled.
- `cancelDefaultEvent` and the drop handler (lines 615, 701) are not modelled.
- The `DOMContentLoaded` hook and the stylesheet are not modelled.
- Floating point is not modelled. Numbers are exact reals, so the double rounding of large products and sums is absent. `Math.round` at line 350 is rounding half up on reals.
- `Number(text)` follows the StringNumericLiteral grammar of ECMA-262 with exact values. A literal too large for a double stays finite here instead of becoming Infinity.
- Strings are sequences of characters, not UTF-16 code units.
- Texts of 2^32 characters or more are left out. Selection offsets are converted modulo 2^32 as WebIDL says, but the proofs about selections assume a shorter text.
- The `sectioned.length < 2` branches of `validateValue` (line 391) and `handleUserInput` (line 465) cannot run. `getSectioned` either throws or yields at least three entries (`Codec.GetSectioned`).
- The `!cursorSelection` branch of `handleClickFocus` (line 112) cannot run. Every offset has a zone.
- `Handlers.GetAdjustmentFactor`: a `data-adjustment-factor` that the page sets to a non-numeric text is not modelled. The attribute is a number here, as the component itself always writes it.
- The write `sectioned[0] = '00'` (lines 491-493) is not modelled. It changes only a local array that is never read again.
- `Handlers.Highlight`, `Handlers.Shift`, `Handlers.UserInput`, `Handlers.ChangeKeyStep`, `Handlers.TabStep`, `Handlers.Keydown`, `Handlers.ApplyValidations`, `Handlers.Repair`, `Handlers.Blur`: their own ensures state only that the box stays valid and, for the selection handlers, that the value is kept. `Handlers.Blur` writes what `Editor.BlurredValue` computes, so `Editor.BlurOnDecoded`, `Editor.BlurRepairThrows` and `Editor.BlurFallback` state what a blur writes or throws. The promises about what the others select, write, refuse and throw are in the lemmas about them (`HighlightShaped`, `ShiftMinutesRight`, `UserInputMinutesDone`, `UserInputInHours`, `UserInputHoursWait`, `UserInputHoursDone`, `UserInputSecondsReadsMinutes`, `UserInputSecondsDone`, `UserInputRepairThrows`, `KeydownPrevents`, `KeydownDigitShaped`, `KeydownArrowEncoded`, `KeydownTabFromMinutes`, `KeydownEnterEncoded`, `ApplyValidationsDecoded`, `ApplyValidationsEncoded`, `RepairThrows`, `RepairFallback`, `RepairReplaced`).

=== FILE: bounds.dfy ===
/** Bounds: the clamp applyMinMaxConstraints (src/html-duration-picker.js
    lines 326-332), the attribute format isValidDurationFormat (lines
    308-317), the constraints getDurationAttributeValue and
    getMinMaxConstraints read (lines 606-633), getInitialDuration (lines
    635-639) and the hour width charsForHours (lines 77-78, 474-475, 584-585). */
module Bounds {
  import opened Wrappers
  import opened JsString
  import opened JsNumbers
  import opened Codec

  /** The default maximum, as the expression
      `99 * 24 * 60 * 60 * 1000 + 24 * 60 * 60 * 1000 + 59 * 60 * 1000 + 999`. */
  const DefaultMax: nat := 99 * 24 * 60 * 60 * 1000 + 24 * 60 * 60 * 1000 + 59 * 60 * 1000 + 999

  /** The default maximum is 8,643,540,999 ms: 100 days, 0 hours, 59
      minutes, 0 seconds and 999 ms, not 99 days 23:59:59.999. */
  lemma DefaultMaxFields()
    ensures DefaultMax == 8643540999
    ensures Decompose(DefaultMax as real) == Fields(100, 0, 59, 0, 999)
  {
    var f := Decompose(DefaultMax as real);
    assert (DefaultMax as real).Floor == DefaultMax;
    assert Total(f) == 8643540999;
  }

  datatype Bounds = Bounds(min: Number, max: Number)

  /** applyMinMaxConstraints: `Math.min(Math.max(value, min), max)`. */
  function ApplyMinMaxConstraints(value: Number, b: Bounds): Number
  {
    Min(Max(value, b.min), b.max)
  }

  /** With finite bounds lo <= hi, the clamp of a number lies in [lo, hi];
      NaN, and only NaN, stays NaN. */
  lemma ClampInRange(value: Number, lo: real, hi: real)
    requires lo <= hi
    ensures var r := ApplyMinMaxConstraints(value, Bounds(Finite(lo), Finite(hi)));
      (r.NaN? <==> value.NaN?) && (!value.NaN? ==> r.Finite? && lo <= r.val <= hi)
  {
  }

  /** A value already within the bounds is left as it is. */
  lemma ClampIdentity(value: Number, b: Bounds)
    requires AtMost(b.min, value) && AtMost(value, b.max)
    ensures ApplyMinMaxConstraints(value, b) == value
  {
  }

  /** Clamping twice is clamping once, whatever the bounds. */
  lemma ClampIdempotent(value: Number, b: Bounds)
    ensures ApplyMinMaxConstraints(ApplyMinMaxConstraints(value, b), b) == ApplyMinMaxConstraints(value, b)
  {
  }

  // ---------------------------------------------------------------------------
  // The attribute format

  /** A minutes or seconds group of the pattern: `[0-5][0-9]`, or in lenient
      mode also a lone `[0-5]`. */
  predicate IsClockGroup(g: string, strict: bool)
  {
    (|g| == 2 && '0' <= g[0] <= '5' && IsDigit(g[1]))
    || (!strict && |g| == 1 && '0' <= g[0] <= '5')
  }

  /** isValidDurationFormat: 1 to 9 digits, ":", a group, ":", a group, and
      nothing else. The strict pattern applies unless strictMode is `false`;
      every caller omits it, so they all get the strict one. No part of a
      match holds a ":", so matching is splitting on ":" into three parts. */
  predicate IsValidDurationFormat(value: string, strict: bool)
  {
    var parts := Split(value, ":");
    |parts| == 3 && 1 <= |parts[0]| <= 9 && AllDigits(parts[0])
    && IsClockGroup(parts[1], strict) && IsClockGroup(parts[2], strict)
  }

  lemma ClockGroupDigits(g: string, strict: bool)
    requires IsClockGroup(g, strict)
    ensures AllDigits(g)
  {
  }

  /** A text in the attribute format is its three parts joined by ":",
      which has no space. */
  lemma ValidFormatParts(value: string, strict: bool)
    requires IsValidDurationFormat(value, strict)
    ensures var parts := Split(value, ":"); value == parts[0] + ":" + (parts[1] + ":" + parts[2])
    ensures Lacks(value, ' ') && !Lacks(value, ':')
  {
    var parts := Split(value, ":");
    assert Join(parts[1..], ":") == parts[1] + ":" + parts[2] by {
      assert parts[1..][1..] == [parts[2]];
    }
    ClockGroupDigits(parts[1], strict);
    ClockGroupDigits(parts[2], strict);
    DigitsLack(parts[0], ' ');
    DigitsLack(parts[1], ' ');
    DigitsLack(parts[2], ' ');
    LacksAppend(parts[1], ":", ' ');
    LacksAppend(parts[1] + ":", parts[2], ' ');
    LacksAppend(parts[0], ":", ' ');
    LacksAppend(parts[0] + ":", parts[1] + ":" + parts[2], ' ');
    assert value[|parts[0]|] == ':';
  }

  /** Every text in the attribute format holds a ":" and no " | ", so
      durationToMilliSeconds throws on it. */
  lemma ValidFormatUndecodable(value: string, strict: bool)
    requires IsValidDurationFormat(value, strict)
    ensures DurationToMilliSeconds(value).TypeError?
  {
    ValidFormatParts(value, strict);
    IndexOfLacking(value, " | ");
    DecodeOutcome(value);
  }

  /** Three parts without ":" joined by ":" split back into those parts. */
  lemma SplitThree(d: string, g1: string, g2: string)
    requires Lacks(d, ':') && Lacks(g1, ':') && Lacks(g2, ':')
    ensures Split(d + ":" + g1 + ":" + g2, ":") == [d, g1, g2]
  {
    var tail := g1 + ":" + g2;
    SplitLacking(g2, ":");
    SplitAfter(g1, ":", g2);
    assert Split(tail, ":") == [g1, g2];
    SplitAfter(d, ":", tail);
    JoinedThree(d, g1, g2);
  }

  lemma JoinedThree(d: string, g1: string, g2: string)
    ensures d + ":" + g1 + ":" + g2 == d + ":" + (g1 + ":" + g2)
  {
    var l, r := d + ":" + g1 + ":" + g2, d + ":" + (g1 + ":" + g2);
    assert |l| == |r|;
    forall i | 0 <= i < |l|
      ensures l[i] == r[i]
    {
    }
  }

  /** Every strict match is a lenient one. */
  lemma StrictIsLenient(value: string)
    requires IsValidDurationFormat(value, true)
    ensures IsValidDurationFormat(value, false)
  {
    var parts := Split(value, ":");
    assert IsClockGroup(parts[1], false) && IsClockGroup(parts[2], false);
  }

  /** A text built from three ":"-free parts is in the format exactly when
      the parts are. */
  lemma FormatOfParts(d: string, g1: string, g2: string, strict: bool)
    requires Lacks(d, ':') && Lacks(g1, ':') && Lacks(g2, ':')
    ensures IsValidDurationFormat(d + ":" + g1 + ":" + g2, strict) <==>
      1 <= |d| <= 9 && AllDigits(d) && IsClockGroup(g1, strict) && IsClockGroup(g2, strict)
  {
    SplitThree(d, g1, g2);
  }

  /** The strict pattern accepts "12:30:45". */
  lemma StrictExample()
    ensures IsValidDurationFormat("12:30:45", true)
  {
    FormatOfParts("12", "30", "45", true);
    assert "12" + ":" + "30" + ":" + "45" == "12:30:45";
  }

  /** "3:3:59" matches only the lenient pattern. */
  lemma LenientExample()
    ensures !IsValidDurationFormat("3:3:59", true) && IsValidDurationFormat("3:3:59", false)
  {
    FormatOfParts("3", "3", "59", true);
    FormatOfParts("3", "3", "59", false);
    assert "3" + ":" + "3" + ":" + "59" == "3:3:59";
  }

  // ---------------------------------------------------------------------------
  // Constraints

  /** getDurationAttributeValue: the decoded attribute when it is present
      (an absent attribute is the empty text here, both being falsy) and in
      the attribute format, the default otherwise. */
  function GetDurationAttributeValue(attribute: string, default: Number): Result<Number>
  {
    if attribute != "" && IsValidDurationFormat(attribute, true) then DurationToMilliSeconds(attribute)
    else Ok(default)
  }

  /** A present attribute in the format, which getDurationAttributeValue decodes. */
  predicate IsFormattedAttribute(attribute: string)
  {
    attribute != "" && IsValidDurationFormat(attribute, true)
  }

  /** Since a text in the attribute format cannot be decoded, reading an
      attribute either throws, exactly when it is in that format, or yields
      the default. */
  lemma AttributeValueOutcome(attribute: string, default: Number)
    ensures GetDurationAttributeValue(attribute, default).TypeError? <==> IsFormattedAttribute(attribute)
    ensures GetDurationAttributeValue(attribute, default).Ok? ==> GetDurationAttributeValue(attribute, default).value == default
  {
    if attribute != "" && IsValidDurationFormat(attribute, true) {
      ValidFormatUndecodable(attribute, true);
    }
  }

  /** getMinMaxConstraints: data-duration-min with default 0, then
      data-duration-max with the default maximum. */
  function GetMinMaxConstraints(minAttribute: string, maxAttribute: string): Result<Bounds>
  {
    var lo :- GetDurationAttributeValue(minAttribute, Finite(0.0));
    var hi :- GetDurationAttributeValue(maxAttribute, Finite(DefaultMax as real));
    Ok(Bounds(lo, hi))
  }

  /** The constraints are always the defaults 0 and 8,643,540,999, and
      reading them throws exactly when an attribute is in the format. */
  lemma ConstraintsOutcome(minAttribute: string, maxAttribute: string)
    ensures GetMinMaxConstraints(minAttribute, maxAttribute).TypeError? <==> IsFormattedAttribute(minAttribute) || IsFormattedAttribute(maxAttribute)
    ensures GetMinMaxConstraints(minAttribute, maxAttribute).Ok? ==>
      GetMinMaxConstraints(minAttribute, maxAttribute).value == Bounds(Finite(0.0), Finite(DefaultMax as real))
  {
    AttributeValueOutcome(minAttribute, Finite(0.0));
    AttributeValueOutcome(maxAttribute, Finite(DefaultMax as real));
  }

  /** The clamp under the constraints, which milliSecondsToDuration accepts:
      NaN or a finite value from 0 to the default maximum. */
  lemma ConstrainedEncodable(value: Number, minAttribute: string, maxAttribute: string)
    requires GetMinMaxConstraints(minAttribute, maxAttribute).Ok?
    ensures var r := ApplyMinMaxConstraints(value, GetMinMaxConstraints(minAttribute, maxAttribute).value);
      r.NaN? || (r.Finite? && 0.0 <= r.val <= DefaultMax as real)
  {
    ConstraintsOutcome(minAttribute, maxAttribute);
    ClampInRange(value, 0.0, DefaultMax as real);
  }

  /** getInitialDuration: the data-duration attribute value is a number, and
      the text of a number has no ":", so durationToMilliSeconds turns it
      into 0, which is then clamped. */
  function GetInitialDuration(durationAttribute: string, minAttribute: string, maxAttribute: string): Result<Number>
  {
    var duration :- GetDurationAttributeValue(durationAttribute, Finite(0.0));
    var b :- GetMinMaxConstraints(minAttribute, maxAttribute);
    Ok(ApplyMinMaxConstraints(Finite(0.0), b))
  }

  /** The initial duration is 0 whenever it is computed. */
  lemma InitialDurationZero(durationAttribute: string, minAttribute: string, maxAttribute: string)
    ensures GetInitialDuration(durationAttribute, minAttribute, maxAttribute).TypeError?
        <==> IsFormattedAttribute(durationAttribute) || IsFormattedAttribute(minAttribute) || IsFormattedAttribute(maxAttribute)
    ensures GetInitialDuration(durationAttribute, minAttribute, maxAttribute).Ok? ==>
      GetInitialDuration(durationAttribute, minAttribute, maxAttribute).value == Finite(0.0)
  {
    AttributeValueOutcome(durationAttribute, Finite(0.0));
    ConstraintsOutcome(minAttribute, maxAttribute);
  }

  // ---------------------------------------------------------------------------
  // Hour width

  /** charsForHours: the number of characters of `Math.floor(max / 3600)`,
      or 0 when that is below 1. The maximum is in milliseconds, so this is
      the width of the maximum counted in units of 3.6 seconds. */
  function CharsForHours(max: Number): nat
  {
    match max
    case NaN => 3
    case PosInfinity => 8
    case NegInfinity => 0
    case Finite(v) =>
      var k := (v / 3600.0).Floor;
      if k < 1 then 0 else |NatToString(k)|
  }

  /** Under the default maximum, charsForHours is 7 (the floor is 2,400,983). */
  lemma DefaultCharsForHours()
    ensures CharsForHours(Finite(DefaultMax as real)) == 7
  {
    assert (8643540999.0 / 3600.0).Floor == 2400983;
    assert Pow10(6) == 1000000 && Pow10(7) == 10000000;
    NatToStringLength(2400983, 6);
  }
}

=== FILE: codec.dfy ===
/** The duration codec: `milliSecondsToDuration` (src/html-duration-picker.js
    lines 339-357), its tolerant inverse `durationToMilliSeconds` (lines
    363-381) and `getSectioned` (lines 53-60). */
module Codec {
  import opened Wrappers
  import opened JsString
  import opened JsNumbers

  /** The template literal `${days} | ${hours}:${minutes}:${seconds}.${millis}`. */
  function Template(days: string, hours: string, minutes: string, seconds: string, millis: string): string
  {
    days + " | " + hours + ":" + minutes + ":" + seconds + "." + millis
  }

  datatype Fields = Fields(days: nat, hours: nat, minutes: nat, seconds: nat, millis: nat)

  function Total(f: Fields): nat
  {
    f.days * 86400000 + f.hours * 3600000 + f.minutes * 60000 + f.seconds * 1000 + f.millis
  }

  lemma FloorShift(k: int, x: real)
    ensures (k as real + x).Floor == k + x.Floor
  {
  }

  /** The successive floor divisions and `%=` steps of milliSecondsToDuration,
      then `Math.round` of what is left. The fields are the mixed-radix digits
      of the value rounded half up to a whole millisecond; the last field
      reaches 1000 only when rounding carries. */
  function Decompose(v: real): (f: Fields)
    requires v >= 0.0
    ensures f.hours < 24 && f.minutes < 60 && f.seconds < 60 && f.millis <= 1000
    ensures Total(f) == v.Floor + (if v - v.Floor as real >= 0.5 then 1 else 0)
    ensures f.millis == 1000 ==> v - v.Floor as real >= 0.5
  {
    var days := (v / 86400000.0).Floor;
    var r1 := v - days as real * 86400000.0;
    var hours := (r1 / 3600000.0).Floor;
    var r2 := r1 - hours as real * 3600000.0;
    var minutes := (r2 / 60000.0).Floor;
    var r3 := r2 - minutes as real * 60000.0;
    var seconds := (r3 / 1000.0).Floor;
    var r4 := r3 - seconds as real * 1000.0;
    var millis := (r4 + 0.5).Floor;
    var whole := days * 86400000 + hours * 3600000 + minutes * 60000 + seconds * 1000;
    assert v == whole as real + r4;
    FloorShift(whole, r4);
    FloorShift(r4.Floor, r4 - r4.Floor as real + 0.5);
    Fields(days, hours, minutes, seconds, millis)
  }

  /** milliSecondsToDuration. Its callers clamp first, so the value is NaN or a
      non-negative finite number; NaN renders as `NaN` in every field. */
  function MilliSecondsToDuration(v: Number): string
    requires v.NaN? || (v.Finite? && v.val >= 0.0)
  {
    if v.NaN? then Template("NaN", "NaN", "NaN", "NaN", "NaN")
    else
      var f := Decompose(v.val);
      Template(Padded(f.days, 2), Padded(f.hours, 2), Padded(f.minutes, 2), Padded(f.seconds, 2), Padded(f.millis, 3))
  }

  /** The encoding of a whole number of milliseconds. */
  function Encode(n: nat): string
  {
    MilliSecondsToDuration(Finite(n as real))
  }

  /** Each part as a present entry. */
  function Present(parts: seq<string>): (r: seq<Option<string>>)
    ensures |r| == |parts| && forall i :: 0 <= i < |parts| ==> r[i] == Some(parts[i])
  {
    if |parts| == 0 then [] else [Some(parts[0])] + Present(parts[1..])
  }

  /** getSectioned: split on " | ", the second part on ".", its first part on
      ":", giving [days, ...hours/minutes/seconds, milliseconds]; the last
      entry is `undefined` when there is no ".". Throws when there is no " | ". */
  function GetSectioned(value: string): (r: Result<seq<Option<string>>>)
    ensures r.Ok? <==> IndexOf(value, " | ") >= 0
    ensures r.Ok? ==> |r.value| >= 3 && forall i :: 0 <= i < |r.value| - 1 ==> r.value[i].Some?
  {
    var partitions := Split(value, " | ");
    SplitCount(value, " | ");
    if |partitions| < 2 then TypeError
    else
      var sect2 := Split(partitions[1], ".");
      var sect3 := Split(sect2[0], ":");
      Ok([Some(partitions[0])] + Present(sect3) + [if |sect2| > 1 then Some(sect2[1]) else None])
  }

  /** `n > c ? c : n`. */
  function Capped(n: Number, c: real): Number
  {
    if GreaterThan(n, c) then Finite(c) else n
  }

  /** `Number(ms ? (ms > 999 ? 999 : ms) : 0)` with `ms = msSeparated[1]`. */
  function MillisTerm(msSeparated: seq<string>): Number
  {
    if |msSeparated| < 2 || msSeparated[1] == "" then Finite(0.0)
    else Capped(ToNumber(msSeparated[1]), 999.0)
  }

  /** `Number(s ? (s > 59 ? 59 : s) * 1000 : 0)` with `s = sectioned[3]`. */
  function SecondsTerm(s: Option<string>): Number
  {
    if s.None? || s.value == "" then Finite(0.0)
    else Scale(Capped(ToNumber(s.value), 59.0), 1000.0)
  }

  /** The sum durationToMilliSeconds forms: the millisecond and second terms,
      the minutes capped at 59, the hours and the days, each scaled. */
  function FieldSum(millis: Number, seconds: Number, minutes: Number, hours: Number, days: Number): Number
  {
    Add(Add(Add(Add(millis, seconds), Scale(Capped(minutes, 59.0), 60000.0)), Scale(hours, 3600000.0)), Scale(days, 86400000.0))
  }

  /** durationToMilliSeconds. Text without ":" is 0. Otherwise the days come
      from the text before the first "|", the milliseconds from the text after
      the first "." that follows it, and the rest from getSectioned; minutes
      and seconds above 59 count as 59 and milliseconds above 999 as 999. It
      throws when the text has a ":" but no " | ". */
  function DurationToMilliSeconds(value: string): Result<Number>
  {
    if Lacks(value, ':') then Ok(Finite(0.0))
    else
      var daysSeparated := Split(value, "|");
      if |daysSeparated| < 2 then TypeError
      else
        var msSeparated := Split(daysSeparated[1], ".");
        match GetSectioned(value)
        case TypeError => TypeError
        case Ok(sectioned) =>
          if |sectioned| < 4 then Ok(Finite(0.0))
          else
            Ok(SectionsTotal(msSeparated, sectioned, daysSeparated[0]))
  }

  /** The sum durationToMilliSeconds returns once the text is split: the
      days come from the text before "|", the hours and minutes from the
      sectioned entries, and the seconds and milliseconds as above. */
  function SectionsTotal(msSeparated: seq<string>, sectioned: seq<Option<string>>, daysPart: string): Number
    requires |sectioned| >= 4 && sectioned[1].Some? && sectioned[2].Some?
  {
    FieldSum(MillisTerm(msSeparated), SecondsTerm(sectioned[3]),
      ToNumber(sectioned[2].value), ToNumber(sectioned[1].value), ToNumber(daysPart))
  }

  /** Decoding throws exactly when the text has a ":" but no " | ", and text
      without ":" decodes to 0. */
  lemma DecodeOutcome(value: string)
    ensures DurationToMilliSeconds(value).TypeError? <==> !Lacks(value, ':') && IndexOf(value, " | ") < 0
    ensures Lacks(value, ':') ==> DurationToMilliSeconds(value) == Ok(Finite(0.0))
  {
    if !Lacks(value, ':') && |Split(value, "|")| < 2 {
      BarBeforeSeparator(value);
    }
  }

  lemma BarBeforeSeparator(value: string)
    requires |Split(value, "|")| < 2
    ensures IndexOf(value, " | ") < 0
  {
    var i := IndexOf(value, " | ");
    if i >= 0 {
      assert value[i + 1] == value[i..i + 3][1] == '|';
      assert value[i + 1..i + 2] == [value[i + 1]];
      assert OccursAt(value, "|", i + 1);
    }
  }

  // ---------------------------------------------------------------------------
  // The canonical text `D.. | HH:MM:SS.mmm`

  function DaysText(v: string): string requires |v| >= 15 { v[..|v| - 15] }
  function HoursText(v: string): string requires |v| >= 15 { v[|v| - 12..|v| - 10] }
  function MinutesText(v: string): string requires |v| >= 15 { v[|v| - 9..|v| - 7] }
  function SecondsText(v: string): string requires |v| >= 15 { v[|v| - 6..|v| - 4] }
  function MillisText(v: string): string requires |v| >= 15 { v[|v| - 3..] }

  /** One or more day digits, " | ", two hour digits, ":", two minute digits,
      ":", two second digits, "." and three millisecond digits. */
  predicate IsShaped(v: string)
  {
    |v| >= 16
    && v[|v| - 15..|v| - 12] == " | " && v[|v| - 10] == ':' && v[|v| - 7] == ':' && v[|v| - 4] == '.'
    && AllDigits(DaysText(v)) && AllDigits(HoursText(v)) && AllDigits(MinutesText(v))
    && AllDigits(SecondsText(v)) && AllDigits(MillisText(v))
  }

  /** A shaped text with at least two day digits, hours below 24 and minutes
      and seconds below 60: what milliSecondsToDuration produces. */
  predicate IsCanonical(v: string)
  {
    IsShaped(v) && |DaysText(v)| >= 2
    && DigitsValue(HoursText(v)) < 24 && DigitsValue(MinutesText(v)) < 60 && DigitsValue(SecondsText(v)) < 60
  }

  /** The duration a canonical text denotes. */
  function ValueOf(v: string): nat
    requires IsShaped(v)
  {
    DigitsValue(DaysText(v)) * 86400000 + DigitsValue(HoursText(v)) * 3600000
    + DigitsValue(MinutesText(v)) * 60000 + DigitsValue(SecondsText(v)) * 1000
    + DigitsValue(MillisText(v))
  }

  function Cap(x: nat, c: nat): nat { if x > c then c else x }

  /** The value durationToMilliSeconds gives a template whose fields read as
      these numbers: minutes and seconds above 59 count as 59, milliseconds
      above 999 as 999. */
  function TolerantValue(d: nat, h: nat, m: nat, s: nat, ms: nat): nat
  {
    d * 86400000 + h * 3600000 + Cap(m, 59) * 60000 + Cap(s, 59) * 1000 + Cap(ms, 999)
  }

  lemma TemplateFields(d: string, h: string, m: string, s: string, ms: string)
    requires |h| == 2 && |m| == 2 && |s| == 2 && |ms| == 3
    ensures var v := Template(d, h, m, s, ms);
      |v| == |d| + 15 && DaysText(v) == d && HoursText(v) == h && MinutesText(v) == m
      && SecondsText(v) == s && MillisText(v) == ms
      && v[|v| - 15..|v| - 12] == " | " && v[|v| - 10] == ':' && v[|v| - 7] == ':' && v[|v| - 4] == '.'
  {
  }

  lemma ShapedIsTemplate(v: string)
    requires IsShaped(v)
    ensures v == Template(DaysText(v), HoursText(v), MinutesText(v), SecondsText(v), MillisText(v))
  {
    var t := Template(DaysText(v), HoursText(v), MinutesText(v), SecondsText(v), MillisText(v));
    TemplateFields(DaysText(v), HoursText(v), MinutesText(v), SecondsText(v), MillisText(v));
    assert |t| == |v|;
    forall i | 0 <= i < |v| ensures t[i] == v[i] {
      var k := |v| - 15;
      if i < k { assert t[i] == DaysText(v)[i]; }
      else if i < k + 3 { assert t[i] == " | "[i - k] == v[k..k + 3][i - k]; }
      else if i < k + 5 { assert t[i] == HoursText(v)[i - k - 3]; }
      else if i < k + 6 { }
      else if i < k + 8 { assert t[i] == MinutesText(v)[i - k - 6]; }
      else if i < k + 9 { }
      else if i < k + 11 { assert t[i] == SecondsText(v)[i - k - 9]; }
      else if i < k + 12 { }
      else { assert t[i] == MillisText(v)[i - k - 12]; }
    }
  }

  /** `h:m:s` with digit fields lacks every other non-digit. */
  lemma ClockLacks(h: string, m: string, s: string, c: char)
    requires AllDigits(h) && AllDigits(m) && AllDigits(s) && !IsDigit(c) && c != ':'
    ensures Lacks(h + ":" + m + ":" + s, c)
  {
    DigitsLack(h, c); DigitsLack(m, c); DigitsLack(s, c);
    LacksAppend(h, ":", c);
    LacksAppend(h + ":", m, c);
    LacksAppend(h + ":" + m, ":", c);
    LacksAppend(h + ":" + m + ":", s, c);
  }

  lemma SplitClock(h: string, m: string, s: string)
    requires AllDigits(h) && AllDigits(m) && AllDigits(s)
    ensures Split(h + ":" + m + ":" + s, ":") == [h, m, s]
  {
    DigitsLack(h, ':'); DigitsLack(m, ':'); DigitsLack(s, ':');
    assert h + ":" + m + ":" + s == h + ":" + (m + ":" + s);
    SplitAfter(h, ":", m + ":" + s);
    SplitAfter(m, ":", s);
    SplitLacking(s, ":");
  }

  lemma SplitFraction(t: string, ms: string)
    requires Lacks(t, '.') && AllDigits(ms)
    ensures Split(t + "." + ms, ".") == [t, ms]
  {
    DigitsLack(ms, '.');
    SplitAfter(t, ".", ms);
    SplitLacking(ms, ".");
  }

  lemma TemplateBarSplit(d: string, h: string, m: string, s: string, ms: string)
    requires AllDigits(d) && AllDigits(h) && AllDigits(m) && AllDigits(s) && AllDigits(ms)
    ensures Split(Template(d, h, m, s, ms), " | ") == [d, h + ":" + m + ":" + s + "." + ms]
  {
    var hms := h + ":" + m + ":" + s;
    var rest := hms + "." + ms;
    assert Template(d, h, m, s, ms) == d + " | " + rest;
    DigitsLack(d, ' ');
    SplitAfter(d, " | ", rest);
    ClockLacks(h, m, s, ' ');
    DigitsLack(ms, ' ');
    LacksAppend(hms, ".", ' ');
    LacksAppend(hms + ".", ms, ' ');
    SplitLacking(rest, " | ");
  }

  /** getSectioned of a text whose three splits are known. */
  lemma SectionedFromSplits(v: string, first: string, rest: string, clock: string, millis: string, h: string, m: string, s: string)
    requires Split(v, " | ") == [first, rest] && Split(rest, ".") == [clock, millis] && Split(clock, ":") == [h, m, s]
    ensures GetSectioned(v) == Ok([Some(first), Some(h), Some(m), Some(s), Some(millis)])
  {
    var mid := Present([h, m, s]);
    assert mid == [Some(h), Some(m), Some(s)];
    assert GetSectioned(v) == Ok([Some(first)] + mid + [Some(millis)]);
    Bracketed(Some(first), mid, Some(millis), Some(h), Some(m), Some(s));
  }

  /** getSectioned splits a template of digit fields back into its fields. */
  lemma SectionedTemplate(d: string, h: string, m: string, s: string, ms: string)
    requires AllDigits(d) && AllDigits(h) && AllDigits(m) && AllDigits(s) && AllDigits(ms)
    ensures GetSectioned(Template(d, h, m, s, ms)) == Ok([Some(d), Some(h), Some(m), Some(s), Some(ms)])
  {
    TemplateBarSplit(d, h, m, s, ms);
    ClockLacks(h, m, s, '.');
    SplitFraction(h + ":" + m + ":" + s, ms);
    SplitClock(h, m, s);
    SectionedFromSplits(Template(d, h, m, s, ms), d, h + ":" + m + ":" + s + "." + ms, h + ":" + m + ":" + s, ms, h, m, s);
  }

  lemma Bracketed<T>(first: T, mid: seq<T>, last: T, a: T, b: T, c: T)
    requires mid == [a, b, c]
    ensures [first] + mid + [last] == [first, a, b, c, last]
  {
  }

  /** The parts of a template around its first "|". */
  lemma DaysSeparatedTemplate(d: string, h: string, m: string, s: string, ms: string)
    requires AllDigits(d) && AllDigits(h) && AllDigits(m) && AllDigits(s) && AllDigits(ms)
    ensures Split(Template(d, h, m, s, ms), "|") == [d + " ", " " + (h + ":" + m + ":" + s) + "." + ms]
  {
    var hms := h + ":" + m + ":" + s;
    var after := " " + hms + "." + ms;
    assert Template(d, h, m, s, ms) == (d + " ") + "|" + after;
    DigitsLack(d, '|');
    LacksAppend(d, " ", '|');
    SplitAfter(d + " ", "|", after);
    ClockLacks(h, m, s, '|');
    DigitsLack(ms, '|');
    LacksAppend(" ", hms, '|');
    LacksAppend(" " + hms, ".", '|');
    LacksAppend(" " + hms + ".", ms, '|');
    SplitLacking(after, "|");
  }

  /** The getSectioned entries of a shaped text: its five fields. */
  function ShapedSections(v: string): seq<Option<string>>
    requires |v| >= 15
  {
    [Some(DaysText(v)), Some(HoursText(v)), Some(MinutesText(v)), Some(SecondsText(v)), Some(MillisText(v))]
  }

  /** getSectioned of a shaped text yields its five fields. */
  lemma ShapedSectioned(v: string)
    requires IsShaped(v)
    ensures GetSectioned(v) == Ok(ShapedSections(v))
  {
    ShapedIsTemplate(v);
    SectionedTemplate(DaysText(v), HoursText(v), MinutesText(v), SecondsText(v), MillisText(v));
  }

  /** durationToMilliSeconds of a text whose splits are known. */
  lemma DecodeFromSplits(v: string, daysPart: string, after: string, clock: string, d: string, h: string, m: string, s: string, ms: string)
    requires !Lacks(v, ':')
    requires Split(v, "|") == [daysPart, after] && Split(after, ".") == [clock, ms]
    requires GetSectioned(v) == Ok([Some(d), Some(h), Some(m), Some(s), Some(ms)])
    ensures DurationToMilliSeconds(v) == Ok(SectionsTotal([clock, ms], [Some(d), Some(h), Some(m), Some(s), Some(ms)], daysPart))
  {
  }

  /** The field sum of finite whole terms. */
  lemma FieldSumOfWholes(millis: Number, seconds: Number, minutes: Number, hours: Number, days: Number,
                         d: nat, h: nat, m: nat, s: nat, ms: nat)
    requires millis == Finite(Cap(ms, 999) as real) && seconds == Finite((Cap(s, 59) * 1000) as real)
    requires minutes == Finite(m as real) && hours == Finite(h as real) && days == Finite(d as real)
    ensures FieldSum(millis, seconds, minutes, hours, days) == Finite(TolerantValue(d, h, m, s, ms) as real)
  {
  }

  lemma MillisTermOfWhole(clock: string, ms: string, x: nat)
    requires ms != "" && ToNumber(ms) == Finite(x as real)
    ensures MillisTerm([clock, ms]) == Finite(Cap(x, 999) as real)
  {
  }

  lemma SecondsTermOfWhole(s: string, x: nat)
    requires s != "" && ToNumber(s) == Finite(x as real)
    ensures SecondsTerm(Some(s)) == Finite((Cap(x, 59) * 1000) as real)
  {
  }

  lemma DaysOfDigits(d: string)
    requires |d| > 0 && AllDigits(d)
    ensures ToNumber(d + " ") == Finite(DigitsValue(d) as real)
  {
    ToNumberOfPaddedDigits(d, " ");
  }

  /** durationToMilliSeconds of a template of non-empty digit fields: days
      and hours are taken whole, minutes and seconds capped at 59,
      milliseconds at 999. */
  lemma DecodeTemplate(d: string, h: string, m: string, s: string, ms: string)
    requires AllDigits(d) && AllDigits(h) && AllDigits(m) && AllDigits(s) && AllDigits(ms)
    requires |d| > 0 && |h| > 0 && |m| > 0 && |s| > 0 && |ms| > 0
    ensures DurationToMilliSeconds(Template(d, h, m, s, ms))
         == Ok(Finite(TolerantValue(DigitsValue(d), DigitsValue(h), DigitsValue(m), DigitsValue(s), DigitsValue(ms)) as real))
  {
    var v := Template(d, h, m, s, ms);
    var hms := h + ":" + m + ":" + s;
    assert v[|d| + 3 + |h|] == ':';
    DaysSeparatedTemplate(d, h, m, s, ms);
    ClockLacks(h, m, s, '.');
    LacksAppend(" ", hms, '.');
    SplitFraction(" " + hms, ms);
    SectionedTemplate(d, h, m, s, ms);
    DecodeFromSplits(v, d + " ", " " + hms + "." + ms, " " + hms, d, h, m, s, ms);
    assert SectionsTotal([" " + hms, ms], [Some(d), Some(h), Some(m), Some(s), Some(ms)], d + " ")
        == FieldSum(MillisTerm([" " + hms, ms]), SecondsTerm(Some(s)), ToNumber(m), ToNumber(h), ToNumber(d + " "));
    ToNumberOfDigits(ms);
    MillisTermOfWhole(" " + hms, ms, DigitsValue(ms));
    ToNumberOfDigits(s);
    SecondsTermOfWhole(s, DigitsValue(s));
    ToNumberOfDigits(m);
    ToNumberOfDigits(h);
    DaysOfDigits(d);
    FieldSumOfWholes(MillisTerm([" " + hms, ms]), SecondsTerm(Some(s)), ToNumber(m), ToNumber(h), ToNumber(d + " "),
                     DigitsValue(d), DigitsValue(h), DigitsValue(m), DigitsValue(s), DigitsValue(ms));
  }

  /** durationToMilliSeconds of a shaped text. */
  lemma DecodeShaped(v: string)
    requires IsShaped(v)
    ensures DurationToMilliSeconds(v) == Ok(Finite(TolerantValue(
      DigitsValue(DaysText(v)), DigitsValue(HoursText(v)), DigitsValue(MinutesText(v)),
      DigitsValue(SecondsText(v)), DigitsValue(MillisText(v))) as real))
  {
    ShapedIsTemplate(v);
    DecodeTemplate(DaysText(v), HoursText(v), MinutesText(v), SecondsText(v), MillisText(v));
  }

  /** A canonical text decodes to the duration it denotes. */
  lemma DecodeCanonical(v: string)
    requires IsCanonical(v)
    ensures DurationToMilliSeconds(v) == Ok(Finite(ValueOf(v) as real))
  {
    DecodeShaped(v);
    var ms := MillisText(v);
    assert DigitsValue(ms) < 1000 by {
      DigitsBound(ms);
      assert Pow10(3) == 1000;
    }
    assert TolerantValue(DigitsValue(DaysText(v)), DigitsValue(HoursText(v)), DigitsValue(MinutesText(v)),
      DigitsValue(SecondsText(v)), DigitsValue(ms)) == ValueOf(v);
  }

  /** Encoding produces a canonical text denoting the encoded duration. */
  lemma EncodeCanonical(n: nat)
    ensures IsCanonical(Encode(n)) && ValueOf(Encode(n)) == n
  {
    var f := Decompose(n as real);
    assert (n as real).Floor == n;
    assert Pow10(2) == 100 && Pow10(3) == 1000;
    PaddedWidth(f.hours, 2);
    PaddedWidth(f.minutes, 2);
    PaddedWidth(f.seconds, 2);
    PaddedWidth(f.millis, 3);
    TemplateFields(Padded(f.days, 2), Padded(f.hours, 2), Padded(f.minutes, 2), Padded(f.seconds, 2), Padded(f.millis, 3));
  }

  /** Below 1000 days the encoding has two or three day digits. */
  lemma EncodeShort(n: nat)
    requires n < 1000 * 86400000
    ensures 17 <= |Encode(n)| <= 18
  {
    var f := Decompose(n as real);
    assert (n as real).Floor == n;
    assert f.days < 1000;
    assert Pow10(2) == 100 && Pow10(3) == 1000;
    PaddedAtMost(f.days, 2, 3);
    PaddedWidth(f.hours, 2);
    PaddedWidth(f.minutes, 2);
    PaddedWidth(f.seconds, 2);
    PaddedWidth(f.millis, 3);
  }

  /** Below 100 days the encoding has exactly two day digits. */
  lemma EncodeLength(n: nat)
    requires n < 100 * 86400000
    ensures |Encode(n)| == 17
  {
    var f := Decompose(n as real);
    assert (n as real).Floor == n;
    assert f.days < 100;
    assert Pow10(2) == 100 && Pow10(3) == 1000;
    PaddedWidth(f.days, 2);
    PaddedWidth(f.hours, 2);
    PaddedWidth(f.minutes, 2);
    PaddedWidth(f.seconds, 2);
    PaddedWidth(f.millis, 3);
  }

  /** Round trip: decoding an encoded whole number of milliseconds gives it back. */
  lemma RoundTrip(n: nat)
    ensures DurationToMilliSeconds(Encode(n)) == Ok(Finite(n as real))
  {
    EncodeCanonical(n);
    DecodeCanonical(Encode(n));
  }

  // ---------------------------------------------------------------------------
  // Worked examples

  lemma TwoDigitLiteral(s: string, n: nat)
    requires |s| == 2 && IsDigit(s[0]) && IsDigit(s[1]) && DigitValue(s[0]) * 10 + DigitValue(s[1]) == n
    ensures AllDigits(s) && DigitsValue(s) == n
  {
    TwoDigits(s);
  }

  /** A padded rendering of width 2 or 3 of a number below 10 is that many
      characters, zeros and then the digit. */
  lemma PaddedDigit(n: nat, width: nat)
    requires n < 10 && (width == 2 || width == 3)
    ensures Padded(n, width) == (if width == 2 then ['0', DigitChar(n)] else ['0', '0', DigitChar(n)])
  {
    var s := Padded(n, width);
    assert Pow10(2) == 100 && Pow10(3) == 1000;
    PaddedWidth(n, width);
    if width == 2 {
      TwoDigits(s);
    } else {
      ThreeDigits(s);
    }
  }

  /** The fields of a whole number of milliseconds are its mixed-radix
      digits. */
  lemma FieldsOfTotal(f: Fields, n: nat)
    requires f.hours < 24 && f.minutes < 60 && f.seconds < 60 && f.millis < 1000 && Total(f) == n
    ensures f == Fields(n / 86400000, n % 86400000 / 3600000, n % 3600000 / 60000, n % 60000 / 1000, n % 1000)
  {
    var r3 := f.seconds * 1000 + f.millis;
    var r2 := f.minutes * 60000 + r3;
    var r1 := f.hours * 3600000 + r2;
    var q2 := f.days * 24 + f.hours;
    var q3 := q2 * 60 + f.minutes;
    DivMod(n, 86400000, f.days, r1);
    DivMod(r1, 3600000, f.hours, r2);
    DivMod(n, 3600000, q2, r2);
    DivMod(r2, 60000, f.minutes, r3);
    DivMod(n, 60000, q3, r3);
    DivMod(r3, 1000, f.seconds, f.millis);
    DivMod(n, 1000, q3 * 60 + f.seconds, f.millis);
  }

  /** Division with remainder is unique. */
  lemma DivMod(n: int, d: int, q: int, r: int)
    requires 0 <= r < d && n == q * d + r
    ensures n / d == q && n % d == r
  {
    var q', r' := n / d, n % d;
    assert n == q' * d + r';
    assert (q - q') * d == r' - r && (q' - q) * d == r - r';
    if q > q' {
      MulAtLeast(q - q', d);
      assert false;
    } else if q < q' {
      MulAtLeast(q' - q, d);
      assert false;
    }
  }

  lemma {:induction false} MulAtLeast(k: nat, d: nat)
    requires k >= 1
    ensures k * d >= d
  {
    if k > 1 {
      MulAtLeast(k - 1, d);
      assert k * d == (k - 1) * d + d;
    }
  }

  lemma DecomposeWhole(n: nat)
    ensures Decompose(n as real) == Fields(n / 86400000, n % 86400000 / 3600000, n % 3600000 / 60000, n % 60000 / 1000, n % 1000)
  {
    var f := Decompose(n as real);
    assert (n as real).Floor == n;
    FieldsOfTotal(f, n);
  }

  /** The encoding of a whole number: its mixed-radix digits, padded. */
  lemma EncodeWhole(n: nat)
    ensures Encode(n) == Template(Padded(n / 86400000, 2), Padded(n % 86400000 / 3600000, 2),
      Padded(n % 3600000 / 60000, 2), Padded(n % 60000 / 1000, 2), Padded(n % 1000, 3))
  {
    var f := Decompose(n as real);
    assert Encode(n) == Template(Padded(f.days, 2), Padded(f.hours, 2), Padded(f.minutes, 2), Padded(f.seconds, 2), Padded(f.millis, 3));
    DecomposeWhole(n);
  }

  lemma PaddedLiterals()
    ensures Padded(0, 2) == "00" && Padded(0, 3) == "000" && Padded(1, 2) == "01" && Padded(1, 3) == "001"
  {
    PaddedDigit(0, 2);
    PaddedDigit(0, 3);
    PaddedDigit(1, 2);
    PaddedDigit(1, 3);
    assert DigitChar(0) == '0' && DigitChar(1) == '1';
  }

  lemma TemplateLiterals()
    ensures Template("00", "00", "00", "00", "000") == "00 | 00:00:00.000"
    ensures Template("01", "01", "01", "01", "001") == "01 | 01:01:01.001"
  {
  }

  /** 0 encodes as "00 | 00:00:00.000". */
  lemma EncodeZero()
    ensures Encode(0) == "00 | 00:00:00.000"
  {
    EncodeWhole(0);
    PaddedLiterals();
    TemplateLiterals();
  }

  /** One day, one hour, one minute, one second and one millisecond,
      90,061,001, encode as "01 | 01:01:01.001". */
  lemma EncodeOnes()
    ensures Encode(90061001) == "01 | 01:01:01.001"
  {
    var n := 90061001;
    assert n / 86400000 == 1 && n % 86400000 / 3600000 == 1 && n % 3600000 / 60000 == 1
      && n % 60000 / 1000 == 1 && n % 1000 == 1;
    EncodeWhole(n);
    PaddedLiterals();
    TemplateLiterals();
  }

  /** "00 | 23:59:59.999" is one millisecond short of a day. */
  lemma DecodeEndOfDay()
    ensures DurationToMilliSeconds(Template("00", "23", "59", "59", "999")) == Ok(Finite(86399999.0))
  {
    TwoDigitLiteral("00", 0);
    TwoDigitLiteral("23", 23);
    TwoDigitLiteral("59", 59);
    assert AllDigits("999") && DigitsValue("999") == 999 by { ThreeDigits("999"); }
    DecodeTemplate("00", "23", "59", "59", "999");
  }

  /** "00 | 12:75:10.000": the 75 minutes count as 59, giving 46,750,000. */
  lemma DecodeMinutesCapped()
    ensures DurationToMilliSeconds(Template("00", "12", "75", "10", "000")) == Ok(Finite(46750000.0))
  {
    TwoDigitLiteral("00", 0);
    TwoDigitLiteral("12", 12);
    TwoDigitLiteral("75", 75);
    TwoDigitLiteral("10", 10);
    assert AllDigits("000") && DigitsValue("000") == 0 by { ThreeDigits("000"); }
    DecodeTemplate("00", "12", "75", "10", "000");
  }

  /** A bare clock text has a ":" but no " | ", so decoding it throws. */
  lemma DecodeBareClock()
    ensures DurationToMilliSeconds("12:00:00").TypeError?
  {
    assert "12:00:00"[2] == ':';
    assert Lacks("12:00:00", ' ');
    IndexOfLacking("12:00:00", " | ");
    DecodeOutcome("12:00:00");
  }
}

=== FILE: editor.dfy ===
/** The decisions of the editor's event handlers, as functions of the value,
    the selection and the attributes: the value ArrowUp and ArrowDown store
    (changeValueByArrowKeys, src/html-duration-picker.js lines 255-272), the
    value a blur leaves (handleInputBlur, lines 434-451), which keys
    handleKeydown refuses (lines 568-603) and whether focusing the field
    highlights the days (handleInputFocus, lines 82-86). */
module Editor {
  import opened Wrappers
  import opened JsString
  import opened JsNumbers
  import opened Codec
  import opened Locator
  import opened Bounds
  import opened Validate

  // ---------------------------------------------------------------------------
  // Arrow keys

  /** The step ArrowUp adds, or ArrowDown subtracts and floors at 0. */
  function Stepped(d: Number, factor: real, up: bool): Number
  {
    if up then Add(d, Finite(factor))
    else
      var x := Add(d, Finite(-factor));
      if LessThan(x, 0.0) then Finite(0.0) else x
  }

  /** The value changeValueByArrowKeys writes: the decoded value moved by the
      step, clamped to the constraints and encoded again. */
  function ArrowValue(value: string, factor: real, up: bool, minAttribute: string, maxAttribute: string): Result<string>
  {
    var d :- DurationToMilliSeconds(value);
    EncodeConstrained(Stepped(d, factor, up), minAttribute, maxAttribute)
  }

  /** `min(max(x, lo), hi)` on reals. */
  function ClampReal(x: real, lo: real, hi: real): real
  {
    var y := if x >= lo then x else lo;
    if y <= hi then y else hi
  }

  /** The step and the clamp under the default constraints, on reals. */
  lemma SteppedClamped(x: real, factor: real, up: bool)
    requires x >= 0.0 && factor > 0.0
    ensures ApplyMinMaxConstraints(Stepped(Finite(x), factor, up), Bounds(Finite(0.0), Finite(DefaultMax as real)))
      == Finite(ClampReal(if up then x + factor else x - factor, 0.0, DefaultMax as real))
  {
  }

  /** On a value that decodes to x, ArrowUp stores the encoding of x + factor
      capped at the default maximum, and ArrowDown that of x - factor floored
      at 0; the key throws exactly when a constraint attribute is in the
      format. */
  lemma ArrowOnDecoded(value: string, x: real, factor: real, up: bool, minAttribute: string, maxAttribute: string)
    requires DurationToMilliSeconds(value) == Ok(Finite(x)) && x >= 0.0 && factor > 0.0
    ensures ArrowValue(value, factor, up, minAttribute, maxAttribute).TypeError?
        <==> IsFormattedAttribute(minAttribute) || IsFormattedAttribute(maxAttribute)
    ensures ArrowValue(value, factor, up, minAttribute, maxAttribute).Ok? ==>
      ArrowValue(value, factor, up, minAttribute, maxAttribute).value
      == MilliSecondsToDuration(Finite(ClampReal(if up then x + factor else x - factor, 0.0, DefaultMax as real)))
  {
    var y := if up then x + factor else x - factor;
    SteppedClamped(x, factor, up);
    ClampDefault(y);
    ConstraintsOutcome(minAttribute, maxAttribute);
  }

  /** A whole number moved by a whole step: up and capped at the default
      maximum, or down and floored at 0. */
  function MovedWhole(n: nat, factor: nat, up: bool): nat
  {
    var m := if up then n + factor else if n >= factor then n - factor else 0;
    if m <= DefaultMax then m else DefaultMax
  }

  /** The real step and clamp of a whole number by a whole step is the
      whole number MovedWhole gives. */
  lemma ClampWhole(n: nat, factor: nat, up: bool)
    ensures ClampReal(if up then n as real + factor as real else n as real - factor as real, 0.0, DefaultMax as real)
      == MovedWhole(n, factor, up) as real
  {
  }

  /** For a whole step on the encoding of a whole number, the arrows store
      the encoding of the moved and clamped whole number. */
  lemma ArrowWholeStep(n: nat, factor: nat, up: bool)
    requires factor > 0
    ensures ArrowValue(Encode(n), factor as real, up, "", "") == Ok(Encode(MovedWhole(n, factor, up)))
  {
    ClampWhole(n, factor, up);
    RoundTrip(n);
    ArrowOnDecoded(Encode(n), n as real, factor as real, up, "", "");
  }

  // ---------------------------------------------------------------------------
  // Blur

  /** The value handleInputBlur leaves: the decoded repaired value when
      validateValue repaired it, the decoded value otherwise, clamped and
      encoded. It only writes when that differs from the value, which leaves
      the same text either way. */
  function BlurredValue(value: string, minAttribute: string, maxAttribute: string): Result<string>
  {
    var v :- Validated(value);
    var d :- DurationToMilliSeconds(if v.Replace? then v.text else value);
    EncodeConstrained(d, minAttribute, maxAttribute)
  }

  /** A number clamped to the constraints and encoded; reading the
      constraints may throw. */
  function EncodeConstrained(d: Number, minAttribute: string, maxAttribute: string): Result<string>
  {
    var b :- GetMinMaxConstraints(minAttribute, maxAttribute);
    ConstrainedEncodable(d, minAttribute, maxAttribute);
    Ok(MilliSecondsToDuration(ApplyMinMaxConstraints(d, b)))
  }

  /** Encoding a non-negative number under the constraints throws exactly
      when a constraint attribute is in the format, and otherwise encodes
      the number clamped to the default range. */
  lemma EncodeConstrainedFinite(x: real, minAttribute: string, maxAttribute: string)
    requires 0.0 <= x
    ensures EncodeConstrained(Finite(x), minAttribute, maxAttribute).TypeError?
        <==> IsFormattedAttribute(minAttribute) || IsFormattedAttribute(maxAttribute)
    ensures EncodeConstrained(Finite(x), minAttribute, maxAttribute).Ok? ==>
      EncodeConstrained(Finite(x), minAttribute, maxAttribute).value
      == MilliSecondsToDuration(Finite(ClampReal(x, 0.0, DefaultMax as real)))
  {
    ConstraintsOutcome(minAttribute, maxAttribute);
    ClampDefault(x);
  }

  /** The clamp under the default constraints, on reals. */
  lemma ClampDefault(x: real)
    ensures ApplyMinMaxConstraints(Finite(x), Bounds(Finite(0.0), Finite(DefaultMax as real)))
      == Finite(ClampReal(x, 0.0, DefaultMax as real))
  {
  }

  /** A blur of a value validateValue accepts, decoding to x, leaves the
      encoding of x clamped to the default range. */
  lemma BlurOnDecoded(value: string, x: real, minAttribute: string, maxAttribute: string)
    requires Validated(value) == Ok(Unchanged)
    requires DurationToMilliSeconds(value) == Ok(Finite(x)) && 0.0 <= x
    ensures BlurredValue(value, minAttribute, maxAttribute).TypeError?
        <==> IsFormattedAttribute(minAttribute) || IsFormattedAttribute(maxAttribute)
    ensures BlurredValue(value, minAttribute, maxAttribute).Ok? ==>
      BlurredValue(value, minAttribute, maxAttribute).value
      == MilliSecondsToDuration(Finite(ClampReal(x, 0.0, DefaultMax as real)))
  {
    assert BlurredValue(value, minAttribute, maxAttribute) == EncodeConstrained(Finite(x), minAttribute, maxAttribute);
    EncodeConstrainedFinite(x, minAttribute, maxAttribute);
  }

  /** A blur of a value whose five entries validateValue repairs throws:
      the repaired text has lost its " | ". */
  lemma BlurRepairThrows(value: string, minAttribute: string, maxAttribute: string)
    requires GetSectioned(value).Ok? && |GetSectioned(value).value| == 5
    requires Validated(value).Ok? && Validated(value).value.Replace?
    ensures BlurredValue(value, minAttribute, maxAttribute).TypeError?
  {
    RepairUndecodable(value, Validated(value).value.text);
  }

  /** A blur of a value getSectioned splits into other than five entries
      leaves the encoding of 0, unless reading the constraints throws. */
  lemma BlurFallback(value: string, minAttribute: string, maxAttribute: string)
    requires GetSectioned(value).Ok? && |GetSectioned(value).value| != 5
    ensures BlurredValue(value, minAttribute, maxAttribute).TypeError?
        <==> IsFormattedAttribute(minAttribute) || IsFormattedAttribute(maxAttribute)
    ensures BlurredValue(value, minAttribute, maxAttribute).Ok? ==>
      BlurredValue(value, minAttribute, maxAttribute).value == Encode(0)
  {
    ValidatedFallback(value);
    assert BlurredValue(value, minAttribute, maxAttribute) == EncodeConstrained(Finite(0.0), minAttribute, maxAttribute);
    EncodeConstrainedFinite(0.0, minAttribute, maxAttribute);
    assert ClampReal(0.0, 0.0, DefaultMax as real) == 0 as real;
  }

  /** A blur leaves the encoding of any whole number within the default
      maximum unchanged. */
  lemma BlurKeepsEncoded(n: nat, minAttribute: string, maxAttribute: string)
    requires n <= DefaultMax
    ensures BlurredValue(Encode(n), minAttribute, maxAttribute).TypeError?
        <==> IsFormattedAttribute(minAttribute) || IsFormattedAttribute(maxAttribute)
    ensures BlurredValue(Encode(n), minAttribute, maxAttribute).Ok? ==>
      BlurredValue(Encode(n), minAttribute, maxAttribute).value == Encode(n)
  {
    ValidateEncoded(n);
    RoundTrip(n);
    BlurOnDecoded(Encode(n), n as real, minAttribute, maxAttribute);
    assert ClampReal(n as real, 0.0, DefaultMax as real) == n as real;
  }

  /** A shaped value whose hours and minutes are at most 59 blurs to the
      encoding of its clamped tolerant value, so a second blur changes
      nothing. */
  lemma BlurIdempotent(v: string, minAttribute: string, maxAttribute: string)
    requires IsShaped(v) && DigitsValue(HoursText(v)) <= 59 && DigitsValue(MinutesText(v)) <= 59
    requires BlurredValue(v, minAttribute, maxAttribute).Ok?
    ensures var w := BlurredValue(v, minAttribute, maxAttribute).value;
      BlurredValue(w, minAttribute, maxAttribute) == Ok(w)
  {
    ValidateShaped(v);
    DecodeShaped(v);
    var t := TolerantValue(DigitsValue(DaysText(v)), DigitsValue(HoursText(v)), DigitsValue(MinutesText(v)),
      DigitsValue(SecondsText(v)), DigitsValue(MillisText(v)));
    var n := if t <= DefaultMax then t else DefaultMax;
    BlurOnDecoded(v, t as real, minAttribute, maxAttribute);
    var w := BlurredValue(v, minAttribute, maxAttribute).value;
    assert ClampReal(t as real, 0.0, DefaultMax as real) == n as real;
    assert w == Encode(n);
    BlurKeepsEncoded(n, minAttribute, maxAttribute);
  }

  // ---------------------------------------------------------------------------
  // Keys

  /** The digits handleKeydown refuses in the minutes and seconds. */
  predicate IsHighDigit(key: string)
  {
    key == "6" || key == "7" || key == "8" || key == "9"
  }

  /** The keys that pass the first filter although they are not numbers. */
  predicate IsAcceptedKey(key: string)
  {
    key == "Backspace" || key == "ArrowDown" || key == "ArrowUp" || key == "Tab"
  }

  /** The first filter: a key that is not a number and not accepted is
      refused and ends the handler. */
  predicate IsFilteredOut(key: string)
  {
    IsNaN(ToNumber(key)) && !IsAcceptedKey(key)
  }

  /** `sectioned[i].length < n` for the parts of the value split on ":";
      reading the length of a missing part throws. */
  function PartShorter(parts: seq<string>, i: nat, n: int): Result<bool>
  {
    if i < |parts| then Ok(|parts[i]| < n) else TypeError
  }

  /** The additional validations of handleKeydown: whether the key is
      refused, given the zone and selected text of the cursor, the value
      split on ":" and charsForHours. Each `||` evaluates its right side only
      when the left is false. */
  function KeyRefused(key: string, zone: Zone, content: string, parts: seq<string>, charsForHours: int): Result<bool>
    requires |parts| >= 1
  {
    if (zone == Hours && |content| >= charsForHours) || |parts[0]| < charsForHours then
      Ok(|content| > charsForHours && charsForHours > 0)
    else
      var inMinutes :- if zone == Minutes && |content| == 2 then Ok(true) else PartShorter(parts, 1, 2);
      if inMinutes then Ok(|content| >= 2 && IsHighDigit(key))
      else
        var inSeconds :- if zone == Seconds && |content| == 2 then Ok(true) else PartShorter(parts, 2, 2);
        if inSeconds then Ok(|content| >= 2 && IsHighDigit(key)) else Ok(true)
  }

  lemma ColonTemplate(d: string, h: string, m: string, s: string, ms: string)
    ensures Template(d, h, m, s, ms) == (d + " | " + h) + ":" + m + ":" + (s + "." + ms)
  {
    var a := d + " | " + h + ":" + m + ":";
    assert Template(d, h, m, s, ms) == a + s + "." + ms;
    assert a + s + "." + ms == a + (s + "." + ms);
  }

  /** The template splits on ":" into the days with the hours, the minutes,
      and the seconds with the milliseconds. */
  lemma TemplateColonParts(d: string, h: string, m: string, s: string, ms: string)
    requires AllDigits(d) && AllDigits(h) && AllDigits(m) && AllDigits(s) && AllDigits(ms)
    ensures Split(Template(d, h, m, s, ms), ":") == [d + " | " + h, m, s + "." + ms]
  {
    DigitsLack(d, ':');
    DigitsLack(h, ':');
    LacksAppend(d, " | ", ':');
    LacksAppend(d + " | ", h, ':');
    DigitsLack(m, ':');
    DigitsLack(s, ':');
    DigitsLack(ms, ':');
    LacksAppend(s, ".", ':');
    LacksAppend(s + ".", ms, ':');
    SplitThree(d + " | " + h, m, s + "." + ms);
    ColonTemplate(d, h, m, s, ms);
  }

  /** With the default hour width of 7 on a shaped value with at least two
      day digits (every encoding has them), a key that reaches
      the validations is accepted only when exactly 7 characters are selected
      in the hours, or 2 in the minutes or seconds and the key is not 6-9:
      typing over a normally selected hours, days or milliseconds field is
      refused. */
  lemma KeyRefusedShaped(v: string, key: string, zone: Zone, content: string)
    requires IsShaped(v) && |DaysText(v)| >= 2
    ensures KeyRefused(key, zone, content, Split(v, ":"), 7)
      == Ok(!((zone == Hours && |content| == 7)
              || ((zone == Minutes || zone == Seconds) && |content| == 2 && !IsHighDigit(key))))
  {
    ShapedIsTemplate(v);
    TemplateColonParts(DaysText(v), HoursText(v), MinutesText(v), SecondsText(v), MillisText(v));
  }

  /** A single digit passes the first filter, as does a space; arrows left
      and right and Enter do not. */
  lemma KeyFilterExamples(c: char)
    requires IsDigit(c)
    ensures !IsFilteredOut([c])
    ensures !IsFilteredOut(" ")
  {
    ToNumberOfDigits([c]);
  }

  /** ArrowLeft, ArrowRight and Enter, which handleKeydown prevents in its
      switch, are refused again by the filter, which ends the handler. */
  lemma ChangeKeysFiltered()
    ensures IsFilteredOut("ArrowLeft") && IsFilteredOut("ArrowRight") && IsFilteredOut("Enter")
  {
    NaNWhenLetterLed("ArrowLeft");
    NaNWhenLetterLed("ArrowRight");
    NaNWhenLetterLed("Enter");
  }

  /** Any single letter is refused by the filter. */
  lemma LetterFiltered(c: char)
    requires 'a' <= c <= 'z' || 'A' <= c <= 'Z'
    ensures IsFilteredOut([c])
  {
    NaNWhenLetterLed([c]);
  }

  // ---------------------------------------------------------------------------
  // Focus

  /** handleInputFocus highlights the days when nothing is selected at the
      start, when more than charsForHours characters are selected, or when
      charsForHours is 0. */
  predicate FocusSelectsDays(selectionStart: int, selectionEnd: int, charsForHours: int)
  {
    (selectionEnd == 0 && selectionStart == 0) || selectionEnd - selectionStart > charsForHours || charsForHours == 0
  }

  /** With the default hour width, tabbing in (an empty selection at 0, or the
      whole of a shaped value) highlights the days, while the field a click
      selects does not, when there are at most 7 day digits. */
  lemma FocusDecision(v: string, offset: int)
    requires IsShaped(v) && |DaysText(v)| <= 7
    ensures FocusSelectsDays(0, 0, 7) && FocusSelectsDays(0, |v|, 7)
    ensures var r := ClickRange(MarkersOf(v), ZoneAt(MarkersOf(v), offset));
      !FocusSelectsDays(r.start, r.end, 7)
  {
    ClickSelectsField(v, offset);
    ShapedMarkers(v);
  }
}

=== FILE: handlers.dfy ===
/** What the event handlers of src/html-duration-picker.js do to the input
    box, as functions from the box before to the box after: its value, its
    text selection and its data-adjustment-factor attribute. The class in
    module Picker performs the same updates step by step. */
module Handlers {
  import opened Wrappers
  import opened JsString
  import opened JsNumbers
  import opened Codec
  import opened Locator
  import opened Bounds
  import opened Validate
  import opened Editor

  // ---------------------------------------------------------------------------
  // The input box

  /** ToUnsignedLong of WebIDL: an offset handed to the selection API is
      taken modulo 2^32, so -1 becomes 4294967295. */
  function ToUnsignedLong(x: int): nat
  {
    if 0 <= x < 4294967296 then x else x % 4294967296
  }

  /** selectionStart and selectionEnd. */
  datatype Selection = Selection(start: nat, end: nat)

  /** setSelectionRange(start, end) on a text of length len, as HTML defines
      it: each offset is converted, clamped to the length, and a start past
      the end is moved to the end. */
  function SelectRange(len: nat, start: int, end: int): (r: Selection)
    ensures r.start <= r.end <= len
    ensures 0 <= start <= end <= len < 4294967296 ==> r == Selection(start, end)
  {
    var e := if ToUnsignedLong(end) <= len then ToUnsignedLong(end) else len;
    var s := if ToUnsignedLong(start) <= e then ToUnsignedLong(start) else e;
    Selection(s, e)
  }

  /** The state of an input box the handlers read and write: its value, its
      selection, and the number its data-adjustment-factor attribute holds. */
  datatype Field = Field(value: string, selection: Selection, factor: real)

  /** The selection lies within the value. */
  predicate Valid(f: Field)
  {
    f.selection.start <= f.selection.end <= |f.value|
  }

  /** Assigning selectionStart: the end first moves up to the new start if
      it is before it, then the range is set. */
  function WithStart(f: Field, start: int): (r: Field)
    ensures Valid(r) && r.value == f.value && r.factor == f.factor
    ensures Valid(f) && 0 <= start <= |f.value| < 4294967296 ==> r.selection.start == start
  {
    var u := ToUnsignedLong(start);
    var end := if f.selection.end < u then u else f.selection.end;
    f.(selection := SelectRange(|f.value|, u, end))
  }

  /** Assigning selectionEnd: the range is set from the current start. */
  function WithEnd(f: Field, end: int): (r: Field)
    ensures Valid(r) && r.value == f.value && r.factor == f.factor
    ensures f.selection.start <= end <= |f.value| < 4294967296 ==> r.selection == Selection(f.selection.start, end)
  {
    f.(selection := SelectRange(|f.value|, f.selection.start, end))
  }

  /** Assigning the value: when it differs from the current one, the caret
      moves to the end of the new value; otherwise nothing changes. */
  function WithValue(f: Field, v: string): (r: Field)
    ensures Valid(f) ==> Valid(r)
    ensures r.value == v && r.factor == f.factor
    ensures v == f.value ==> r == f
  {
    if v == f.value then f else f.(value := v, selection := Selection(|v|, |v|))
  }

  /** getAdjustmentFactor: the attribute when it is positive, 1 otherwise
      (an absent attribute reads as 0). */
  function GetAdjustmentFactor(attribute: real): (r: real)
    ensures r > 0.0
    ensures attribute > 0.0 ==> r == attribute
  {
    if attribute > 0.0 then attribute else 1.0
  }

  /** A box after a handler, or a step of one, and whether it ran to its end;
      `false` means it threw a TypeError part way, keeping what it had
      already assigned. */
  datatype Effect = Effect(field: Field, completed: bool)

  // ---------------------------------------------------------------------------
  // Selecting a field

  /** highlightTimeUnitArea: getSectioned may throw before anything is
      assigned; then selectionStart is assigned, the end is computed from a
      getSectioned entry, which may throw, and assigned; last the factor is
      stored when it is between 1 and a day. */
  function Highlight(f: Field, step: real): (r: Effect)
    ensures r.field.value == f.value
    ensures Valid(f) ==> Valid(r.field)
  {
    match GetSectioned(f.value)
    case TypeError => Effect(f, false)
    case Ok(sectioned) =>
      var m := MarkersOf(f.value);
      var zone := FactorZone(step);
      var g := WithStart(f, HighlightStart(m, zone));
      match HighlightEnd(m, sectioned, zone)
      case TypeError => Effect(g, false)
      case Ok(end) =>
        var h := WithEnd(g, end);
        var stored := StoredFactor(step);
        Effect(if stored.Some? then h.(factor := stored.value) else h, true)
  }

  /** The selected text. */
  function Selected(f: Field): string
    requires Valid(f)
  {
    f.value[f.selection.start..f.selection.end]
  }

  /** On a shaped value, highlighting runs to its end, selects exactly the
      field of the step's zone and stores the factor StoredFactor gives. */
  lemma HighlightShaped(f: Field, step: real)
    requires Valid(f) && IsShaped(f.value) && |f.value| < 4294967296
    ensures var r := Highlight(f, step);
      r.completed && Selected(r.field) == FieldText(f.value, FactorZone(step))
      && r.field.factor == (if StoredFactor(step).Some? then StoredFactor(step).value else f.factor)
  {
    var v := f.value;
    var zone := FactorZone(step);
    HighlightSelectsField(v, step);
    var m := MarkersOf(v);
    var g := WithStart(f, HighlightStart(m, zone));
    assert g.selection.start == HighlightStart(m, zone);
    var end := HighlightEnd(m, ShapedSections(v), zone).value;
    var h := WithEnd(g, end);
    assert h.selection == Selection(HighlightStart(m, zone), end);
  }

  /** Highlighting with the step of a second selects the seconds and stores
      that step. */
  lemma HighlightSeconds(f: Field)
    requires Valid(f) && IsShaped(f.value) && |f.value| < 4294967296
    ensures var r := Highlight(f, 1000.0);
      r.completed && Selected(r.field) == SecondsText(f.value) && r.field.factor == 1000.0
  {
    assert FactorZone(1000.0) == Seconds;
    StoredFactorZone(1000.0);
    HighlightShaped(f, 1000.0);
  }

  /** handleClickFocus: the zone of the selection start decides the factor,
      stored as it is, and the range setSelectionRange selects. */
  function Click(f: Field): (r: Field)
    ensures r.value == f.value && Valid(r)
  {
    var c := GetCursorSelection(f.value, f.selection.start, f.selection.end);
    var range := ClickRange(c.markers, c.zone);
    Field(f.value, SelectRange(|f.value|, range.start, range.end), ZoneFactor(c.zone))
  }

  /** A click anywhere in a shaped value selects the whole field of the zone
      it lands in and stores that zone's step; highlighting with the stored
      step then changes nothing. */
  lemma ClickShaped(f: Field)
    requires IsShaped(f.value) && |f.value| < 4294967296
    ensures var r := Click(f); var zone := ZoneAt(MarkersOf(f.value), f.selection.start);
      Selected(r) == FieldText(f.value, zone) && r.factor == ZoneFactor(zone)
      && Highlight(r, r.factor) == Effect(r, true)
  {
    var v := f.value;
    var m := MarkersOf(v);
    var zone := ZoneAt(m, f.selection.start);
    ClickSelectsField(v, f.selection.start);
    ClickAgreesWithHighlight(v, f.selection.start);
    ShapedSectioned(v);
    var r := Click(f);
    var range := ClickRange(m, zone);
    assert r.selection == Selection(range.start, range.end);
    var g := WithStart(r, HighlightStart(m, zone));
    assert g == r;
  }

  /** shiftTimeUnitAreaFocus: highlight with the step ShiftTarget derives
      from the current factor and selection start. */
  function Shift(f: Field, left: bool): (r: Effect)
    ensures r.field.value == f.value
    ensures Valid(f) ==> Valid(r.field)
  {
    Highlight(f, ShiftTarget(GetAdjustmentFactor(f.factor), f.selection.start, left))
  }

  /** ArrowRight from the minutes of a shaped value, with the minutes' step
      stored, selects the seconds and stores their step. */
  lemma ShiftMinutesRight(f: Field)
    requires Valid(f) && IsShaped(f.value) && |f.value| < 4294967296 && f.factor == 60000.0 && f.selection.start > 0
    ensures var r := Shift(f, false);
      r.completed && Selected(r.field) == SecondsText(f.value) && r.field.factor == 1000.0
  {
    assert ShiftTarget(60000.0, f.selection.start, false) == 1000.0;
    HighlightSeconds(f);
  }

  // ---------------------------------------------------------------------------
  // Changing the value

  /** changeValueByArrowKeys: the value ArrowValue computes with the
      current factor, written without synthetic events. */
  function ArrowChange(f: Field, up: bool, minAttribute: string, maxAttribute: string): (r: Result<Field>)
    ensures Valid(f) && r.Ok? ==> Valid(r.value) && r.value.factor == f.factor
  {
    var v :- ArrowValue(f.value, GetAdjustmentFactor(f.factor), up, minAttribute, maxAttribute);
    Ok(WithValue(f, v))
  }

  /** handleInputBlur: the value BlurredValue computes is written; the
      source writes it only when it differs, which for a value assignment
      is the same. */
  function Blur(f: Field, minAttribute: string, maxAttribute: string): (r: Result<Field>)
    ensures Valid(f) && r.Ok? ==> Valid(r.value) && r.value.factor == f.factor
  {
    var v :- BlurredValue(f.value, minAttribute, maxAttribute);
    Ok(WithValue(f, v))
  }

  /** A blur leaves a box holding the encoding of a whole number within the
      default maximum exactly as it is, selection included, unless reading
      the constraints throws. */
  lemma BlurKeepsField(f: Field, n: nat, minAttribute: string, maxAttribute: string)
    requires f.value == Encode(n) && n <= DefaultMax
    requires !IsFormattedAttribute(minAttribute) && !IsFormattedAttribute(maxAttribute)
    ensures Blur(f, minAttribute, maxAttribute) == Ok(f)
  {
    BlurKeepsEncoded(n, minAttribute, maxAttribute);
  }

  /** insertAndApplyValidations: the value, or the data-duration attribute
      when the value is empty, decoded, clamped and written. */
  function ApplyValidations(f: Field, minAttribute: string, maxAttribute: string, durationAttribute: string): (r: Result<Field>)
    ensures Valid(f) && r.Ok? ==> Valid(r.value) && r.value.factor == f.factor
  {
    var d :- DurationToMilliSeconds(if f.value != "" then f.value else durationAttribute);
    var b :- GetMinMaxConstraints(minAttribute, maxAttribute);
    ConstrainedEncodable(d, minAttribute, maxAttribute);
    Ok(WithValue(f, MilliSecondsToDuration(ApplyMinMaxConstraints(d, b))))
  }

  /** An empty box takes the encoding of 0, whatever the data-duration
      attribute, unless that attribute has a ":" without a "|" or reading the
      constraints throws. */
  lemma ApplyValidationsEmpty(f: Field, durationAttribute: string)
    requires f.value == "" && Lacks(durationAttribute, ':')
    ensures ApplyValidations(f, "", "", durationAttribute) == Ok(WithValue(f, Encode(0)))
  {
    assert DurationToMilliSeconds(durationAttribute) == Ok(Finite(0 as real));
    ApplyValidationsDuration(f, durationAttribute, 0);
  }

  /** An empty box under the default constraints takes the whole number of
      milliseconds its data-duration attribute decodes to, clamped. */
  lemma ApplyValidationsDuration(f: Field, durationAttribute: string, n: nat)
    requires f.value == "" && DurationToMilliSeconds(durationAttribute) == Ok(Finite(n as real))
    ensures ApplyValidations(f, "", "", durationAttribute) == Ok(WithValue(f, Encode(if n <= DefaultMax then n else DefaultMax)))
  {
    assert !IsFormattedAttribute("");
    ConstraintsOutcome("", "");
    var b := Bounds(Finite(0.0), Finite(DefaultMax as real));
    assert GetMinMaxConstraints("", "") == Ok(b);
    ClampDefault(n as real);
    var m := if n <= DefaultMax then n else DefaultMax;
    assert ApplyMinMaxConstraints(Finite(n as real), b) == Finite(m as real);
    var r := ApplyValidations(f, "", "", durationAttribute);
    assert r == Ok(WithValue(f, MilliSecondsToDuration(Finite(m as real))));
  }

  /** insertAndApplyValidations on a box whose value, or whose
      data-duration attribute when the value is empty, decodes to x: it
      throws exactly when a constraint attribute is in the format, and
      otherwise writes the encoding of x clamped to the default range. */
  lemma ApplyValidationsDecoded(f: Field, minAttribute: string, maxAttribute: string, durationAttribute: string, x: real)
    requires DurationToMilliSeconds(if f.value != "" then f.value else durationAttribute) == Ok(Finite(x)) && 0.0 <= x
    ensures ApplyValidations(f, minAttribute, maxAttribute, durationAttribute).TypeError?
        <==> IsFormattedAttribute(minAttribute) || IsFormattedAttribute(maxAttribute)
    ensures ApplyValidations(f, minAttribute, maxAttribute, durationAttribute).Ok? ==>
      ApplyValidations(f, minAttribute, maxAttribute, durationAttribute).value
      == WithValue(f, MilliSecondsToDuration(Finite(ClampReal(x, 0.0, DefaultMax as real))))
  {
    ConstraintsOutcome(minAttribute, maxAttribute);
    ClampDefault(x);
  }

  /** Enter on a box holding the encoding of a whole number within the
      default maximum leaves it exactly as it is, unless reading the
      constraints throws. */
  lemma ApplyValidationsEncoded(f: Field, n: nat, minAttribute: string, maxAttribute: string, durationAttribute: string)
    requires f.value == Encode(n) && n <= DefaultMax
    ensures ApplyValidations(f, minAttribute, maxAttribute, durationAttribute).TypeError?
        <==> IsFormattedAttribute(minAttribute) || IsFormattedAttribute(maxAttribute)
    ensures ApplyValidations(f, minAttribute, maxAttribute, durationAttribute).Ok? ==>
      ApplyValidations(f, minAttribute, maxAttribute, durationAttribute).value == f
  {
    assert f.value != "" by { EncodeCanonical(n); }
    RoundTrip(n);
    ApplyValidationsDecoded(f, minAttribute, maxAttribute, durationAttribute, n as real);
    var x := ClampReal(n as real, 0.0, DefaultMax as real);
    assert x == n as real;
    assert MilliSecondsToDuration(Finite(x)) == f.value;
  }

  /** The repair in handleUserInput: when validateValue returns a text, it
      is decoded, clamped and written; when it returns `false`, nothing is. */
  function Repair(f: Field, minAttribute: string, maxAttribute: string): (r: Result<Field>)
    ensures Valid(f) && r.Ok? ==> Valid(r.value) && r.value.factor == f.factor
  {
    var v :- Validated(f.value);
    if v.Unchanged? then Ok(f)
    else
      var d :- DurationToMilliSeconds(v.text);
      var b :- GetMinMaxConstraints(minAttribute, maxAttribute);
      ConstrainedEncodable(d, minAttribute, maxAttribute);
      Ok(WithValue(f, MilliSecondsToDuration(ApplyMinMaxConstraints(d, b))))
  }

  /** The repair throws when validateValue repairs five entries, since
      their join with ":" has no " | " left to decode. */
  lemma RepairThrows(f: Field, minAttribute: string, maxAttribute: string)
    requires GetSectioned(f.value).Ok? && |GetSectioned(f.value).value| == 5
    requires Validated(f.value).Ok? && Validated(f.value).value.Replace?
    ensures Repair(f, minAttribute, maxAttribute).TypeError?
  {
    RepairUndecodable(f.value, Validated(f.value).value.text);
  }

  /** The repair of a value with other than five entries writes the
      encoding of 0, unless reading the constraints throws. */
  lemma RepairFallback(f: Field, minAttribute: string, maxAttribute: string)
    requires GetSectioned(f.value).Ok? && |GetSectioned(f.value).value| != 5
    ensures Repair(f, minAttribute, maxAttribute).TypeError?
        <==> IsFormattedAttribute(minAttribute) || IsFormattedAttribute(maxAttribute)
    ensures Repair(f, minAttribute, maxAttribute).Ok? ==>
      Repair(f, minAttribute, maxAttribute).value == WithValue(f, Encode(0))
  {
    ValidatedFallback(f.value);
    RepairReplaced(f, Encode(0), 0.0, minAttribute, maxAttribute);
    assert ClampReal(0.0, 0.0, DefaultMax as real) == 0 as real;
  }

  /** A repair whose text decodes to x writes the encoding of x clamped to
      the default range, unless reading the constraints throws. */
  lemma RepairReplaced(f: Field, t: string, x: real, minAttribute: string, maxAttribute: string)
    requires Validated(f.value) == Ok(Replace(t)) && DurationToMilliSeconds(t) == Ok(Finite(x)) && 0.0 <= x
    ensures Repair(f, minAttribute, maxAttribute).TypeError?
        <==> IsFormattedAttribute(minAttribute) || IsFormattedAttribute(maxAttribute)
    ensures Repair(f, minAttribute, maxAttribute).Ok? ==>
      Repair(f, minAttribute, maxAttribute).value
      == WithValue(f, MilliSecondsToDuration(Finite(ClampReal(x, 0.0, DefaultMax as real))))
  {
    ConstraintsOutcome(minAttribute, maxAttribute);
    ClampDefault(x);
  }

  /** handleUserInput. The getSectioned entries and the zone are those of
      the value before the repair. Each decision reads the entry left of
      its zone: the hours are done when charsForHours is below 1 or the days
      entry (sectioned[0]) is at least that long, the minutes when the hours
      entry (sectioned[1]) has two characters, and both shift the selection
      right; the seconds are highlighted when the minutes entry
      (sectioned[2]) has two characters. The length of sectioned[2] is read
      whatever the zone, which throws when it is missing. */
  function UserInput(f: Field, minAttribute: string, maxAttribute: string): (r: Effect)
    ensures Valid(f) ==> Valid(r.field)
  {
    match GetSectioned(f.value)
    case TypeError => Effect(f, false)
    case Ok(sectioned) =>
      var zone := GetCursorSelection(f.value, f.selection.start, f.selection.end).zone;
      match GetMinMaxConstraints(minAttribute, maxAttribute)
      case TypeError => Effect(f, false)
      case Ok(b) =>
        var charsForHours := CharsForHours(b.max);
        match Repair(f, minAttribute, maxAttribute)
        case TypeError => Effect(f, false)
        case Ok(g) =>
          var e1 := if zone == Hours && (charsForHours < 1 || |sectioned[0].value| >= charsForHours)
            then Shift(g, false) else Effect(g, true);
          if !e1.completed then e1
          else
            var e2 := if |sectioned[1].value| >= 2 && zone == Minutes then Shift(e1.field, false) else e1;
            if !e2.completed then e2
            else
              match EntryLength(sectioned, 2)
              case TypeError => Effect(e2.field, false)
              case Ok(n) => if n >= 2 && zone == Seconds then Highlight(e2.field, 1000.0) else e2
  }

  /** Typing that leaves a shaped value with hours and minutes of at most 59
      and the caret in the minutes, with the minutes' step stored, moves the
      selection on to the seconds. */
  lemma UserInputMinutesDone(f: Field)
    requires Valid(f) && IsShaped(f.value) && |f.value| < 4294967296 && f.factor == 60000.0
    requires DigitsValue(HoursText(f.value)) <= 59 && DigitsValue(MinutesText(f.value)) <= 59
    requires ZoneAt(MarkersOf(f.value), f.selection.start) == Minutes
    ensures var r := UserInput(f, "", "");
      r.completed && Selected(r.field) == SecondsText(f.value) && r.field.factor == 1000.0
  {
    var v := f.value;
    ValidateShaped(v);
    assert Repair(f, "", "") == Ok(f);
    ShapedSectioned(v);
    ShiftMinutesRight(f);
    var sectioned := ShapedSections(v);
    assert |sectioned[1].value| == 2;
    assert EntryLength(sectioned, 2) == Ok(2);
    UserInputInMinutes(f, sectioned);
  }

  /** When the value needs no repair and the caret is in the minutes, with
      an hours entry of two characters or more and a minutes entry, typing
      shifts the selection right. */
  lemma UserInputInMinutes(f: Field, sectioned: seq<Option<string>>)
    requires GetSectioned(f.value) == Ok(sectioned) && Repair(f, "", "") == Ok(f)
    requires |sectioned| >= 3 && sectioned[1].Some? && |sectioned[1].value| >= 2 && EntryLength(sectioned, 2).Ok?
    requires ZoneAt(MarkersOf(f.value), f.selection.start) == Minutes
    ensures UserInput(f, "", "") == Shift(f, false) || !Shift(f, false).completed
  {
    ConstraintsOutcome("", "");
    assert !IsFormattedAttribute("");
    assert GetCursorSelection(f.value, f.selection.start, f.selection.end).zone == Minutes;
  }

  /** Typing that leaves five entries validateValue repairs (an hours or
      minutes entry that is not a number from 0 to 59 of at most two
      characters, or days that are not a number) throws and changes
      nothing. */
  lemma UserInputRepairThrows(f: Field, minAttribute: string, maxAttribute: string)
    requires GetSectioned(f.value).Ok? && |GetSectioned(f.value).value| == 5
    requires Validated(f.value).Ok? && Validated(f.value).value.Replace?
    ensures UserInput(f, minAttribute, maxAttribute) == Effect(f, false)
  {
    RepairThrows(f, minAttribute, maxAttribute);
  }

  /** Under the default constraints the hours are done only when the days
      entry has 7 characters, the length of the default maximum's hours:
      with fewer day digits, typing in the hours of a value that needs no
      repair leaves the box as it is. */
  lemma UserInputHoursWait(f: Field)
    requires Valid(f) && IsShaped(f.value) && |DaysText(f.value)| < 7
    requires DigitsValue(HoursText(f.value)) <= 59 && DigitsValue(MinutesText(f.value)) <= 59
    requires ZoneAt(MarkersOf(f.value), f.selection.start) == Hours
    ensures UserInput(f, "", "") == Effect(f, true)
  {
    UserInputHoursDecision(f);
  }

  /** With 7 or more day digits, typing in the hours shifts the selection
      right. */
  lemma UserInputHoursDone(f: Field)
    requires Valid(f) && IsShaped(f.value) && |DaysText(f.value)| >= 7
    requires DigitsValue(HoursText(f.value)) <= 59 && DigitsValue(MinutesText(f.value)) <= 59
    requires ZoneAt(MarkersOf(f.value), f.selection.start) == Hours
    ensures UserInput(f, "", "") == Shift(f, false)
  {
    UserInputHoursDecision(f);
  }

  lemma UserInputHoursDecision(f: Field)
    requires Valid(f) && IsShaped(f.value)
    requires DigitsValue(HoursText(f.value)) <= 59 && DigitsValue(MinutesText(f.value)) <= 59
    requires ZoneAt(MarkersOf(f.value), f.selection.start) == Hours
    ensures UserInput(f, "", "") == if |DaysText(f.value)| >= 7 then Shift(f, false) else Effect(f, true)
  {
    var v := f.value;
    ValidateShaped(v);
    assert Repair(f, "", "") == Ok(f);
    ShapedSectioned(v);
    var sectioned := ShapedSections(v);
    assert EntryLength(sectioned, 2) == Ok(2);
    UserInputInHours(f, sectioned);
  }

  /** When the value needs no repair and the caret is in the hours, under
      the default constraints, typing shifts the selection right exactly
      when the days entry has at least 7 characters. */
  lemma UserInputInHours(f: Field, sectioned: seq<Option<string>>)
    requires GetSectioned(f.value) == Ok(sectioned) && Repair(f, "", "") == Ok(f)
    requires |sectioned| >= 3 && EntryLength(sectioned, 2).Ok?
    requires ZoneAt(MarkersOf(f.value), f.selection.start) == Hours
    ensures UserInput(f, "", "") == if |sectioned[0].value| >= 7 then Shift(f, false) else Effect(f, true)
  {
    ConstraintsOutcome("", "");
    assert !IsFormattedAttribute("");
    DefaultCharsForHours();
    assert GetCursorSelection(f.value, f.selection.start, f.selection.end).zone == Hours;
  }

  /** The seconds are highlighted on the length of the minutes entry: when
      the value needs no repair and the caret is in the seconds, a minutes
      entry of two characters is enough, whatever the seconds entry. */
  lemma UserInputSecondsReadsMinutes(f: Field, sectioned: seq<Option<string>>)
    requires GetSectioned(f.value) == Ok(sectioned) && Repair(f, "", "") == Ok(f)
    requires |sectioned| >= 3 && sectioned[2].Some? && |sectioned[2].value| >= 2
    requires ZoneAt(MarkersOf(f.value), f.selection.start) == Seconds
    ensures UserInput(f, "", "") == Highlight(f, 1000.0)
  {
    ConstraintsOutcome("", "");
    assert !IsFormattedAttribute("");
    assert GetCursorSelection(f.value, f.selection.start, f.selection.end).zone == Seconds;
  }

  /** Typing in the seconds of a shaped value with hours and minutes of at
      most 59 selects the seconds again and stores their step. */
  lemma UserInputSecondsDone(f: Field)
    requires Valid(f) && IsShaped(f.value) && |f.value| < 4294967296
    requires DigitsValue(HoursText(f.value)) <= 59 && DigitsValue(MinutesText(f.value)) <= 59
    requires ZoneAt(MarkersOf(f.value), f.selection.start) == Seconds
    ensures var r := UserInput(f, "", "");
      r.completed && Selected(r.field) == SecondsText(f.value) && r.field.factor == 1000.0
  {
    var v := f.value;
    ValidateShaped(v);
    assert Repair(f, "", "") == Ok(f);
    ShapedSectioned(v);
    UserInputSecondsReadsMinutes(f, ShapedSections(v));
    HighlightSeconds(f);
  }

  // ---------------------------------------------------------------------------
  // Keys

  /** A keydown's effect on the box, whether preventDefault was called, and
      whether the handler ran to its end. */
  datatype KeyEffect = KeyEffect(field: Field, prevented: bool, completed: bool)

  /** The additional validations at the end of handleKeydown, on the box as
      it then is: they never change it, and refuse the key or throw. */
  function Validations(f: Field, key: string, minAttribute: string, maxAttribute: string, prevented: bool): (r: KeyEffect)
    ensures r.field == f && (prevented ==> r.prevented)
  {
    var c := GetCursorSelection(f.value, f.selection.start, f.selection.end);
    var parts := Split(f.value, ":");
    match GetMinMaxConstraints(minAttribute, maxAttribute)
    case TypeError => KeyEffect(f, prevented, false)
    case Ok(b) =>
      match KeyRefused(key, c.zone, c.content, parts, CharsForHours(b.max))
      case TypeError => KeyEffect(f, prevented, false)
      case Ok(refused) => KeyEffect(f, prevented || refused, true)
  }

  /** The switch of handleKeydown over ArrowDown, ArrowUp, ArrowLeft,
      ArrowRight and Enter, then preventDefault. The arrows up and down
      change the value and highlight with the factor read at the start;
      left and right shift; Enter applies the validations. A throw ends the
      handler before preventDefault. */
  function ChangeKeyStep(f: Field, key: string, minAttribute: string, maxAttribute: string, durationAttribute: string): (r: KeyEffect)
    ensures Valid(f) ==> Valid(r.field)
  {
    var factor := GetAdjustmentFactor(f.factor);
    if key == "ArrowDown" || key == "ArrowUp" then
      match ArrowChange(f, key == "ArrowUp", minAttribute, maxAttribute)
      case TypeError => KeyEffect(f, false, false)
      case Ok(g) =>
        var h := Highlight(g, factor);
        KeyEffect(h.field, h.completed, h.completed)
    else if key == "ArrowLeft" || key == "ArrowRight" then
      var h := Shift(f, key == "ArrowLeft");
      KeyEffect(h.field, h.completed, h.completed)
    else if key == "Enter" then
      match ApplyValidations(f, minAttribute, maxAttribute, durationAttribute)
      case TypeError => KeyEffect(f, false, false)
      case Ok(g) => KeyEffect(g, true, true)
    else KeyEffect(f, false, true)
  }

  /** The Tab branch: with the factor read again, Shift-Tab below 3600 and
      Tab above 1 are prevented and shift the selection. */
  function TabStep(e: KeyEffect, key: string, shiftKey: bool): (r: KeyEffect)
    ensures Valid(e.field) ==> Valid(r.field)
  {
    var factor := GetAdjustmentFactor(e.field.factor);
    if key == "Tab" && ((shiftKey && factor < 3600.0) || (!shiftKey && factor > 1.0)) then
      var h := Shift(e.field, shiftKey);
      KeyEffect(h.field, true, h.completed)
    else e
  }

  /** handleKeydown: the switch, the Tab branch, then the filter, which
      prevents a key that is not a number and not accepted and ends the
      handler, then the validations. A throw ends the handler where it
      happens. */
  function Keydown(f: Field, key: string, shiftKey: bool,
                   minAttribute: string, maxAttribute: string, durationAttribute: string): (r: KeyEffect)
    ensures Valid(f) ==> Valid(r.field)
  {
    var e1 := ChangeKeyStep(f, key, minAttribute, maxAttribute, durationAttribute);
    if !e1.completed then e1
    else
      var e2 := TabStep(e1, key, shiftKey);
      if !e2.completed then e2
      else if IsFilteredOut(key) then KeyEffect(e2.field, true, true)
      else Validations(e2.field, key, minAttribute, maxAttribute, e2.prevented)
  }

  /** Tab and Shift-Tab on a shaped value with at least two day digits
      whose minutes are selected, with the minutes' step stored, under the
      default constraints. Shift-Tab is intercepted only below a factor of
      3600, so here it is neither prevented nor acted on and focus leaves
      the box; Tab is prevented and selects the seconds. */
  lemma KeydownTabFromMinutes(f: Field, shiftKey: bool, durationAttribute: string)
    requires Valid(f) && IsShaped(f.value) && |DaysText(f.value)| >= 2 && |f.value| < 4294967296
    requires f.factor == 60000.0
    requires var k := |f.value| - 15; f.selection == Selection(k + 6, k + 8)
    ensures var r := Keydown(f, "Tab", shiftKey, "", "", durationAttribute);
      shiftKey ==> r == KeyEffect(f, false, true)
    ensures var r := Keydown(f, "Tab", shiftKey, "", "", durationAttribute);
      !shiftKey ==> r.prevented && r.completed && Selected(r.field) == SecondsText(f.value) && r.field.factor == 1000.0
  {
    var v := f.value;
    var k := |v| - 15;
    ShapedZones(v, k + 6);
    assert GetCursorSelection(v, k + 6, k + 8).content == MinutesText(v);
    assert IsAcceptedKey("Tab");
    assert ChangeKeyStep(f, "Tab", "", "", durationAttribute) == KeyEffect(f, false, true);
    ValidationsShaped(f, "Tab", false);
    if shiftKey {
      KeyRefusedTab(f);
    } else {
      ShiftMinutesRight(f);
      ValidationsShaped(Shift(f, false).field, "Tab", true);
    }
  }

  lemma KeyRefusedTab(f: Field)
    requires IsShaped(f.value) && |DaysText(f.value)| >= 2
    requires ZoneAt(MarkersOf(f.value), f.selection.start) == Minutes
    requires |Slice(f.value, f.selection.start, f.selection.end)| == 2
    ensures Validations(f, "Tab", "", "", false) == KeyEffect(f, false, true)
  {
    ConstraintsOutcome("", "");
    assert !IsFormattedAttribute("");
    DefaultCharsForHours();
    var c := GetCursorSelection(f.value, f.selection.start, f.selection.end);
    KeyRefusedShaped(f.value, "Tab", c.zone, c.content);
  }

  /** Enter on a box holding the encoding of a whole number within the
      default maximum is refused and leaves the box as it is. */
  lemma KeydownEnterEncoded(f: Field, n: nat, shiftKey: bool, durationAttribute: string)
    requires f.value == Encode(n) && n <= DefaultMax
    ensures Keydown(f, "Enter", shiftKey, "", "", durationAttribute) == KeyEffect(f, true, true)
  {
    assert !IsFormattedAttribute("");
    ApplyValidationsEncoded(f, n, "", "", durationAttribute);
    ChangeKeysFiltered();
  }

  /** A key that is neither a number nor one the handler knows is refused
      and changes nothing. */
  lemma KeydownFiltered(f: Field, key: string, shiftKey: bool,
                        minAttribute: string, maxAttribute: string, durationAttribute: string)
    requires IsFilteredOut(key) && key != "ArrowLeft" && key != "ArrowRight" && key != "Enter"
    ensures Keydown(f, key, shiftKey, minAttribute, maxAttribute, durationAttribute) == KeyEffect(f, true, true)
  {
  }

  /** ArrowLeft, ArrowRight and Enter are refused whenever the handler runs
      to its end, and every other key but ArrowUp, ArrowDown and Tab leaves
      the box as it was. */
  lemma KeydownPrevents(f: Field, key: string, shiftKey: bool,
                        minAttribute: string, maxAttribute: string, durationAttribute: string)
    ensures var r := Keydown(f, key, shiftKey, minAttribute, maxAttribute, durationAttribute);
      (key == "ArrowLeft" || key == "ArrowRight" || key == "Enter") && r.completed ==> r.prevented
    ensures var r := Keydown(f, key, shiftKey, minAttribute, maxAttribute, durationAttribute);
      key !in ["ArrowUp", "ArrowDown", "Tab", "ArrowLeft", "ArrowRight", "Enter"] ==> r.field == f
  {
    ChangeKeysFiltered();
  }

  /** Under the default constraints, a digit typed into a shaped value with
      at least two day digits is accepted exactly when 7 characters of the
      hours, or 2 of the minutes or seconds and the digit is below 6, are
      selected. */
  lemma KeydownDigitShaped(f: Field, c: char, shiftKey: bool, durationAttribute: string)
    requires Valid(f) && IsShaped(f.value) && |DaysText(f.value)| >= 2 && IsDigit(c)
    ensures var r := Keydown(f, [c], shiftKey, "", "", durationAttribute);
      var s := GetCursorSelection(f.value, f.selection.start, f.selection.end);
      r.field == f && r.completed
      && (r.prevented <==>
            !((s.zone == Hours && |s.content| == 7)
              || ((s.zone == Minutes || s.zone == Seconds) && |s.content| == 2 && !IsHighDigit([c]))))
  {
    KeyFilterExamples(c);
    ConstraintsOutcome("", "");
    assert !IsFormattedAttribute("");
    DefaultCharsForHours();
    var s := GetCursorSelection(f.value, f.selection.start, f.selection.end);
    KeyRefusedShaped(f.value, [c], s.zone, s.content);
  }

  /** On the encoding of a whole number, with a whole positive factor and no
      constraint attributes, ArrowUp and ArrowDown store the encoding of the
      moved and clamped number. */
  lemma ArrowChangeEncoded(f: Field, n: nat, k: nat, up: bool)
    requires f.value == Encode(n) && f.factor == k as real && k > 0
    ensures ArrowChange(f, up, "", "") == Ok(WithValue(f, Encode(MovedWhole(n, k, up))))
  {
    ArrowWholeStep(n, k, up);
  }

  /** With no positive factor stored (the attribute absent reads as 0), the
      arrows step by 1. */
  lemma ArrowChangeUnsetFactor(f: Field, n: nat, up: bool)
    requires f.value == Encode(n) && f.factor <= 0.0
    ensures ArrowChange(f, up, "", "") == Ok(WithValue(f, Encode(MovedWhole(n, 1, up))))
  {
    assert GetAdjustmentFactor(f.factor) == 1 as real;
    ArrowWholeStep(n, 1, up);
  }

  /** The validations run to their end on a shaped value with at least two
      day digits under the default constraints. */
  lemma ValidationsShaped(f: Field, key: string, prevented: bool)
    requires IsShaped(f.value) && |DaysText(f.value)| >= 2
    ensures Validations(f, key, "", "", prevented).completed
  {
    ConstraintsOutcome("", "");
    assert !IsFormattedAttribute("");
    DefaultCharsForHours();
    var c := GetCursorSelection(f.value, f.selection.start, f.selection.end);
    KeyRefusedShaped(f.value, key, c.zone, c.content);
  }

  /** ArrowUp or ArrowDown whose value change and highlight do not throw
      ends in the validations, with the key refused. */
  lemma KeydownArrowSteps(f: Field, up: bool, shiftKey: bool, durationAttribute: string, g: Field)
    requires ArrowChange(f, up, "", "") == Ok(g) && Highlight(g, GetAdjustmentFactor(f.factor)).completed
    ensures var key := if up then "ArrowUp" else "ArrowDown";
      Keydown(f, key, shiftKey, "", "", durationAttribute)
      == Validations(Highlight(g, GetAdjustmentFactor(f.factor)).field, key, "", "", true)
  {
    var key := if up then "ArrowUp" else "ArrowDown";
    var e1 := ChangeKeyStep(f, key, "", "", durationAttribute);
    assert e1 == KeyEffect(Highlight(g, GetAdjustmentFactor(f.factor)).field, true, true);
    assert TabStep(e1, key, shiftKey) == e1;
  }

  /** ArrowUp or ArrowDown that writes a canonical value, under the default
      constraints, selects the field of the factor's zone in it, and the key
      is refused. */
  lemma KeydownArrowCanonical(f: Field, up: bool, shiftKey: bool, durationAttribute: string, w: string)
    requires Valid(f) && ArrowChange(f, up, "", "") == Ok(WithValue(f, w)) && IsCanonical(w) && |w| < 4294967296
    ensures var r := Keydown(f, if up then "ArrowUp" else "ArrowDown", shiftKey, "", "", durationAttribute);
      r.field.value == w && r.prevented && r.completed
      && Selected(r.field) == FieldText(w, FactorZone(GetAdjustmentFactor(f.factor)))
  {
    var key := if up then "ArrowUp" else "ArrowDown";
    var g := WithValue(f, w);
    var factor := GetAdjustmentFactor(f.factor);
    HighlightShaped(g, factor);
    var h := Highlight(g, factor);
    KeydownArrowSteps(f, up, shiftKey, durationAttribute, g);
    ValidationsShaped(h.field, key, true);
  }

  /** A whole keydown of ArrowUp or ArrowDown on the encoding of a whole
      number, with a whole positive factor and no constraint attributes: the
      box ends up holding the encoding of the moved and clamped number with
      the field of the factor's zone selected, and the key is refused. */
  lemma KeydownArrowEncoded(f: Field, n: nat, k: nat, up: bool, shiftKey: bool, durationAttribute: string)
    requires Valid(f) && f.value == Encode(n) && f.factor == k as real && k > 0
    ensures var r := Keydown(f, if up then "ArrowUp" else "ArrowDown", shiftKey, "", "", durationAttribute);
      var m := MovedWhole(n, k, up);
      r.field.value == Encode(m) && r.prevented && r.completed
      && Selected(r.field) == FieldText(Encode(m), FactorZone(k as real))
  {
    var m := MovedWhole(n, k, up);
    ArrowChangeEncoded(f, n, k, up);
    EncodeCanonical(m);
    assert m <= DefaultMax < 1000 * 86400000;
    EncodeShort(m);
    KeydownArrowCanonical(f, up, shiftKey, durationAttribute, Encode(m));
  }

  // ---------------------------------------------------------------------------
  // Focus

  /** The decision of handleInputFocus: whether it schedules highlighting
      the days, or throws reading the constraints. */
  function FocusHighlightsDays(f: Field, minAttribute: string, maxAttribute: string): Result<bool>
  {
    var b :- GetMinMaxConstraints(minAttribute, maxAttribute);
    Ok(FocusSelectsDays(f.selection.start, f.selection.end, CharsForHours(b.max)))
  }

  /** Under the default constraints, focusing by Tab (nothing selected at 0)
      or with everything selected schedules the days, and a focus that finds
      a clicked field of a shaped value with at most 7 day digits does not. */
  lemma FocusDefault(f: Field)
    requires IsShaped(f.value) && |DaysText(f.value)| <= 7 && |f.value| < 4294967296
    ensures FocusHighlightsDays(f.(selection := Selection(0, 0)), "", "") == Ok(true)
    ensures FocusHighlightsDays(f.(selection := Selection(0, |f.value|)), "", "") == Ok(true)
    ensures FocusHighlightsDays(Click(f), "", "") == Ok(false)
  {
    ConstraintsOutcome("", "");
    assert !IsFormattedAttribute("");
    DefaultCharsForHours();
    FocusDecision(f.value, f.selection.start);
    ClickSelectsField(f.value, f.selection.start);
  }
}

=== FILE: jsnumbers.dfy ===
/** JavaScript numbers as the picker uses them: the string-to-number
    conversion behind `Number(s)`, `isNaN(s)` and `s > 59`, and the few
    arithmetic operations and comparisons applied to the results. Finite
    values are exact reals: rounding to IEEE-754 doubles is not modelled. */
module JsNumbers {
  import opened Wrappers
  import opened JsString

  datatype Number = NaN | PosInfinity | NegInfinity | Finite(val: real)

  function Pow10Real(e: int): (r: real)
    ensures r > 0.0
  {
    if e >= 0 then Pow10(e) as real else 1.0 / (Pow10(-e) as real)
  }

  // ---------------------------------------------------------------------------
  // StringToNumber (section 7.1.4.1.1 of ECMA-262)

  function RadixDigit(c: char): (d: nat)
  {
    if '0' <= c <= '9' then (c as int) - ('0' as int)
    else if 'a' <= c <= 'z' then (c as int) - ('a' as int) + 10
    else if 'A' <= c <= 'Z' then (c as int) - ('A' as int) + 10
    else 36
  }

  predicate AllRadixDigits(s: string, radix: nat)
  {
    forall i :: 0 <= i < |s| ==> RadixDigit(s[i]) < radix
  }

  function RadixValue(s: string, radix: nat): nat
  {
    if |s| == 0 then 0
    else RadixValue(s[..|s| - 1], radix) * radix + RadixDigit(s[|s| - 1])
  }

  /** A NonDecimalIntegerLiteral: `0b`, `0o` or `0x` (either case) and at
      least one digit of that radix; no sign is allowed before it. */
  function NonDecimalValue(t: string): Option<nat>
  {
    if |t| > 2 && t[0] == '0' then
      var radix := if t[1] == 'b' || t[1] == 'B' then 2
                   else if t[1] == 'o' || t[1] == 'O' then 8
                   else if t[1] == 'x' || t[1] == 'X' then 16
                   else 0;
      if radix != 0 && AllRadixDigits(t[2..], radix) then Some(RadixValue(t[2..], radix)) else None
    else None
  }

  /** The first offset of an exponent indicator `e` or `E`, or -1. */
  function ExponentIndex(s: string): (r: int)
    ensures -1 <= r < |s|
    ensures r >= 0 ==> s[r] == 'e' || s[r] == 'E'
    ensures r < 0 ==> Lacks(s, 'e') && Lacks(s, 'E')
  {
    if |s| == 0 then -1
    else if s[0] == 'e' || s[0] == 'E' then 0
    else
      var k := ExponentIndex(s[1..]);
      if k < 0 then -1 else k + 1
  }

  /** SignedInteger: optional sign, then one or more decimal digits. */
  function SignedIntegerValue(x: string): Option<int>
  {
    if |x| > 0 && (x[0] == '+' || x[0] == '-') then
      var d := x[1..];
      if |d| > 0 && AllDigits(d) then
        Some(if x[0] == '-' then -(DigitsValue(d) as int) else DigitsValue(d))
      else None
    else if |x| > 0 && AllDigits(x) then Some(DigitsValue(x))
    else None
  }

  /** `digits`, `digits.`, `digits.digits` or `.digits`. */
  function MantissaValue(m: string): Option<real>
  {
    var dot := IndexOf(m, ".");
    if dot < 0 then
      if |m| > 0 && AllDigits(m) then Some(DigitsValue(m) as real) else None
    else
      var whole, fraction := m[..dot], m[dot + 1..];
      if AllDigits(whole) && AllDigits(fraction) && |whole| + |fraction| > 0 then
        Some(DigitsValue(whole) as real + DigitsValue(fraction) as real / Pow10(|fraction|) as real)
      else None
  }

  /** StrUnsignedDecimalLiteral: `Infinity`, or a mantissa with an optional
      exponent part. */
  function UnsignedDecimal(u: string): Number
  {
    if u == "Infinity" then PosInfinity
    else
      var e := ExponentIndex(u);
      var mantissa := if e < 0 then MantissaValue(u) else MantissaValue(u[..e]);
      var exponent := if e < 0 then Some(0) else SignedIntegerValue(u[e + 1..]);
      if mantissa.Some? && exponent.Some? then Finite(mantissa.value * Pow10Real(exponent.value))
      else NaN
  }

  function Negate(x: Number): Number
  {
    match x
    case NaN => NaN
    case PosInfinity => NegInfinity
    case NegInfinity => PosInfinity
    case Finite(v) => Finite(-v)
  }

  /** `Number(s)` for a string `s`: surrounding white space is ignored, the
      empty string is 0 and anything outside the StringNumericLiteral grammar
      is NaN. */
  function ToNumber(s: string): (r: Number)
    ensures Trim(s) == "" ==> r == Finite(0.0)
  {
    NumericLiteral(Trim(s))
  }

  /** StringNumericLiteral without its surrounding white space. */
  function NumericLiteral(t: string): Number
  {
    if t == "" then Finite(0.0)
    else if NonDecimalValue(t).Some? then Finite(NonDecimalValue(t).value as real)
    else if t[0] == '+' then UnsignedDecimal(t[1..])
    else if t[0] == '-' then Negate(UnsignedDecimal(t[1..]))
    else UnsignedDecimal(t)
  }

  /** A mantissa cannot start with a character other than a digit or ".". */
  lemma MantissaLetterLed(m: string)
    requires |m| > 0 ==> !IsDigit(m[0]) && m[0] != '.'
    ensures MantissaValue(m).None?
  {
    var dot := IndexOf(m, ".");
    if dot > 0 {
      assert m[..dot][0] == m[0];
    }
  }

  /** A text that starts with a character that cannot open a numeric
      literal (not white space, a digit, a sign or "."), ends with one that
      is not white space and is not "Infinity", converts to NaN. */
  lemma NaNWhenLetterLed(s: string)
    requires |s| > 0 && !IsDigit(s[0]) && s[0] != '+' && s[0] != '-' && s[0] != '.'
    requires !IsWhiteSpace(s[0]) && !IsWhiteSpace(s[|s| - 1]) && s != "Infinity"
    ensures ToNumber(s).NaN?
  {
    assert TrimStart(s) == s;
    assert Trim(s) == s;
    var e := ExponentIndex(s);
    if e < 0 {
      MantissaLetterLed(s);
    } else {
      MantissaLetterLed(s[..e]);
    }
  }

  /** A non-empty run of decimal digits converts to its value. */
  lemma ToNumberOfDigits(s: string)
    requires |s| > 0 && AllDigits(s)
    ensures ToNumber(s) == Finite(DigitsValue(s) as real)
  {
    assert Trim(s) == s by {
      TrimDigits(s, "");
      assert s + "" == s;
    }
    assert NonDecimalValue(s).None? by {
      if |s| > 2 { assert IsDigit(s[1]); }
    }
    assert IsDigit(s[0]);
    assert NumericLiteral(s) == UnsignedDecimal(s);
    UnsignedDecimalOfDigits(s);
  }

  lemma UnsignedDecimalOfDigits(s: string)
    requires |s| > 0 && AllDigits(s)
    ensures UnsignedDecimal(s) == Finite(DigitsValue(s) as real)
  {
    DigitsNotExponent(s);
    MantissaOfDigits(s);
    UnsignedDecimalPlain(s);
  }

  /** Without an exponent part the value is the mantissa's. */
  lemma UnsignedDecimalPlain(u: string)
    requires u != "Infinity" && ExponentIndex(u) == -1 && MantissaValue(u).Some?
    ensures UnsignedDecimal(u) == Finite(MantissaValue(u).value)
  {
    assert Pow10Real(0) == 1.0;
  }

  /** Digits are neither `Infinity` nor carry an exponent part. */
  lemma DigitsNotExponent(s: string)
    requires |s| > 0 && AllDigits(s)
    ensures s != "Infinity" && ExponentIndex(s) == -1
  {
    assert IsDigit(s[0]);
    DigitsLack(s, 'e');
    DigitsLack(s, 'E');
  }

  lemma MantissaOfDigits(s: string)
    requires |s| > 0 && AllDigits(s)
    ensures MantissaValue(s) == Some(DigitsValue(s) as real)
  {
    DigitsLack(s, '.');
    IndexOfLacking(s, ".");
  }

  /** Digits followed by white space (the days text before a `|`). */
  lemma ToNumberOfPaddedDigits(s: string, trailing: string)
    requires |s| > 0 && AllDigits(s)
    requires forall i :: 0 <= i < |trailing| ==> IsWhiteSpace(trailing[i])
    ensures ToNumber(s + trailing) == ToNumber(s) == Finite(DigitsValue(s) as real)
  {
    TrimDigits(s, trailing);
    TrimDigits(s, "");
    assert s + "" == s;
    ToNumberOfDigits(s);
  }

  // ---------------------------------------------------------------------------
  // Operators on the results

  predicate IsNaN(x: Number) { x.NaN? }

  /** `x > c`; every comparison with NaN is false. */
  predicate GreaterThan(x: Number, c: real)
  {
    match x
    case Finite(v) => v > c
    case PosInfinity => true
    case _ => false
  }

  /** `x < c`; every comparison with NaN is false. */
  predicate LessThan(x: Number, c: real)
  {
    match x
    case Finite(v) => v < c
    case NegInfinity => true
    case _ => false
  }

  /** `x + y`. */
  function Add(x: Number, y: Number): Number
  {
    if x.NaN? || y.NaN? || (x.PosInfinity? && y.NegInfinity?) || (x.NegInfinity? && y.PosInfinity?) then NaN
    else if x.PosInfinity? || y.PosInfinity? then PosInfinity
    else if x.NegInfinity? || y.NegInfinity? then NegInfinity
    else Finite(x.val + y.val)
  }

  /** `x * c` for a positive finite constant `c`. */
  function Scale(x: Number, c: real): Number
    requires c > 0.0
  {
    match x
    case Finite(v) => Finite(v * c)
    case _ => x
  }

  /** `x <= y`; false when either is NaN. */
  predicate AtMost(x: Number, y: Number)
  {
    match (x, y)
    case (NaN, _) => false
    case (_, NaN) => false
    case (NegInfinity, _) => true
    case (_, PosInfinity) => true
    case (Finite(a), Finite(b)) => a <= b
    case _ => false
  }

  /** `Math.max(x, y)`: NaN when either is NaN, otherwise the larger. */
  function Max(x: Number, y: Number): Number
  {
    if x.NaN? || y.NaN? then NaN else if AtMost(y, x) then x else y
  }

  /** `Math.min(x, y)`: NaN when either is NaN, otherwise the smaller. */
  function Min(x: Number, y: Number): Number
  {
    if x.NaN? || y.NaN? then NaN else if AtMost(x, y) then x else y
  }
}

=== FILE: jsstring.dfy ===
/** The JavaScript string operations the picker relies on: indexOf,
    lastIndexOf, split, join, padStart, the decimal rendering of a whole number
    and the whitespace trimming done by string-to-number conversion. */
module JsString {

  /** `pat` occurs in `s` starting at offset `i`. */
  predicate OccursAt(s: string, pat: string, i: int)
  {
    0 <= i && i + |pat| <= |s| && s[i..i + |pat|] == pat
  }

  /** `String.prototype.indexOf`: the first offset of `pat`, or -1. */
  function IndexOf(s: string, pat: string): (r: int)
    ensures -1 <= r <= |s|
    ensures r >= 0 ==> OccursAt(s, pat, r)
    ensures forall i :: 0 <= i < (if r < 0 then |s| + 1 else r) ==> !OccursAt(s, pat, i)
    decreases |s|
  {
    if |s| < |pat| then -1
    else if s[..|pat|] == pat then 0
    else
      var k := IndexOf(s[1..], pat);
      assert forall i :: 1 <= i <= |s| ==> (OccursAt(s, pat, i) <==> OccursAt(s[1..], pat, i - 1));
      if k < 0 then -1 else k + 1
  }

  /** `String.prototype.lastIndexOf` for a one-character pattern: the last
      offset of `c`, or -1. */
  function LastIndexOf(s: string, c: char): (r: int)
    ensures -1 <= r < |s|
    ensures r >= 0 ==> s[r] == c
    ensures forall i :: r < i < |s| ==> s[i] != c
  {
    if |s| == 0 then -1
    else if s[|s| - 1] == c then |s| - 1
    else LastIndexOf(s[..|s| - 1], c)
  }

  /** The last occurrence of `c` is the one followed only by text lacking it. */
  lemma LastIndexOfBefore(a: string, c: char, b: string)
    requires Lacks(b, c)
    ensures LastIndexOf(a + [c] + b, c) == |a|
  {
    var s := a + [c] + b;
    assert s[|a|] == c;
  }


  /** `String.prototype.slice` with non-negative offsets. */
  function Slice(s: string, from: nat, to: nat): (r: string)
    ensures |r| <= |s|
    ensures from <= to <= |s| ==> r == s[from..to]
  {
    var a := if from < |s| then from else |s|;
    var b := if to < |s| then to else |s|;
    if a < b then s[a..b] else ""
  }

  /** `String.prototype.split` with a non-empty separator. */
  function Split(s: string, sep: string): (parts: seq<string>)
    requires |sep| > 0
    ensures |parts| >= 1
    ensures forall i :: 0 <= i < |parts| ==> IndexOf(parts[i], sep) == -1
    ensures Join(parts, sep) == s
    decreases |s|
  {
    var i := IndexOf(s, sep);
    if i < 0 then [s]
    else
      var rest := Split(s[i + |sep|..], sep);
      assert IndexOf(s[..i], sep) == -1 by {
        forall j | 0 <= j <= i ensures !OccursAt(s[..i], sep, j) {
          if OccursAt(s[..i], sep, j) {
            assert s[j..j + |sep|] == s[..i][j..j + |sep|];
            assert OccursAt(s, sep, j);
          }
        }
      }
      assert s == s[..i] + sep + s[i + |sep|..];
      [s[..i]] + rest
  }

  /** The text splits into more than one part exactly when it holds the
      separator. */
  lemma SplitCount(s: string, sep: string)
    requires |sep| > 0
    ensures |Split(s, sep)| >= 2 <==> IndexOf(s, sep) >= 0
  {
  }

  /** `Array.prototype.join` over strings. */
  function Join(parts: seq<string>, sep: string): string
  {
    if |parts| == 0 then ""
    else if |parts| == 1 then parts[0]
    else parts[0] + sep + Join(parts[1..], sep)
  }

  /** No character of `s` is `c`. */
  predicate Lacks(s: string, c: char)
  {
    forall i :: 0 <= i < |s| ==> s[i] != c
  }

  lemma LacksAppend(a: string, b: string, c: char)
    requires Lacks(a, c) && Lacks(b, c)
    ensures Lacks(a + b, c)
  {
    forall i | 0 <= i < |a + b| ensures (a + b)[i] != c {
      if i >= |a| { assert (a + b)[i] == b[i - |a|]; }
    }
  }

  lemma {:induction false} IndexOfLacking(s: string, sep: string)
    requires |sep| > 0 && Lacks(s, sep[0])
    ensures IndexOf(s, sep) == -1
  {
    if |s| >= |sep| {
      assert s[..|sep|][0] == s[0];
      IndexOfLacking(s[1..], sep);
    }
  }

  lemma {:induction false} IndexOfAfter(a: string, sep: string, b: string)
    requires |sep| > 0 && Lacks(a, sep[0])
    ensures IndexOf(a + sep + b, sep) == |a|
  {
    var s := a + sep + b;
    if |a| == 0 {
      assert s[..|sep|] == sep;
    } else {
      assert s[..|sep|][0] == a[0];
      assert s[1..] == a[1..] + sep + b;
      IndexOfAfter(a[1..], sep, b);
    }
  }

  /** Splitting at the first separator, when the text before it lacks the
      separator's first character. */
  lemma SplitAfter(a: string, sep: string, b: string)
    requires |sep| > 0 && Lacks(a, sep[0])
    ensures Split(a + sep + b, sep) == [a] + Split(b, sep)
  {
    IndexOfAfter(a, sep, b);
    var s := a + sep + b;
    assert s[..|a|] == a;
    assert s[|a| + |sep|..] == b;
  }

  lemma SplitLacking(s: string, sep: string)
    requires |sep| > 0 && Lacks(s, sep[0])
    ensures Split(s, sep) == [s]
  {
    IndexOfLacking(s, sep);
  }

  /** `pat` occurs nowhere in `s`. */
  predicate Free(s: string, pat: string)
  {
    forall i :: 0 <= i <= |s| ==> !OccursAt(s, pat, i)
  }

  /** indexOf finds nothing exactly when the pattern occurs nowhere. */
  lemma FreeIndexOf(s: string, pat: string)
    requires |pat| > 0
    ensures Free(s, pat) <==> IndexOf(s, pat) < 0
  {
  }

  /** What occurs nowhere in a concatenation occurs nowhere in either half. */
  lemma FreeConcat(a: string, b: string, pat: string)
    requires Free(a + b, pat)
    ensures Free(a, pat) && Free(b, pat)
  {
    forall i | 0 <= i <= |a| ensures !OccursAt(a, pat, i) {
      if OccursAt(a, pat, i) {
        assert (a + b)[i..i + |pat|] == a[i..i + |pat|];
        assert OccursAt(a + b, pat, i);
      }
    }
    forall i | 0 <= i <= |b| ensures !OccursAt(b, pat, i) {
      if OccursAt(b, pat, i) {
        assert (a + b)[|a| + i..|a| + i + |pat|] == b[i..i + |pat|];
        assert OccursAt(a + b, pat, |a| + i);
      }
    }
  }

  /** Two texts free of a pattern, joined by a character the pattern lacks,
      are free of it. */
  lemma FreeJoined(a: string, c: char, b: string, pat: string)
    requires Free(a, pat) && Free(b, pat) && Lacks(pat, c)
    ensures Free(a + [c] + b, pat)
  {
    var s := a + [c] + b;
    forall i | 0 <= i <= |s| ensures !OccursAt(s, pat, i) {
      if i + |pat| <= |a| {
        assert s[i..i + |pat|] == a[i..i + |pat|];
        assert !OccursAt(a, pat, i);
        assert !OccursAt(s, pat, i);
      } else if i > |a| {
        if i + |pat| <= |s| {
          assert s[i..i + |pat|] == b[i - |a| - 1..i - |a| - 1 + |pat|];
          assert !OccursAt(b, pat, i - |a| - 1);
        }
      } else if i + |pat| <= |s| {
        assert s[i..i + |pat|][|a| - i] == c != pat[|a| - i];
        assert !OccursAt(s, pat, i);
      }
    }
  }

  /** Every part of a joined text free of a pattern is free of it. */
  lemma {:induction false} JoinFree(parts: seq<string>, sep: string, pat: string)
    requires Free(Join(parts, sep), pat)
    ensures forall k :: 0 <= k < |parts| ==> Free(parts[k], pat)
  {
    if |parts| >= 2 {
      assert Join(parts, sep) == parts[0] + (sep + Join(parts[1..], sep));
      FreeConcat(parts[0], sep + Join(parts[1..], sep), pat);
      FreeConcat(sep, Join(parts[1..], sep), pat);
      JoinFree(parts[1..], sep, pat);
      assert forall k :: 1 <= k < |parts| ==> parts[k] == parts[1..][k - 1];
    }
  }

  /** The parts of a split of a text free of a pattern are free of it. */
  lemma SplitFree(s: string, sep: string, pat: string)
    requires |sep| > 0 && Free(s, pat)
    ensures forall k :: 0 <= k < |Split(s, sep)| ==> Free(Split(s, sep)[k], pat)
  {
    JoinFree(Split(s, sep), sep, pat);
  }

  // ---------------------------------------------------------------------------
  // Digits and the decimal rendering of whole numbers

  predicate IsDigit(c: char) { '0' <= c <= '9' }

  predicate AllDigits(s: string)
  {
    forall i :: 0 <= i < |s| ==> IsDigit(s[i])
  }

  function DigitValue(c: char): nat
    requires IsDigit(c)
  {
    (c as int) - ('0' as int)
  }

  function DigitChar(d: nat): (c: char)
    requires d < 10
    ensures IsDigit(c) && DigitValue(c) == d
  {
    ('0' as int + d) as char
  }

  /** The value of a string of decimal digits. */
  function DigitsValue(s: string): nat
    requires AllDigits(s)
  {
    if |s| == 0 then 0
    else DigitsValue(s[..|s| - 1]) * 10 + DigitValue(s[|s| - 1])
  }

  function Pow10(k: nat): (p: nat)
    ensures p >= 1
  {
    if k == 0 then 1 else 10 * Pow10(k - 1)
  }

  /** `String(n)` for a whole number below 10^21 (JavaScript switches to
      exponent notation from there on). */
  function NatToString(n: nat): (s: string)
    ensures |s| >= 1 && AllDigits(s) && DigitsValue(s) == n
    ensures s[0] == '0' ==> n == 0
  {
    if n < 10 then [DigitChar(n)]
    else
      var r := NatToString(n / 10) + [DigitChar(n % 10)];
      assert r[..|r| - 1] == NatToString(n / 10);
      r
  }

  /** `String(i)` for a whole number. */
  function IntToString(i: int): (s: string)
    ensures Lacks(s, ':')
  {
    if i < 0 then "-" + NatToString(-i) else NatToString(i)
  }

  lemma {:induction false} NatToStringLength(n: nat, k: nat)
    requires Pow10(k) <= n < Pow10(k + 1)
    ensures |NatToString(n)| == k + 1
  {
    if k > 0 {
      NatToStringLength(n / 10, k - 1);
    }
  }

  /** `s.padStart(n, c)` with a one-character filler. */
  function PadStart(s: string, n: nat, c: char): (r: string)
    ensures |r| == if |s| >= n then |s| else n
    ensures r[|r| - |s|..] == s
    ensures forall i :: 0 <= i < |r| - |s| ==> r[i] == c
  {
    if |s| >= n then s else seq(n - |s|, _ => c) + s
  }

  lemma {:induction false} LeadingZero(s: string)
    requires AllDigits(s)
    ensures AllDigits("0" + s) && DigitsValue("0" + s) == DigitsValue(s)
    decreases |s|
  {
    var t := "0" + s;
    if |s| > 0 {
      assert t[..|t| - 1] == "0" + s[..|s| - 1];
      LeadingZero(s[..|s| - 1]);
    }
  }

  lemma {:induction false} ZeroPadded(s: string, n: nat)
    requires AllDigits(s)
    ensures AllDigits(PadStart(s, n, '0')) && DigitsValue(PadStart(s, n, '0')) == DigitsValue(s)
    decreases n - |s|
  {
    if |s| < n {
      LeadingZero(s);
      ZeroPadded("0" + s, n);
      assert PadStart(s, n, '0') == PadStart("0" + s, n, '0');
    }
  }

  /** A two- or three-digit field as the picker renders it. */
  function Padded(n: nat, width: nat): (s: string)
    ensures AllDigits(s) && DigitsValue(s) == n && |s| >= width && |s| >= 1
  {
    ZeroPadded(NatToString(n), width);
    PadStart(NatToString(n), width, '0')
  }

  lemma PaddedWidth(n: nat, width: nat)
    requires 1 <= width && n < Pow10(width)
    ensures |Padded(n, width)| == width
  {
    NatToStringShort(n, width);
  }

  lemma PaddedAtMost(n: nat, width: nat, k: nat)
    requires 1 <= width <= k && n < Pow10(k)
    ensures |Padded(n, width)| <= k
  {
    NatToStringShort(n, k);
  }

  lemma {:induction false} NatToStringShort(n: nat, width: nat)
    requires 1 <= width && n < Pow10(width)
    ensures |NatToString(n)| <= width
  {
    if n >= 10 {
      assert Pow10(1) == 10;
      NatToStringShort(n / 10, width - 1);
    }
  }

  lemma TwoDigits(s: string)
    requires |s| == 2 && AllDigits(s)
    ensures DigitsValue(s) == DigitValue(s[0]) * 10 + DigitValue(s[1])
  {
    var first := s[..1];
    assert first[..0] == [] && first[0] == s[0];
    assert DigitsValue(first) == DigitValue(s[0]);
  }

  lemma ThreeDigits(s: string)
    requires |s| == 3 && AllDigits(s)
    ensures DigitsValue(s) == DigitValue(s[0]) * 100 + DigitValue(s[1]) * 10 + DigitValue(s[2])
  {
    TwoDigits(s[..2]);
  }

  lemma {:induction false} DigitsBound(s: string)
    requires AllDigits(s)
    ensures DigitsValue(s) < Pow10(|s|)
  {
    if |s| > 0 { DigitsBound(s[..|s| - 1]); }
  }

  lemma DigitsLack(s: string, c: char)
    requires AllDigits(s) && !IsDigit(c)
    ensures Lacks(s, c)
  {
  }

  // ---------------------------------------------------------------------------
  // Whitespace trimming (StrWhiteSpaceChar of the ECMAScript grammar)

  /** WhiteSpace and LineTerminator code points: TAB, VT, FF, ZWNBSP, the
      space separators of category Zs, LF, CR, LS and PS. */
  predicate IsWhiteSpace(c: char)
  {
    c == '\t' || c == '\U{000B}' || c == '\U{000C}' || c == ' ' || c == '\U{00A0}'
    || c == '\U{FEFF}' || c == '\U{1680}' || ('\U{2000}' <= c <= '\U{200A}')
    || c == '\U{202F}' || c == '\U{205F}' || c == '\U{3000}'
    || c == '\n' || c == '\r' || c == '\U{2028}' || c == '\U{2029}'
  }

  function TrimStart(s: string): (r: string)
    ensures |r| <= |s|
    ensures r == [] || !IsWhiteSpace(r[0])
  {
    if |s| > 0 && IsWhiteSpace(s[0]) then TrimStart(s[1..]) else s
  }

  function TrimEnd(s: string): (r: string)
    ensures |r| <= |s|
    ensures r == [] || !IsWhiteSpace(r[|r| - 1])
  {
    if |s| > 0 && IsWhiteSpace(s[|s| - 1]) then TrimEnd(s[..|s| - 1]) else s
  }

  function Trim(s: string): string
  {
    TrimEnd(TrimStart(s))
  }

  lemma TrimDigits(s: string, trailing: string)
    requires |s| > 0 && AllDigits(s)
    requires forall i :: 0 <= i < |trailing| ==> IsWhiteSpace(trailing[i])
    ensures Trim(s + trailing) == s
  {
    assert TrimStart(s + trailing) == s + trailing;
    TrimEndWhite(s, trailing);
  }

  lemma {:induction false} TrimEndWhite(s: string, trailing: string)
    requires |s| > 0 && !IsWhiteSpace(s[|s| - 1])
    requires forall i :: 0 <= i < |trailing| ==> IsWhiteSpace(trailing[i])
    ensures TrimEnd(s + trailing) == s
    decreases |trailing|
  {
    if |trailing| > 0 {
      var t := s + trailing;
      assert t[..|t| - 1] == s + trailing[..|trailing| - 1];
      TrimEndWhite(s, trailing[..|trailing| - 1]);
    } else {
      assert s + trailing == s;
    }
  }
}

=== FILE: locator.dfy ===
/** The segment locator: the zone a cursor offset falls in (getCursorSelection,
    src/html-duration-picker.js lines 13-51), the range a click selects
    (handleClickFocus, lines 100-143), the range a step size selects
    (highlightTimeUnitArea, lines 195-226) and the step sizes the left and
    right arrows move between (shiftTimeUnitAreaFocus, lines 279-300). */
module Locator {
  import opened Wrappers
  import opened JsString
  import opened Codec

  datatype Zone = Days | Hours | Minutes | Seconds | Milliseconds

  /** The position of a zone in the text, left to right. */
  function Rank(z: Zone): nat
  {
    match z
    case Days => 0
    case Hours => 1
    case Minutes => 2
    case Seconds => 3
    case Milliseconds => 4
  }

  /** `indexOf(' | ')`, `indexOf(':')`, `lastIndexOf(':')` and `indexOf('.')`. */
  datatype Markers = Markers(days: int, hour: int, minute: int, seconds: int)

  function MarkersOf(value: string): Markers
  {
    Markers(IndexOf(value, " | "), IndexOf(value, ":"), LastIndexOf(value, ':'), IndexOf(value, "."))
  }

  /** The zone of a cursor offset: the first marker the offset does not pass.
      The last two tests of the source (`<=` and `>` the seconds marker) are
      complementary, so every offset gets a zone. */
  function ZoneAt(m: Markers, offset: int): Zone
  {
    if offset <= m.days then Days
    else if offset <= m.hour then Hours
    else if offset <= m.minute then Minutes
    else if offset <= m.seconds then Seconds
    else Milliseconds
  }

  datatype CursorSelection = CursorSelection(zone: Zone, markers: Markers, content: string)

  /** getCursorSelection: the zone of the selection start, the four markers
      and the selected text. */
  function GetCursorSelection(value: string, selectionStart: nat, selectionEnd: nat): CursorSelection
  {
    var m := MarkersOf(value);
    CursorSelection(ZoneAt(m, selectionStart), m, Slice(value, selectionStart, selectionEnd))
  }

  /** Moving the cursor right never moves it to an earlier zone, whatever
      the markers are. */
  lemma ZoneMonotone(m: Markers, a: int, b: int)
    requires a <= b
    ensures Rank(ZoneAt(m, a)) <= Rank(ZoneAt(m, b))
  {
  }

  // ---------------------------------------------------------------------------
  // Markers of the shaped text

  lemma DaysMarker(d: string, h: string, m: string, s: string, ms: string)
    requires AllDigits(d) && AllDigits(h) && AllDigits(m) && AllDigits(s) && AllDigits(ms)
    ensures IndexOf(Template(d, h, m, s, ms), " | ") == |d|
  {
    DigitsLack(d, ' ');
    assert Template(d, h, m, s, ms) == d + " | " + (h + ":" + m + ":" + s + "." + ms);
    IndexOfAfter(d, " | ", h + ":" + m + ":" + s + "." + ms);
  }

  lemma HourMarker(d: string, h: string, m: string, s: string, ms: string)
    requires AllDigits(d) && AllDigits(h) && AllDigits(m) && AllDigits(s) && AllDigits(ms)
    ensures IndexOf(Template(d, h, m, s, ms), ":") == |d| + 3 + |h|
  {
    var a := d + " | " + h;
    DigitsLack(d, ':');
    DigitsLack(h, ':');
    LacksAppend(d, " | ", ':');
    LacksAppend(d + " | ", h, ':');
    assert Template(d, h, m, s, ms) == a + ":" + (m + ":" + s + "." + ms);
    IndexOfAfter(a, ":", m + ":" + s + "." + ms);
  }

  lemma MinuteMarker(d: string, h: string, m: string, s: string, ms: string)
    requires AllDigits(d) && AllDigits(h) && AllDigits(m) && AllDigits(s) && AllDigits(ms)
    ensures LastIndexOf(Template(d, h, m, s, ms), ':') == |d| + 4 + |h| + |m|
  {
    var a := d + " | " + h + ":" + m;
    var b := s + "." + ms;
    DigitsLack(s, ':');
    DigitsLack(ms, ':');
    LacksAppend(s, ".", ':');
    LacksAppend(s + ".", ms, ':');
    assert Template(d, h, m, s, ms) == a + [':'] + b;
    LastIndexOfBefore(a, ':', b);
  }

  lemma SecondsMarker(d: string, h: string, m: string, s: string, ms: string)
    requires AllDigits(d) && AllDigits(h) && AllDigits(m) && AllDigits(s) && AllDigits(ms)
    ensures IndexOf(Template(d, h, m, s, ms), ".") == |d| + 5 + |h| + |m| + |s|
  {
    var clock := h + ":" + m + ":" + s;
    var a := d + " | " + clock;
    DigitsLack(d, '.');
    LacksAppend(d, " | ", '.');
    ClockLacks(h, m, s, '.');
    LacksAppend(d + " | ", clock, '.');
    assert Template(d, h, m, s, ms) == a + "." + ms;
    IndexOfAfter(a, ".", ms);
  }

  /** The four markers of a shaped text with k day digits sit at k, k+5,
      k+8 and k+11. */
  lemma ShapedMarkers(v: string)
    requires IsShaped(v)
    ensures var k := |v| - 15; MarkersOf(v) == Markers(k, k + 5, k + 8, k + 11)
  {
    ShapedIsTemplate(v);
    var d, h, m, s, ms := DaysText(v), HoursText(v), MinutesText(v), SecondsText(v), MillisText(v);
    DaysMarker(d, h, m, s, ms);
    HourMarker(d, h, m, s, ms);
    MinuteMarker(d, h, m, s, ms);
    SecondsMarker(d, h, m, s, ms);
  }

  /** The zones of a shaped text with k day digits: offsets up to k are days,
      then up to k+5 hours, up to k+8 minutes, up to k+11 seconds, and the
      rest milliseconds. */
  lemma ShapedZones(v: string, offset: int)
    requires IsShaped(v)
    ensures var k := |v| - 15; var z := ZoneAt(MarkersOf(v), offset);
      (offset <= k ==> z == Days)
      && (k < offset <= k + 5 ==> z == Hours)
      && (k + 5 < offset <= k + 8 ==> z == Minutes)
      && (k + 8 < offset <= k + 11 ==> z == Seconds)
      && (k + 11 < offset ==> z == Milliseconds)
  {
    ShapedMarkers(v);
  }

  /** Below 100 days the encoding has two day digits, so its zones are the
      offsets 0-2, 3-7, 8-10, 11-13 and 14 on. */
  lemma EncodedZones(n: nat, offset: int)
    requires n < 100 * 86400000
    ensures var z := ZoneAt(MarkersOf(Encode(n)), offset);
      (offset <= 2 ==> z == Days)
      && (2 < offset <= 7 ==> z == Hours)
      && (7 < offset <= 10 ==> z == Minutes)
      && (10 < offset <= 13 ==> z == Seconds)
      && (13 < offset ==> z == Milliseconds)
  {
    EncodeCanonical(n);
    EncodeLength(n);
    ShapedZones(Encode(n), offset);
  }

  // ---------------------------------------------------------------------------
  // Selections

  /** The text of a zone's field in a shaped text. */
  function FieldText(v: string, z: Zone): string
    requires |v| >= 15
  {
    match z
    case Days => DaysText(v)
    case Hours => HoursText(v)
    case Minutes => MinutesText(v)
    case Seconds => SecondsText(v)
    case Milliseconds => MillisText(v)
  }

  /** The step, in milliseconds, that a zone stands for. */
  function ZoneFactor(z: Zone): real
  {
    match z
    case Days => 86400000.0
    case Hours => 3600000.0
    case Minutes => 60000.0
    case Seconds => 1000.0
    case Milliseconds => 1.0
  }

  /** A range as the offsets handed to the selection API, before the DOM
      converts and clamps them. */
  datatype Range = Range(start: int, end: int)

  /** The range handleClickFocus selects for a zone. */
  function ClickRange(m: Markers, z: Zone): Range
  {
    match z
    case Days => Range(0, m.days)
    case Hours => Range(m.days + 3, m.hour)
    case Minutes => Range(m.hour + 1, m.minute)
    case Seconds => Range(m.minute + 1, m.minute + 3)
    case Milliseconds => Range(m.seconds + 1, m.seconds + 4)
  }

  /** A click anywhere in a shaped text selects the whole field of the zone
      it lands in. */
  lemma ClickSelectsField(v: string, offset: int)
    requires IsShaped(v)
    ensures var m := MarkersOf(v); var z := ZoneAt(m, offset); var r := ClickRange(m, z);
      0 <= r.start <= r.end <= |v| && v[r.start..r.end] == FieldText(v, z)
  {
    ShapedMarkers(v);
  }

  /** The zone highlightTimeUnitArea selects for a step size. */
  function FactorZone(f: real): Zone
  {
    if f >= 86400000.0 then Days
    else if f >= 3600000.0 then Hours
    else if f >= 60000.0 then Minutes
    else if f >= 1000.0 then Seconds
    else Milliseconds
  }

  /** The selectionStart highlightTimeUnitArea assigns first. */
  function HighlightStart(m: Markers, z: Zone): int
  {
    match z
    case Days => 0
    case Hours => m.days + 3
    case Minutes => m.hour + 1
    case Seconds => m.minute + 1
    case Milliseconds => m.seconds + 1
  }

  /** `sectioned[i].length`; reading it from `undefined` throws. */
  function EntryLength(sectioned: seq<Option<string>>, i: nat): Result<nat>
  {
    if i < |sectioned| && sectioned[i].Some? then Ok(|sectioned[i].value|) else TypeError
  }

  /** The selectionEnd highlightTimeUnitArea assigns next: the start plus
      the length of the zone's getSectioned entry. */
  function HighlightEnd(m: Markers, sectioned: seq<Option<string>>, z: Zone): Result<int>
  {
    match z
    case Days => Ok(m.days)
    case Hours =>
      var n :- EntryLength(sectioned, 1);
      Ok(m.days + 3 + n)
    case Minutes =>
      var n :- EntryLength(sectioned, 2);
      Ok(m.hour + 1 + n)
    case Seconds =>
      var n :- EntryLength(sectioned, 3);
      Ok(m.minute + 1 + n)
    case Milliseconds =>
      var n :- EntryLength(sectioned, 4);
      Ok(m.seconds + 1 + n)
  }

  /** The factor highlightTimeUnitArea writes to data-adjustment-factor, if
      it writes one: the milliseconds branch resets the step to 1, and only
      steps from 1 to a day are stored. */
  function StoredFactor(f: real): Option<real>
  {
    var g := if FactorZone(f) == Milliseconds then 1.0 else f;
    if 1.0 <= g <= 86400000.0 then Some(g) else None
  }

  /** What is stored lies between 1 and a day and selects the same zone
      again; a step of a second up to a day is stored as it is. */
  lemma StoredFactorZone(f: real)
    ensures StoredFactor(f).Some? ==>
      1.0 <= StoredFactor(f).value <= 86400000.0 && FactorZone(StoredFactor(f).value) == FactorZone(f)
    ensures 1000.0 <= f <= 86400000.0 ==> StoredFactor(f) == Some(f)
    ensures f < 1000.0 ==> StoredFactor(f) == Some(1.0)
    ensures f > 86400000.0 ==> StoredFactor(f).None?
  {
  }

  /** highlightTimeUnitArea, given the fields as getSectioned entries,
      selects a range of the text that is exactly the field of zone z, and
      the zone's entry is that field. */
  predicate HighlightsField(v: string, z: Zone)
    requires |v| >= 15
  {
    var m := MarkersOf(v);
    var sect := ShapedSections(v);
    sect[Rank(z)] == Some(FieldText(v, z))
    && HighlightEnd(m, sect, z).Ok?
    && 0 <= HighlightStart(m, z) <= HighlightEnd(m, sect, z).value <= |v|
    && v[HighlightStart(m, z)..HighlightEnd(m, sect, z).value] == FieldText(v, z)
  }

  /** The highlight range of a zone, given only where the markers are. */
  lemma HighlightOnMarkers(v: string, z: Zone)
    requires |v| >= 15 && var k := |v| - 15; MarkersOf(v) == Markers(k, k + 5, k + 8, k + 11)
    ensures HighlightsField(v, z)
  {
    var k := |v| - 15;
    match z
    case Days =>
    case Hours => assert |HoursText(v)| == 2;
    case Minutes => assert |MinutesText(v)| == 2;
    case Seconds => assert |SecondsText(v)| == 2;
    case Milliseconds => assert |MillisText(v)| == 3;
  }

  /** On a shaped text, the range highlightTimeUnitArea selects for a step
      is exactly the getSectioned entry of the step's zone, and that entry is
      the zone's field. */
  lemma HighlightSelectsField(v: string, f: real)
    requires IsShaped(v)
    ensures GetSectioned(v) == Ok(ShapedSections(v))
    ensures HighlightsField(v, FactorZone(f))
  {
    ShapedSectioned(v);
    ShapedMarkers(v);
    HighlightOnMarkers(v, FactorZone(f));
  }

  /** Clicking a zone and then highlighting with the factor the click stored
      select the same range of a shaped text. */
  lemma ClickAgreesWithHighlight(v: string, offset: int)
    requires IsShaped(v)
    ensures var m := MarkersOf(v); var z := ZoneAt(m, offset); var f := ZoneFactor(z);
      FactorZone(f) == z && StoredFactor(f) == Some(f)
      && HighlightStart(m, z) == ClickRange(m, z).start
      && HighlightEnd(m, ShapedSections(v), z) == Ok(ClickRange(m, z).end)
  {
    ShapedMarkers(v);
    HighlightOnMarkers(v, ZoneAt(MarkersOf(v), offset));
  }

  // ---------------------------------------------------------------------------
  // Shifting between zones

  /** The step shiftTimeUnitAreaFocus hands to highlightTimeUnitArea. Left
      multiplies by 24 when the selection starts at offset 5 and by 1000
      otherwise, below a day; from a day it gives 864000. Right divides by
      24 when the selection starts at 0 and by 60 otherwise, above 60; from
      60 or less it gives 1. */
  function ShiftTarget(f: real, selectionStart: nat, left: bool): real
  {
    if left then
      if f < 86400000.0 then f * (if selectionStart == 5 then 24.0 else 1000.0) else 864000.0
    else
      if f > 60.0 then f / (if selectionStart == 0 then 24.0 else 60.0) else 1.0
  }

  /** ArrowLeft from the days highlights the minutes but stores 864000, not
      their step 60000; the next ArrowRight then divides that by 60 and
      highlights the seconds with the step 14400 stored. */
  lemma ShiftBackFromDays(v: string, selectionStart: nat)
    requires IsShaped(v)
    ensures var f1 := ShiftTarget(86400000.0, selectionStart, true);
      f1 == 864000.0 && FactorZone(f1) == Minutes && StoredFactor(f1) == Some(f1)
      && var s1 := HighlightStart(MarkersOf(v), Minutes);
      s1 > 0 && var f2 := ShiftTarget(f1, s1 as nat, false);
      f2 == 14400.0 && FactorZone(f2) == Seconds && StoredFactor(f2) == Some(f2)
  {
    ShapedMarkers(v);
    StoredFactorZone(864000.0);
    StoredFactorZone(14400.0);
  }

  /** Repeated ArrowRight from the days of a shaped text walks the stored
      factor 86400000, 3600000, 60000, 1000, 1 and then stays at 1; each
      step's selection starts where highlightTimeUnitArea put the last one. */
  lemma ShiftRightChain(v: string)
    requires IsShaped(v)
    ensures var m := MarkersOf(v);
      var s0 := HighlightStart(m, Days);
      var f1 := ShiftTarget(86400000.0, s0 as nat, false);
      f1 == 3600000.0 && FactorZone(f1) == Hours && StoredFactor(f1) == Some(f1)
      && var s1 := HighlightStart(m, Hours);
      s1 > 0 && var f2 := ShiftTarget(f1, s1 as nat, false);
      f2 == 60000.0 && FactorZone(f2) == Minutes && StoredFactor(f2) == Some(f2)
      && var s2 := HighlightStart(m, Minutes);
      s2 > 0 && var f3 := ShiftTarget(f2, s2 as nat, false);
      f3 == 1000.0 && FactorZone(f3) == Seconds && StoredFactor(f3) == Some(f3)
      && var s3 := HighlightStart(m, Seconds);
      s3 > 0 && var f4 := ShiftTarget(f3, s3 as nat, false);
      FactorZone(f4) == Milliseconds && StoredFactor(f4) == Some(1.0)
      && var s4 := HighlightStart(m, Milliseconds);
      s4 > 0 && ShiftTarget(1.0, s4 as nat, false) == 1.0 && StoredFactor(1.0) == Some(1.0)
  {
    ShapedMarkers(v);
  }

  /** ArrowLeft multiplies the step by 1000 unless the selection starts at
      offset 5, the hours of a text with two day digits, where it multiplies
      by 24. From the days it gives 864000, which highlights the minutes;
      from the seconds 1000000, also the minutes; from the milliseconds the
      seconds; from the minutes 60000000, which highlights the hours and is
      stored; from the hours at offset 5 a day, and elsewhere 3600000000,
      which highlights the days and is not stored. */
  lemma ShiftLeftSteps(f: real, selectionStart: nat)
    ensures f >= 86400000.0 ==>
      ShiftTarget(f, selectionStart, true) == 864000.0 && FactorZone(864000.0) == Minutes
    ensures selectionStart != 5 ==>
      ShiftTarget(1000.0, selectionStart, true) == 1000000.0 && FactorZone(1000000.0) == Minutes
      && ShiftTarget(1.0, selectionStart, true) == 1000.0 && FactorZone(1000.0) == Seconds
    ensures selectionStart != 5 ==>
      ShiftTarget(60000.0, selectionStart, true) == 60000000.0 && FactorZone(60000000.0) == Hours
      && StoredFactor(60000000.0) == Some(60000000.0)
    ensures selectionStart != 5 ==>
      ShiftTarget(3600000.0, selectionStart, true) == 3600000000.0 && FactorZone(3600000000.0) == Days
      && StoredFactor(3600000000.0).None?
    ensures ShiftTarget(3600000.0, 5, true) == 86400000.0 && StoredFactor(86400000.0) == Some(86400000.0)
    ensures 0.0 < f < 86400000.0 && selectionStart != 5 ==> ShiftTarget(f, selectionStart, true) == f * 1000.0
  {
  }
}

=== FILE: picker.dfy ===
/** The duration picker as the input box it upgrades: its value, selection
    and data-adjustment-factor attribute change in place as the event
    handlers of src/html-duration-picker.js run. Each handler is proved to
    leave the box as the corresponding function of module Handlers says. */
module Picker {
  import opened Wrappers
  import opened JsString
  import opened JsNumbers
  import opened Codec
  import opened Locator
  import opened Bounds
  import opened Validate
  import opened Editor
  import opened Handlers

  class DurationPicker {
    var value: string
    var selectionStart: nat
    var selectionEnd: nat
    /** The number data-adjustment-factor holds; 0 when it is absent. */
    var adjustmentFactor: real
    /** The data-duration-min, data-duration-max and data-duration
        attributes, the empty text when absent; no handler writes them. */
    const durationMin: string
    const durationMax: string
    const duration: string

    /** The box as the handlers' functions see it. */
    function Snapshot(): Field
      reads this
    {
      Field(value, Selection(selectionStart, selectionEnd), adjustmentFactor)
    }

    predicate Valid()
      reads this
    {
      selectionStart <= selectionEnd <= |value|
    }

    constructor (value: string, selectionStart: nat, selectionEnd: nat, adjustmentFactor: real,
                 durationMin: string, durationMax: string, duration: string)
      requires selectionStart <= selectionEnd <= |value|
      ensures Valid()
      ensures Snapshot() == Field(value, Selection(selectionStart, selectionEnd), adjustmentFactor)
      ensures this.durationMin == durationMin && this.durationMax == durationMax && this.duration == duration
    {
      this.value := value;
      this.selectionStart := selectionStart;
      this.selectionEnd := selectionEnd;
      this.adjustmentFactor := adjustmentFactor;
      this.durationMin := durationMin;
      this.durationMax := durationMax;
      this.duration := duration;
    }

    // -------------------------------------------------------------------------
    // The input box's own operations

    method SetSelectionRange(start: int, end: int)
      modifies this
      ensures Valid()
      ensures Snapshot() == old(Snapshot()).(selection := SelectRange(|value|, start, end))
    {
      var range := SelectRange(|value|, start, end);
      selectionStart, selectionEnd := range.start, range.end;
    }

    method SetSelectionStart(start: int)
      modifies this
      requires Valid()
      ensures Valid()
      ensures Snapshot() == WithStart(old(Snapshot()), start)
    {
      var u := ToUnsignedLong(start);
      var end := selectionEnd;
      if end < u {
        end := u;
      }
      SetSelectionRange(u, end);
    }

    method SetSelectionEnd(end: int)
      modifies this
      ensures Valid()
      ensures Snapshot() == WithEnd(old(Snapshot()), end)
    {
      SetSelectionRange(selectionStart, end);
    }

    method SetValue(v: string)
      modifies this
      requires Valid()
      ensures Valid()
      ensures Snapshot() == WithValue(old(Snapshot()), v)
    {
      if v != value {
        value := v;
        selectionStart, selectionEnd := |v|, |v|;
      }
    }

    // -------------------------------------------------------------------------
    // Helpers of the handlers

    /** insertFormatted without its synthetic events: the encoding is
        written, and `changed` says whether a change event would fire. */
    method InsertFormatted(milliSecondsValue: Number) returns (changed: bool)
      requires milliSecondsValue.NaN? || (milliSecondsValue.Finite? && milliSecondsValue.val >= 0.0)
      requires Valid()
      modifies this
      ensures Valid()
      ensures changed <==> old(value) != MilliSecondsToDuration(milliSecondsValue)
      ensures Snapshot() == WithValue(old(Snapshot()), MilliSecondsToDuration(milliSecondsValue))
    {
      var formattedValue := MilliSecondsToDuration(milliSecondsValue);
      var existingValue := value;
      SetValue(formattedValue);
      changed := existingValue != formattedValue;
    }

    /** One branch of highlightTimeUnitArea after the days: selectionStart
        is set, then the length of entry `i` is read, which throws when the
        entry is undefined, then selectionEnd is set that far past the start. */
    method SelectEntry(start: int, sectioned: seq<Option<string>>, i: nat) returns (completed: bool)
      requires Valid()
      modifies this
      ensures Valid()
      ensures completed <==> EntryLength(sectioned, i).Ok?
      ensures Snapshot() == if completed then WithEnd(WithStart(old(Snapshot()), start), start + EntryLength(sectioned, i).value)
                            else WithStart(old(Snapshot()), start)
    {
      SetSelectionStart(start);
      var length := EntryLength(sectioned, i);
      if length.TypeError? {
        return false;
      }
      SetSelectionEnd(start + length.value);
      return true;
    }

    /** The branches of highlightTimeUnitArea on the step size, given the
        marker positions and the getSectioned entries of the value; the
        milliseconds branch also resets the step to 1. Each branch after the
        days picks where its field starts and which entry gives its length. */
    method SelectTimeUnit(step: real, m: Markers, sectioned: seq<Option<string>>) returns (completed: bool, adjustment: real)
      requires Valid()
      modifies this
      ensures Valid()
      ensures completed <==> HighlightEnd(m, sectioned, FactorZone(step)).Ok?
      ensures Snapshot() == (var g := WithStart(old(Snapshot()), HighlightStart(m, FactorZone(step)));
                             if completed then WithEnd(g, HighlightEnd(m, sectioned, FactorZone(step)).value) else g)
      ensures adjustment == if FactorZone(step) == Milliseconds then 1.0 else step
    {
      adjustment := step;
      if step >= 86400000.0 {
        SetSelectionStart(0);
        SetSelectionEnd(m.days);
        return true, adjustment;
      }
      var start: int, entry: nat;
      if step >= 3600000.0 {
        start, entry := m.days + 3, 1;
      } else if step >= 60000.0 {
        start, entry := m.hour + 1, 2;
      } else if step >= 1000.0 {
        start, entry := m.minute + 1, 3;
      } else {
        start, entry := m.seconds + 1, 4;
        adjustment := 1.0;
      }
      ghost var zone := FactorZone(step);
      assert start == HighlightStart(m, zone);
      assert HighlightEnd(m, sectioned, zone) == if EntryLength(sectioned, entry).Ok? then Ok(start + EntryLength(sectioned, entry).value) else TypeError;
      completed := SelectEntry(start, sectioned, entry);
    }

    /** highlightTimeUnitArea; `completed` is false when it threw. */
    method HighlightTimeUnitArea(step: real) returns (completed: bool)
      requires Valid()
      modifies this
      ensures Valid()
      ensures Snapshot() == Highlight(old(Snapshot()), step).field
      ensures completed == Highlight(old(Snapshot()), step).completed
    {
      ghost var f0 := Snapshot();
      var daysMarker := IndexOf(value, " | ");
      var hourMarker := IndexOf(value, ":");
      var minuteMarker := LastIndexOf(value, ':');
      var secondsMarker := IndexOf(value, ".");
      var markers := Markers(daysMarker, hourMarker, minuteMarker, secondsMarker);
      assert markers == MarkersOf(f0.value);
      var result := GetSectioned(value);
      if result.TypeError? {
        return false;
      }
      var adjustment;
      completed, adjustment := SelectTimeUnit(step, markers, result.value);
      if !completed {
        return;
      }
      assert StoredFactor(step) == if 1.0 <= adjustment <= 86400000.0 then Some(adjustment) else None;
      if 1.0 <= adjustment <= 86400000.0 {
        adjustmentFactor := adjustment;
      }
    }

    /** shiftTimeUnitAreaFocus. */
    method ShiftTimeUnitAreaFocus(left: bool) returns (completed: bool)
      requires Valid()
      modifies this
      ensures Valid()
      ensures Snapshot() == Shift(old(Snapshot()), left).field
      ensures completed == Shift(old(Snapshot()), left).completed
    {
      ghost var f0 := Snapshot();
      var factor := GetAdjustmentFactor(adjustmentFactor);
      var step: real;
      if left {
        var multiplier := 1000.0;
        if selectionStart == 5 {
          multiplier := 24.0;
        }
        step := if factor < 86400000.0 then factor * multiplier else 864000.0;
      } else {
        var divisor := 60.0;
        if selectionStart == 0 {
          divisor := 24.0;
        }
        step := if factor > 60.0 then factor / divisor else 1.0;
      }
      assert step == ShiftTarget(GetAdjustmentFactor(f0.factor), f0.selection.start, left);
      completed := HighlightTimeUnitArea(step);
      assert Snapshot() == Highlight(f0, step).field;
    }

    /** The step of changeValueByArrowKeys: up adds the factor; down
        subtracts it and stops at 0. */
    static method StepValue(secondsValue0: Number, factor: real, up: bool) returns (secondsValue: Number)
      ensures secondsValue == Stepped(secondsValue0, factor, up)
    {
      secondsValue := secondsValue0;
      if up {
        secondsValue := Add(secondsValue, Finite(factor));
      } else {
        secondsValue := Add(secondsValue, Finite(-factor));
        if LessThan(secondsValue, 0.0) {
          secondsValue := Finite(0.0);
        }
      }
    }

    /** changeValueByArrowKeys. */
    method ChangeValueByArrowKeys(up: bool) returns (completed: bool)
      requires Valid()
      modifies this
      ensures Valid()
      ensures completed <==> ArrowChange(old(Snapshot()), up, durationMin, durationMax).Ok?
      ensures completed ==> Snapshot() == ArrowChange(old(Snapshot()), up, durationMin, durationMax).value
      ensures !completed ==> Snapshot() == old(Snapshot())
    {
      ghost var f0 := Snapshot();
      var factor := GetAdjustmentFactor(adjustmentFactor);
      var decoded := DurationToMilliSeconds(value);
      if decoded.TypeError? {
        assert ArrowValue(f0.value, factor, up, durationMin, durationMax).TypeError?;
        return false;
      }
      var secondsValue := StepValue(decoded.value, factor, up);
      var constraints := GetMinMaxConstraints(durationMin, durationMax);
      if constraints.TypeError? {
        assert ArrowValue(f0.value, factor, up, durationMin, durationMax).TypeError?;
        return false;
      }
      ConstrainedEncodable(secondsValue, durationMin, durationMax);
      var formatted := ApplyMinMaxConstraints(secondsValue, constraints.value);
      assert EncodeConstrained(secondsValue, durationMin, durationMax) == Ok(MilliSecondsToDuration(formatted));
      assert ArrowValue(f0.value, factor, up, durationMin, durationMax) == Ok(MilliSecondsToDuration(formatted));
      var changed := InsertFormatted(formatted);
      return true;
    }

    // -------------------------------------------------------------------------
    // Handlers

    /** handleClickFocus. */
    method HandleClickFocus()
      requires Valid()
      modifies this
      ensures Valid()
      ensures Snapshot() == Click(old(Snapshot()))
    {
      var selection := GetCursorSelection(value, selectionStart, selectionEnd);
      var m := selection.markers;
      match selection.zone
      case Days =>
        adjustmentFactor := 86400000.0;
        SetSelectionRange(0, m.days);
      case Hours =>
        adjustmentFactor := 3600000.0;
        SetSelectionRange(m.days + 3, m.hour);
      case Minutes =>
        adjustmentFactor := 60000.0;
        SetSelectionRange(m.hour + 1, m.minute);
      case Seconds =>
        adjustmentFactor := 1000.0;
        SetSelectionRange(m.minute + 1, m.minute + 3);
      case Milliseconds =>
        adjustmentFactor := 1.0;
        SetSelectionRange(m.seconds + 1, m.seconds + 4);
    }

    /** The decision of handleInputFocus: whether it schedules highlighting
        the days. */
    method HandleInputFocus() returns (highlightDays: Result<bool>)
      ensures highlightDays == FocusHighlightsDays(Snapshot(), durationMin, durationMax)
    {
      var constraints := GetMinMaxConstraints(durationMin, durationMax);
      if constraints.TypeError? {
        return TypeError;
      }
      var charsForHours := CharsForHours(constraints.value.max);
      highlightDays := Ok((selectionEnd == 0 && selectionStart == 0)
        || selectionEnd - selectionStart > charsForHours || charsForHours == 0);
    }

    /** insertAndApplyValidations, without the synthetic events. */
    method InsertAndApplyValidations() returns (completed: bool)
      requires Valid()
      modifies this
      ensures Valid()
      ensures completed <==> ApplyValidations(old(Snapshot()), durationMin, durationMax, duration).Ok?
      ensures completed ==> Snapshot() == ApplyValidations(old(Snapshot()), durationMin, durationMax, duration).value
      ensures !completed ==> Snapshot() == old(Snapshot())
    {
      var text := if value != "" then value else duration;
      var decoded := DurationToMilliSeconds(text);
      if decoded.TypeError? {
        return false;
      }
      var constraints := GetMinMaxConstraints(durationMin, durationMax);
      if constraints.TypeError? {
        return false;
      }
      ConstrainedEncodable(decoded.value, durationMin, durationMax);
      var changed := InsertFormatted(ApplyMinMaxConstraints(decoded.value, constraints.value));
      return true;
    }

    /** handleInputBlur. */
    method HandleInputBlur() returns (completed: bool)
      requires Valid()
      modifies this
      ensures Valid()
      ensures completed <==> Blur(old(Snapshot()), durationMin, durationMax).Ok?
      ensures completed ==> Snapshot() == Blur(old(Snapshot()), durationMin, durationMax).value
      ensures !completed ==> Snapshot() == old(Snapshot())
    {
      var mustUpdateValue := ValidateValue(value);
      if mustUpdateValue.TypeError? {
        return false;
      }
      var text := if mustUpdateValue.value.Replace? then mustUpdateValue.value.text else value;
      var decoded := DurationToMilliSeconds(text);
      if decoded.TypeError? {
        return false;
      }
      var constraints := GetMinMaxConstraints(durationMin, durationMax);
      if constraints.TypeError? {
        return false;
      }
      ConstrainedEncodable(decoded.value, durationMin, durationMax);
      var encoded := MilliSecondsToDuration(ApplyMinMaxConstraints(decoded.value, constraints.value));
      if mustUpdateValue.value.Replace? {
        SetValue(encoded);
        return true;
      }
      if value != encoded {
        SetValue(encoded);
      }
      return true;
    }

    /** The repair step of handleUserInput: when validateValue returns a
        repaired text, it is decoded, constrained and written. */
    method RepairValue() returns (completed: bool)
      requires Valid()
      modifies this
      ensures Valid()
      ensures completed <==> Repair(old(Snapshot()), durationMin, durationMax).Ok?
      ensures completed ==> Snapshot() == Repair(old(Snapshot()), durationMin, durationMax).value
      ensures !completed ==> Snapshot() == old(Snapshot())
    {
      var mustUpdateValue := ValidateValue(value);
      if mustUpdateValue.TypeError? {
        return false;
      }
      if mustUpdateValue.value.Replace? {
        var decoded := DurationToMilliSeconds(mustUpdateValue.value.text);
        if decoded.TypeError? {
          return false;
        }
        var constraints := GetMinMaxConstraints(durationMin, durationMax);
        if constraints.TypeError? {
          return false;
        }
        ConstrainedEncodable(decoded.value, durationMin, durationMax);
        var changed := InsertFormatted(ApplyMinMaxConstraints(decoded.value, constraints.value));
      }
      return true;
    }

    /** handleUserInput. The entries and the zone are read before the
        repair; the source's assignment to the days entry when charsForHours
        is below 1 is left out, since nothing reads that entry afterwards.
        Each decision reads the entry left of its zone: the days entry for
        the hours, the hours entry for the minutes and the minutes entry for
        the seconds. */
    method HandleUserInput() returns (completed: bool)
      requires Valid()
      modifies this
      ensures Valid()
      ensures Snapshot() == UserInput(old(Snapshot()), durationMin, durationMax).field
      ensures completed == UserInput(old(Snapshot()), durationMin, durationMax).completed
    {
      ghost var f0 := Snapshot();
      var result := GetSectioned(value);
      if result.TypeError? {
        return false;
      }
      var sectioned := result.value;
      var cursorSelection := GetCursorSelection(value, selectionStart, selectionEnd).zone;
      var constraints := GetMinMaxConstraints(durationMin, durationMax);
      if constraints.TypeError? {
        return false;
      }
      var charsForHours := CharsForHours(constraints.value.max);
      completed := RepairValue();
      if !completed {
        return;
      }
      ghost var g := Repair(f0, durationMin, durationMax).value;
      assert Snapshot() == g;
      var hoursDone := (charsForHours < 1 && cursorSelection == Hours)
         || (|sectioned[0].value| >= charsForHours && cursorSelection == Hours);
      if hoursDone {
        completed := ShiftTimeUnitAreaFocus(false);
        if !completed {
          return;
        }
      }
      ghost var e1 := if hoursDone then Shift(g, false) else Effect(g, true);
      assert Snapshot() == e1.field && e1.completed;
      var minutesDone := |sectioned[1].value| >= 2 && cursorSelection == Minutes;
      if minutesDone {
        completed := ShiftTimeUnitAreaFocus(false);
        if !completed {
          return;
        }
      }
      ghost var e2 := if minutesDone then Shift(e1.field, false) else e1;
      assert Snapshot() == e2.field && e2.completed;
      var minutesLength := EntryLength(sectioned, 2);
      if minutesLength.TypeError? {
        return false;
      }
      if minutesLength.value >= 2 && cursorSelection == Seconds {
        completed := HighlightTimeUnitArea(1000.0);
        return;
      }
      return true;
    }

    /** The first part of handleKeydown: the keys that change the value or
        move the highlight, each followed by preventDefault. */
    method HandleChangeKey(key: string) returns (prevented: bool, completed: bool)
      requires Valid()
      modifies this
      ensures Valid()
      ensures var r := ChangeKeyStep(old(Snapshot()), key, durationMin, durationMax, duration);
        Snapshot() == r.field && prevented == r.prevented && completed == r.completed
    {
      ghost var f0 := Snapshot();
      prevented, completed := false, true;
      var factor := GetAdjustmentFactor(adjustmentFactor);
      if key in ["ArrowDown", "ArrowUp", "ArrowLeft", "ArrowRight", "Enter"] {
        if key == "ArrowDown" || key == "ArrowUp" {
          completed := ChangeValueByArrowKeys(key == "ArrowUp");
          if !completed {
            return;
          }
          ghost var g := ArrowChange(f0, key == "ArrowUp", durationMin, durationMax).value;
          assert Snapshot() == g;
          completed := HighlightTimeUnitArea(factor);
          assert Snapshot() == Highlight(g, factor).field;
        } else if key == "ArrowLeft" || key == "ArrowRight" {
          completed := ShiftTimeUnitAreaFocus(key == "ArrowLeft");
        } else {
          completed := InsertAndApplyValidations();
        }
        if !completed {
          return;
        }
        prevented := true;
      }
    }

    /** The second part of handleKeydown: Tab and Shift+Tab move the
        highlight, with preventDefault, while there is a field to move to. */
    method HandleTab(key: string, shiftKey: bool, prevented0: bool) returns (prevented: bool, completed: bool)
      requires Valid()
      modifies this
      ensures Valid()
      ensures var r := TabStep(KeyEffect(old(Snapshot()), prevented0, true), key, shiftKey);
        Snapshot() == r.field && prevented == r.prevented && completed == r.completed
    {
      prevented, completed := prevented0, true;
      if key == "Tab" {
        var factor := GetAdjustmentFactor(adjustmentFactor);
        if (shiftKey && factor < 3600.0) || (!shiftKey && factor > 1.0) {
          prevented := true;
          completed := ShiftTimeUnitAreaFocus(shiftKey);
        }
      }
    }

    /** The last part of handleKeydown, the additional validations of a
        digit key: whether preventDefault is called. */
    method KeyValidations(key: string, prevented0: bool) returns (prevented: bool, completed: bool)
      ensures KeyEffect(Snapshot(), prevented, completed) == Validations(Snapshot(), key, durationMin, durationMax, prevented0)
    {
      prevented := prevented0;
      var selection := GetCursorSelection(value, selectionStart, selectionEnd);
      var sectioned := Split(value, ":");
      var constraints := GetMinMaxConstraints(durationMin, durationMax);
      if constraints.TypeError? {
        return prevented, false;
      }
      var charsForHours := CharsForHours(constraints.value.max);
      var refused := KeyRefused(key, selection.zone, selection.content, sectioned, charsForHours);
      if refused.TypeError? {
        return prevented, false;
      }
      if refused.value {
        prevented := true;
      }
      completed := true;
    }

    /** handleKeydown; `prevented` says whether preventDefault was called. */
    method HandleKeydown(key: string, shiftKey: bool) returns (prevented: bool, completed: bool)
      requires Valid()
      modifies this
      ensures Valid()
      ensures var r := Keydown(old(Snapshot()), key, shiftKey, durationMin, durationMax, duration);
        Snapshot() == r.field && prevented == r.prevented && completed == r.completed
    {
      ghost var f0 := Snapshot();
      prevented, completed := HandleChangeKey(key);
      if !completed {
        return;
      }
      ghost var e1 := KeyEffect(Snapshot(), prevented, true);
      assert e1 == ChangeKeyStep(f0, key, durationMin, durationMax, duration);
      prevented, completed := HandleTab(key, shiftKey, prevented);
      if !completed {
        return;
      }
      assert KeyEffect(Snapshot(), prevented, true) == TabStep(e1, key, shiftKey);
      if IsNaN(ToNumber(key)) && !(key in ["Backspace", "ArrowDown", "ArrowUp", "Tab"]) {
        assert IsFilteredOut(key);
        return true, true;
      }
      prevented, completed := KeyValidations(key, prevented);
    }
  }
}

=== FILE: validate.dfy ===
/** validateValue (src/html-duration-picker.js lines 389-428): the per-entry
    repair of a value, or `false` when nothing needs repairing. */
module Validate {
  import opened Wrappers
  import opened JsString
  import opened JsNumbers
  import opened Codec

  /** The text validateValue falls back to. */
  const DefaultText: string := "00 | 00:00:00.000"

  /** What validateValue returns: `false`, or the text to use instead. */
  datatype Validation = Unchanged | Replace(text: string)

  /** The repair of entry 0, the days: text that is not a number becomes "00". */
  function RepairedDays(d: string): string
  {
    if IsNaN(ToNumber(d)) then "00" else d
  }

  /** The first test on entries 1 and 2: not a number, or negative. */
  predicate IsInvalidEntry(x: string)
  {
    IsNaN(ToNumber(x)) || LessThan(ToNumber(x), 0.0)
  }

  /** The second test on entries 1 and 2: above 59, or longer than two
      characters. */
  predicate IsOversizedEntry(y: string)
  {
    GreaterThan(ToNumber(y), 59.0) || |y| > 2
  }

  function ClearedClock(x: string): string
  {
    if IsInvalidEntry(x) then "00" else x
  }

  function CappedClock(y: string): string
  {
    if IsOversizedEntry(y) then "59" else y
  }

  /** The repair of entries 1 and 2, which are the hours and the minutes
      (the comments beside them say minutes and seconds): an invalid entry
      becomes "00", and then an oversized one becomes "59". */
  function RepairedClock(x: string): string
  {
    CappedClock(ClearedClock(x))
  }

  /** The five entries after repair; the seconds and milliseconds are never
      looked at. */
  function RepairedEntries(s: seq<Option<string>>): seq<Option<string>>
    requires |s| == 5 && s[0].Some? && s[1].Some? && s[2].Some?
  {
    [Some(RepairedDays(s[0].value)), Some(RepairedClock(s[1].value)), Some(RepairedClock(s[2].value)), s[3], s[4]]
  }

  /** `Array.prototype.join(':')`; an undefined entry joins as the empty text. */
  function JoinEntries(entries: seq<Option<string>>): string
  {
    if |entries| == 0 then ""
    else
      var first := if entries[0].Some? then entries[0].value else "";
      if |entries| == 1 then first else first + ":" + JoinEntries(entries[1..])
  }

  /** What validateValue decides, by its effect: it throws without " | ";
      it falls back to the default unless getSectioned yields five entries;
      otherwise it returns the repaired entries joined with ":" when a repair
      changed an entry, and `false` when none did. */
  function Validated(value: string): Result<Validation>
  {
    var s :- GetSectioned(value);
    if |s| != 5 then Ok(Replace(DefaultText))
    else
      var r := RepairedEntries(s);
      if r == s then Ok(Unchanged) else Ok(Replace(JoinEntries(r)))
  }

  lemma RepairLiterals()
    ensures ToNumber("00") == Finite(0.0) && ToNumber("59") == Finite(59.0)
  {
    ToNumberOfDigits("00");
    TwoDigits("00");
    ToNumberOfDigits("59");
    TwoDigits("59");
  }

  /** The days repair fires exactly when it changes the entry: "00" is a
      number. */
  lemma RepairDaysFiresIffChanges(d: string)
    ensures RepairedDays(d) != d <==> IsNaN(ToNumber(d))
  {
    RepairLiterals();
  }

  /** A clock repair fires exactly when it changes the entry: "00" and "59"
      are never themselves repaired. */
  lemma RepairClockFiresIffChanges(x: string)
    ensures RepairedClock(x) != x <==> IsInvalidEntry(x) || IsOversizedEntry(ClearedClock(x))
  {
    RepairLiterals();
  }

  /** The repaired entries equal the originals exactly when each repaired
      entry equals its original. */
  lemma RepairedEntriesSame(s: seq<Option<string>>)
    requires |s| == 5 && s[0].Some? && s[1].Some? && s[2].Some?
    ensures RepairedEntries(s) == s <==>
      RepairedDays(s[0].value) == s[0].value && RepairedClock(s[1].value) == s[1].value
      && RepairedClock(s[2].value) == s[2].value
  {
    var r := RepairedEntries(s);
    assert r[0] == Some(RepairedDays(s[0].value)) && r[1] == Some(RepairedClock(s[1].value))
      && r[2] == Some(RepairedClock(s[2].value)) && r[3] == s[3] && r[4] == s[4];
    if RepairedDays(s[0].value) == s[0].value && RepairedClock(s[1].value) == s[1].value
      && RepairedClock(s[2].value) == s[2].value {
      EntriesByIndex(r, s);
    }
  }

  /** Validated on a value with five entries. */
  lemma ValidatedFive(value: string, s: seq<Option<string>>)
    requires GetSectioned(value) == Ok(s) && |s| == 5 && s[0].Some? && s[1].Some? && s[2].Some?
    ensures Validated(value) == if RepairedEntries(s) == s then Ok(Unchanged) else Ok(Replace(JoinEntries(RepairedEntries(s))))
  {
  }

  lemma EntriesByIndex(a: seq<Option<string>>, b: seq<Option<string>>)
    requires |a| == 5 && |b| == 5
    requires a[0] == b[0] && a[1] == b[1] && a[2] == b[2] && a[3] == b[3] && a[4] == b[4]
    ensures a == b
  {
  }

  /** The repair of entry 0 of validateValue's local `sectioned` array:
      text that is not a number is overwritten with "00". Reports whether
      it fired. */
  method RepairDaysEntry(entries: seq<Option<string>>) returns (sectioned: seq<Option<string>>, fired: bool)
    requires |entries| > 0 && entries[0].Some?
    ensures sectioned == entries[0 := Some(RepairedDays(entries[0].value))]
    ensures fired <==> RepairedDays(entries[0].value) != entries[0].value
  {
    RepairDaysFiresIffChanges(entries[0].value);
    sectioned := entries;
    fired := false;
    if IsNaN(ToNumber(sectioned[0].value)) {
      sectioned := sectioned[0 := Some("00")];
      fired := true;
    }
  }

  /** The two repairs of one clock entry of validateValue's local
      `sectioned` array: an invalid entry is overwritten with "00", and then
      an oversized one with "59". Reports whether either fired. */
  method RepairClockEntry(entries: seq<Option<string>>, i: nat) returns (sectioned: seq<Option<string>>, fired: bool)
    requires i < |entries| && entries[i].Some?
    ensures sectioned == entries[i := Some(RepairedClock(entries[i].value))]
    ensures fired <==> RepairedClock(entries[i].value) != entries[i].value
  {
    RepairClockFiresIffChanges(entries[i].value);
    sectioned := entries;
    fired := false;
    if IsInvalidEntry(sectioned[i].value) {
      sectioned := sectioned[i := Some("00")];
      fired := true;
    }
    if IsOversizedEntry(sectioned[i].value) {
      sectioned := sectioned[i := Some("59")];
      fired := true;
    }
  }

  /** The repairs of validateValue on its local `sectioned` array: each
      entry is overwritten in turn, and `mustUpdateValue` records whether any
      repair fired. */
  method RepairSectioned(entries: seq<Option<string>>) returns (sectioned: seq<Option<string>>, mustUpdateValue: bool)
    requires |entries| == 5 && entries[0].Some? && entries[1].Some? && entries[2].Some?
    ensures sectioned == RepairedEntries(entries)
    ensures mustUpdateValue <==> sectioned != entries
  {
    RepairedEntriesSame(entries);
    var days, firedDays := RepairDaysEntry(entries);
    var hours, firedHours := RepairClockEntry(days, 1);
    assert hours[1] == Some(RepairedClock(entries[1].value)) && hours[2] == entries[2];
    var minutes, firedMinutes := RepairClockEntry(hours, 2);
    sectioned := minutes;
    mustUpdateValue := firedDays || firedHours || firedMinutes;
    EntriesByIndex(sectioned, RepairedEntries(entries));
  }

  /** validateValue. The branch for fewer than two entries is left out:
      getSectioned always yields at least three. */
  method ValidateValue(value: string) returns (r: Result<Validation>)
    ensures r == Validated(value)
  {
    var result := GetSectioned(value);
    if result.TypeError? {
      return TypeError;
    }
    if |result.value| != 5 {
      return Ok(Replace(DefaultText));
    }
    var sectioned, mustUpdateValue := RepairSectioned(result.value);
    ValidatedFive(value, result.value);
    if mustUpdateValue {
      return Ok(Replace(JoinEntries(sectioned)));
    }
    return Ok(Unchanged);
  }

  /** After repair, the hours and minutes entries are numbers from 0 to 59
      of at most two characters, and the days entry is a number. */
  lemma RepairedInRange(d: string, x: string)
    ensures !IsNaN(ToNumber(RepairedDays(d)))
    ensures |RepairedClock(x)| <= 2 && ToNumber(RepairedClock(x)).Finite?
    ensures 0.0 <= ToNumber(RepairedClock(x)).val <= 59.0
  {
    RepairLiterals();
  }

  /** No getSectioned entry holds " | ": the first is a part of the split on
      it, and the others are parts of splits of the second part. */
  lemma SectionedFree(v: string)
    requires GetSectioned(v).Ok?
    ensures var s := GetSectioned(v).value;
      forall k :: 0 <= k < |s| && s[k].Some? ==> Free(s[k].value, " | ")
  {
    var partitions := Split(v, " | ");
    SplitCount(v, " | ");
    FreeIndexOf(partitions[0], " | ");
    FreeIndexOf(partitions[1], " | ");
    var sect2 := Split(partitions[1], ".");
    SplitFree(partitions[1], ".", " | ");
    var sect3 := Split(sect2[0], ":");
    SplitFree(sect2[0], ":", " | ");
    var s := GetSectioned(v).value;
    assert s == [Some(partitions[0])] + Present(sect3) + [if |sect2| > 1 then Some(sect2[1]) else None];
    forall k | 0 <= k < |s| && s[k].Some? ensures Free(s[k].value, " | ") {
      if 1 <= k <= |sect3| {
        assert s[k] == Present(sect3)[k - 1];
      }
    }
  }

  /** Entries free of " | " join with ":" into a text free of it. */
  lemma {:induction false} JoinEntriesFree(entries: seq<Option<string>>)
    requires forall k :: 0 <= k < |entries| && entries[k].Some? ==> Free(entries[k].value, " | ")
    ensures Free(JoinEntries(entries), " | ")
  {
    if |entries| > 1 {
      var first := if entries[0].Some? then entries[0].value else "";
      var rest := entries[1..];
      assert forall k :: 0 <= k < |rest| ==> rest[k] == entries[k + 1];
      JoinEntriesFree(rest);
      FreeJoined(first, ':', JoinEntries(rest), " | ");
      assert JoinEntries(entries) == first + [':'] + JoinEntries(rest);
    }
  }

  /** The repairs write "00" and "59", which lack " | ", so they keep the
      entries free of it. */
  lemma RepairedFree(s: seq<Option<string>>)
    requires |s| == 5 && s[0].Some? && s[1].Some? && s[2].Some?
    requires forall k :: 0 <= k < |s| && s[k].Some? ==> Free(s[k].value, " | ")
    ensures var r := RepairedEntries(s);
      forall k :: 0 <= k < |r| && r[k].Some? ==> Free(r[k].value, " | ")
  {
    var r := RepairedEntries(s);
    assert Free("00", " | ") && Free("59", " | ");
    assert r[0].value == "00" || r[0].value == s[0].value;
    assert r[1].value == "00" || r[1].value == "59" || r[1].value == s[1].value;
    assert r[2].value == "00" || r[2].value == "59" || r[2].value == s[2].value;
    assert r[3] == s[3] && r[4] == s[4];
  }

  /** A repair of five entries that fires joins them with ":", which loses
      the " | " every entry lacks, so the repaired text cannot be decoded. */
  lemma RepairUndecodable(v: string, t: string)
    requires GetSectioned(v).Ok? && |GetSectioned(v).value| == 5 && Validated(v) == Ok(Replace(t))
    ensures IndexOf(t, " | ") < 0
    ensures DurationToMilliSeconds(t).TypeError?
  {
    var s := GetSectioned(v).value;
    var r := RepairedEntries(s);
    assert t == JoinEntries(r);
    SectionedFree(v);
    RepairedFree(s);
    JoinEntriesFree(r);
    FreeIndexOf(t, " | ");
    var first := r[0].value;
    assert t == first + ":" + JoinEntries(r[1..]);
    assert t[|first|] == ':';
    DecodeOutcome(t);
  }

  /** A value getSectioned splits into other than five entries is replaced
      by the encoding of 0, which decodes to 0. */
  lemma ValidatedFallback(v: string)
    requires GetSectioned(v).Ok? && |GetSectioned(v).value| != 5
    ensures Validated(v) == Ok(Replace(Encode(0)))
    ensures DurationToMilliSeconds(Encode(0)) == Ok(Finite(0.0))
  {
    assert Validated(v) == Ok(Replace(DefaultText));
    DefaultTextZero();
  }

  /** The replacement text is the encoding of 0, and decodes to 0. */
  lemma DefaultTextZero()
    ensures DefaultText == Encode(0)
    ensures DurationToMilliSeconds(Encode(0)) == Ok(Finite(0.0))
  {
    EncodeZero();
    RoundTrip(0);
  }

  /** A shaped value needs no repair exactly when its hours and minutes are
      at most 59; the seconds are not checked. */
  lemma ValidateShaped(v: string)
    requires IsShaped(v)
    ensures Validated(v) == Ok(Unchanged) <==> DigitsValue(HoursText(v)) <= 59 && DigitsValue(MinutesText(v)) <= 59
    ensures Validated(v).Ok?
  {
    ShapedSectioned(v);
    ToNumberOfDigits(DaysText(v));
    ToNumberOfDigits(HoursText(v));
    ToNumberOfDigits(MinutesText(v));
    RepairDaysFiresIffChanges(DaysText(v));
    RepairClockFiresIffChanges(HoursText(v));
    RepairClockFiresIffChanges(MinutesText(v));
  }

  /** validateValue returns `false` for every output of milliSecondsToDuration
      on a whole number. */
  lemma ValidateEncoded(n: nat)
    ensures Validated(Encode(n)) == Ok(Unchanged)
  {
    EncodeCanonical(n);
    ValidateShaped(Encode(n));
  }
}

=== FILE: wrappers.dfy ===
/** Failure-carrying result types shared by the model. */
module Wrappers {

  datatype Option<+T> = None | Some(value: T)

  /** The outcome of a JavaScript expression that may throw. Every exception the
      picker can raise is a TypeError from reading a property (`split`,
      `length`) of `undefined`. */
  datatype Result<+T> = Ok(value: T) | TypeError {
    predicate IsFailure() { TypeError? }

    function PropagateFailure<U>(): Result<U>
      requires TypeError?
    {
      TypeError
    }

    function Extract(): T
      requires Ok?
    {
      value
    }
  }
}
